=== FILE: README.md ===
# go-project-structure observability layer in Dafny

This project models the observability layer of the `go-project-structure`
service: the HTTP middlewares that write access logs and metrics, the metric
backends, the trace-exporter selection, the response envelopes, the REST
error handler, the observability manager, the `ylog` logging helpers and the
build information.

The parts of the service that work by changing state become classes whose
methods carry `modifies` clauses and loop invariants. Examples are the
middlewares, the option-driven constructors, the metric registry and its
instruments, and the response writers. Each such method is proved against a
specification function, and the properties the service promises are lemmas
about those functions. The pure parts (level mapping, name normalisation,
envelope tables, status clamping, build-info parsing) are functions with
lemmas.

Foreign code stands in as follows:

- **Logging.** A logger is a value naming its implementation (zap with its
  level and static fields, or no-op). Every call on a logger is appended to a
  `LogSink`, and so is what the zap implementation hands to zap.
- **HTTP bodies.** A body is a byte sequence with an injectable read failure
  and close failure. A response writer has an injectable write failure.
  Handlers and transports are functions from the request they see to their
  reply.
- **JSON.** Validity is a `JsonCheck` predicate passed in as a parameter.
- **Tracing.** A tracer provider and a tracer are tags. The trace headers a
  propagator writes, and the span context handed to a logger, are
  parameters.
- **Clock and random IDs.** Elapsed times, the current time and fresh UUIDs
  are parameters.
- **Go errors.** An error is a datatype carrying its `Error()` text and its
  `Unwrap` chain. The chain is walked the way `errors.As` walks it.

Modules follow the source packages:

| module | models |
|---|---|
| `Common` | shared values and the Go helpers used: `strings`, `strconv`, `fmt.Errorf("...: %w")`, `multierr` |
| `Ylog`, `YlogIOWriter` | `pkg/ylog` |
| `Http` | the `net/http` surface the middlewares use |
| `Tracing` | the OpenTelemetry tracer surface |
| `ServerLogger`, `ServerPrometheus`, `TrailingSlash` | `internal/pkg/httpservermw` |
| `ClientCapture`, `ClientLogger`, `ClientLogOnly` | `internal/pkg/httpclientmw` |
| `EchoLogger` | `pkg/httpmw` |
| `Metric`, `MetricsPrometheus`, `MetricsNoop`, `MetricsCombine`, `StringOrder` | `pkg/metrics` |
| `TracerExporter` | `pkg/oteltracer` |
| `TracerExporterInternal` | `internal/pkg/oteltracer` |
| `Respbuilder`, `RespbuilderStatus` | `pkg/respbuilder` |
| `Restapi` | `transport/restapi` |
| `Observability` | `internal/pkg/observability` |
| `Assets` | `assets` |

Where the code and its tests disagree, the model follows the code:

- **Prometheus middleware options.** `PrometheusOptWithRegisterer(nil)` and
  `PrometheusOptWithGatherer(nil)` return an error.
- **Internal exporter options.** In the `internal/pkg/oteltracer` exporter,
  `WithContext(nil)` and `WithLogger(nil)` are ignored and never fail.
- **Error envelope codes.** `resp_error.go` has no `ErrUnknown` entry, so
  every code answers `E0`/`ErrorGeneral`.
- **Counter lookup.** `pkg/metrics` `GetCounterVec` returns the (nil) lookup
  result when the name was missing. `GetGaugeVec` and `GetTimerVec` return
  the new instrument in that case.

`pkg/metrics/combine.go` expects children with the `Metric` interface of
`metric.go`. `prometheus.go` and `noop.go` do not implement that interface.
A Combine child is therefore modelled only through its answers.

## Model

| member | source | states |
|---|---|---|
| Common.TrimSpace | assets/vars.go:23 | strings.TrimSpace: the result has no surrounding white space, is empty exactly when the input is all white space, and a trimmed input is kept |
| Common.TrimLeftSpace | assets/vars.go:23 | the result is a suffix of the input, only white space was dropped, and it does not start with white space |
| Common.TrimRightSpace | assets/vars.go:23 | the result is a prefix of the input, only white space was dropped, and it does not end with white space |
| Common.UpperChar | pkg/ylog/global.go:18 | unicode.ToUpper on one character, for ASCII, Latin-1, U+0131 and U+017F: a-z become A-Z, U+00E0..U+00FE (but U+00F7) become U+00C0..U+00DE, white space stays white space, ASCII stays ASCII |
| Common.ToUpper | pkg/ylog/global.go:18 | strings.ToUpper: same length, each character mapped as UpperChar says |
| Common.ToUpperIdempotent | pkg/oteltracer/exporter.go:101 | upper-casing twice is upper-casing once |
| Common.ToUpperKeepsTrimmed | pkg/oteltracer/exporter.go:100-101 | upper-casing a trimmed name leaves it trimmed |
| Common.Utf8Width | pkg/ylog/global.go:93 | a character takes one to four UTF-8 bytes, one exactly when it is ASCII |
| Common.Utf8Len | pkg/ylog/global.go:93 | the UTF-8 byte count of a text is at least its number of characters |
| Common.Utf8LenAppend | pkg/ylog/global.go:93 | the byte count of a concatenation is the sum of the byte counts |
| Common.Utf8LenAscii | pkg/ylog/global.go:93 | a text has one byte per character exactly when it is ASCII |
| Common.TrimRightChar | internal/pkg/httpservermw/trailing_slash.go:12 | strings.TrimRight with one character: a prefix of the input, with only that character removed and none left at the end |
| Common.Join | pkg/respbuilder/resp_ok.go:34 | strings.Join: empty for no parts, the part itself for one, and it always starts with the first part |
| Common.Wrap | transport/restapi/http.go:31 | fmt.Errorf("prefix: %w"): the prefix, ": ", then the wrapped message |
| Common.ErrorText | internal/pkg/httpservermw/logger.go:238-239 | multierr's message: one error keeps its own message; several start with the first |
| Common.CumulativeError | internal/pkg/httpservermw/logger.go:237-243 | the record's Error: empty exactly when no error was appended |
| Common.Itoa | internal/pkg/httpservermw/prometheus.go:177 | strconv.Itoa: non-empty, and a leading '-' exactly for negative numbers |
| Common.Atoi | assets/vars.go:29 | strconv.Atoi: only 64-bit values are accepted; a string of digits reads as its decimal value |
| Common.DecimalValueOfNatToDecimal | assets/vars.go:29 | the decimal digits of a natural number read back as that number |
| Common.AtoiItoa | assets/vars.go:29 | Atoi reads back what Itoa writes, for every 64-bit value |
| Ylog.JsonOrText | pkg/ylog/logger_io_writer.go:49-52 | the logged value is the parsed JSON when the bytes are JSON, otherwise the string |
| Ylog.KV | pkg/ylog/global.go:61-74 | KV(k, v).Key() == k and KV(k, v).Value() == v |
| Ylog.LevelOf | pkg/ylog/global.go:17-31 | the level is chosen by the upper-cased name (not trimmed); any other name gives Debug |
| Ylog.SetupZapLogger | pkg/ylog/global.go:16-51 | a zap logger, with no static fields, at the level the name selects |
| Ylog.LevelOfIgnoresCase | pkg/ylog/global.go:18 | the level does not depend on the case of the name |
| Ylog.AnyFields | pkg/ylog/logger_zap.go:74-76 | one zap.Any per field, in order, with the field's key and value |
| Ylog.TraceFields | pkg/ylog/logger_zap.go:63-72 | trace_id then span_id when the context carries a span, nothing otherwise |
| Ylog.LocalFieldZapFields | pkg/ylog/logger_zap.go:62-79 | the loop gives the trace fields and then the caller's fields in order; the length is len(fields)+2 with a span and len(fields) without |
| Ylog.EntriesOf | pkg/ylog/logger_zap.go:22-44 | the no-op logger hands nothing on; zap gets one entry at the call's level, with the message and the static, trace and call fields in that order |
| Ylog.Log | pkg/ylog/logger_zap.go:22-44 | each level method records exactly one call and forwards the same message and fields at that level; on a zap logger Panic panics and Fatal exits after writing, and every other call returns |
| Ylog.LogAccess | pkg/ylog/logger_zap.go:46-48 | Access is one Info entry whose only call field is "data" holding the record |
| Ylog.WithStaticFields | pkg/ylog/logger_zap.go:50-60 | a new zap logger at the same level, with the receiver's static fields followed by the new ones; the receiver is unchanged |
| Ylog.WithStaticFieldsTwice | pkg/ylog/logger_zap.go:50-60 | adding static fields in two steps equals adding them at once |
| Ylog.ErrOutLine | pkg/ylog/global.go:83-91 | the line starts with the fixed JSON prefix, holds the trimmed input just before the closing `"}`, and ends in a newline |
| Ylog.ErrOutPrefix | pkg/ylog/global.go:83-89 | what errOut writes before the error text starts with the fixed JSON prefix |
| Ylog.ErrOutLineBytes | pkg/ylog/global.go:83-93 | the byte count of an errOut line is the prefix's, plus the trimmed error text's UTF-8 bytes, plus three |
| Ylog.Framed | pkg/ylog/global.go:83-91 | in head + t + tail, head is a prefix, t sits just before tail, and tail ends the line |
| Ylog.ErrOutWrite | pkg/ylog/global.go:79-94 | on success exactly that line is printed and its UTF-8 byte count returned; a print failure is returned with nothing printed |
| YlogIOWriter.ApplyOpt | pkg/ylog/logger_io_writer.go:13-33 | a nil context and a blank message are ignored; a message is stored trimmed |
| YlogIOWriter.ApplyOptsKeepsMessage | pkg/ylog/logger_io_writer.go:24-33 | starting from a trimmed non-blank message, the message stays trimmed and non-blank after any options |
| YlogIOWriter.LoggerIOWriter.WrapIOWriter | pkg/ylog/logger_io_writer.go:59-75 | a nil logger becomes the no-op logger; the defaults are the background context and the default message, and the options apply in order |
| YlogIOWriter.LoggerIOWriter.Apply | pkg/ylog/logger_io_writer.go:13-33 | one option changes the context and message as ApplyOpt says, and nothing else |
| YlogIOWriter.LoggerIOWriter.Write | pkg/ylog/logger_io_writer.go:48-56 | returns (len(p), nil) and makes exactly one Debug call with the writer's context and message and "data" holding the JSON value or the string |
| Http.HttpHeaderToSimpleMap | internal/pkg/httpservermw/logger.go:256-263 | the loop keeps exactly the header's keys and maps each to its values joined with " " |
| Http.SetAll | internal/pkg/httpservermw/logger.go:226-228 | Header().Set for every entry: each copied key holds one value, and other keys are untouched |
| Http.SetAllReadsBack | internal/pkg/httpservermw/logger.go:226-228 | copying a header this way and reading it back as a simple map gives the source's simple map |
| Http.SetAllPointwise | internal/pkg/httpservermw/logger.go:226-228 | a header that agrees key by key with the copy is the copy |
| Http.CanonicalKey | pkg/httpmw/logger.go:54 | CanonicalMIMEHeaderKey: same length; a key with a non-token character is kept as it is |
| Http.Fold | pkg/httpmw/logger.go:54 | folding a character never makes or removes a '-' |
| Http.CanonicalFromAt | pkg/httpmw/logger.go:54 | each letter is upper-cased at the start of the key or after '-', and lower-cased elsewhere |
| Http.CanonicalFromKeepsTokens | pkg/httpmw/logger.go:54 | folding keeps every character a token character and keeps every '-' |
| Http.CanonicalFromIdempotent | pkg/httpmw/logger.go:54 | folding twice is folding once |
| Http.CanonicalKeyIdempotent | pkg/httpmw/logger.go:54 | a canonical key is its own canonical form |
| Http.CanonicalKeyFixed | pkg/httpmw/logger.go:54 | a key of token characters already in canonical case is its own canonical form |
| Http.CanonicalFromIgnoresCase | pkg/httpmw/logger.go:54 | keys differing only in the case of their letters fold alike |
| Http.CanonicalKeyIgnoresCase | pkg/httpmw/logger.go:54 | Header.Get finds the same entry for two spellings of a name that differ only in case |
| Http.HeaderGet | pkg/httpmw/logger.go:54 | Header.Get: the first value stored under the canonical form of the key, or "" |
| Http.DrainBody | internal/pkg/httpservermw/logger.go:145-157 | io.Copy then Close: the bytes read (none after a read failure) and the wrapped copy and close errors, in that order |
| Http.DrainBodyRestores | internal/pkg/httpservermw/logger.go:156 | the body put back reads the same buffer again with no error |
| Http.Captured | internal/pkg/httpservermw/logger.go:159-162 | the captured body is the parsed JSON value, the raw string when invalid and non-empty, or absent when empty |
| Http.CapturedKeepsBytes | internal/pkg/httpservermw/logger.go:206-208 | a non-empty body is always captured with its bytes, as JSON or as text |
| Http.UrlString | internal/pkg/httpservermw/logger.go:177 | URL.String: scheme and host when present, then the path |
| Http.RequestDrained | internal/pkg/httpservermw/logger.go:145-157 | no body means nothing read and no error; otherwise the body is drained |
| Http.Rebuffered | internal/pkg/httpservermw/logger.go:156 | the downstream request is the original with its body replaced by the buffered bytes |
| Http.BufferRequestBody | internal/pkg/httpservermw/logger.go:145-157 | the request's body is replaced by the buffer, and the buffer and errors are returned |
| Http.ResponseDrained | internal/pkg/httpclientmw/logger.go:195-207 | no response body means nothing read and no error; otherwise the body is drained |
| Http.RebufferedResponse | internal/pkg/httpclientmw/logger.go:206 | the response handed back has its body replaced by the buffered bytes |
| Http.BufferResponseBody | internal/pkg/httpclientmw/logger.go:195-207 | the response's body is replaced by the buffer, and the buffer and errors are returned |
| Http.ResponseWriter.Recorder | internal/pkg/httpservermw/logger.go:185 | httptest.NewRecorder: empty header, no status, empty body, and writes never fail |
| Http.ResponseWriter.SetHeader | internal/pkg/httpservermw/logger.go:227 | Header().Set(k, v) for a canonical key k: k holds exactly [v], nothing else changes |
| Http.ResponseWriter.WriteHeader | internal/pkg/httpservermw/logger.go:230 | the first WriteHeader fixes the status; later ones change nothing |
| Http.ResponseWriter.Write | internal/pkg/httpservermw/logger.go:233 | the bytes are appended (status 200 if none was written) unless the writer fails, and its failure is returned |
| Http.Written | internal/pkg/httpservermw/logger.go:233 | a write fixes a status and appends the bytes unless it fails |
| Http.Forwarded | internal/pkg/httpservermw/logger.go:225-235 | the live writer after the copy: the recorded headers space-joined, the recorded status, then the recorded body |
| Http.CopyHeaders | internal/pkg/httpservermw/logger.go:226-228 | the loop leaves the writer's header equal to SetAll of the recorded simple map, and nothing else changes |
| Http.CopyRecorded | internal/pkg/httpservermw/logger.go:225-235 | the headers, the status and then the body of a recorded answer are copied; the live writer ends in the Forwarded state and its write failure is returned |
| Http.Delivered | internal/pkg/httpservermw/logger.go:188 | the writer after a handler's reply: its headers set, its status if any, its body written |
| Http.Downstream.ServeHTTP | internal/pkg/httpservermw/logger.go:188 | the wrapped handler sees the request once and its reply reaches the writer it was given |
| Http.Transport.RoundTrip | internal/pkg/httpclientmw/logger.go:180 | the base transport sees the request once and returns its response and error |
| Tracing.TracerOf | internal/pkg/httpclientmw/logger.go:89-91 | provider.Tracer(name) keeps the provider and the instrumentation name |
| TrailingSlash.TrimSlashes | internal/pkg/httpservermw/trailing_slash.go:12 | no trailing '/'; the input is the result followed only by '/' characters |
| TrailingSlash.TrimSlashesIdempotent | internal/pkg/httpservermw/trailing_slash.go:12 | trimming twice is trimming once |
| TrailingSlash.TrimSlashesIgnoresTrailing | internal/pkg/httpservermw/trailing_slash.go:12 | adding any number of '/' to a path does not change the result |
| TrailingSlash.TrimSlashesExamples | internal/pkg/httpservermw/trailing_slash_test.go:25-32 | "/ping/////" gives "/ping", "/" gives "", and "/a/b" is kept |
| TrailingSlash.Stripped | internal/pkg/httpservermw/trailing_slash.go:11-13 | only the path of a request with a URL is trimmed; method, header, body and a missing URL are kept |
| TrailingSlash.RemoveTrailingSlash.constructor | internal/pkg/httpservermw/trailing_slash.go:9-10 | the middleware wraps the given handler |
| TrailingSlash.RemoveTrailingSlash.ServeHTTP | internal/pkg/httpservermw/trailing_slash.go:10-16 | the path is trimmed in place (nil request or URL untouched), next is called exactly once with it, and its reply reaches the writer |
| ServerLogger.ApplyOpt | internal/pkg/httpservermw/logger.go:36-75 | the message is taken as given; a nil logger or tracer provider selects the no-op one; the filter is replaced |
| ServerLogger.Recorded | internal/pkg/httpservermw/logger.go:185-212 | the recorder holds the handler's headers plus the injected trace headers, the handler's body, and its status (200 by default) |
| ServerLogger.ServeErrors | internal/pkg/httpservermw/logger.go:145-154 | none exactly when the request body was read and closed cleanly and the live-body write succeeded; the request body's errors come first, and a failed write adds exactly one wrapped error, last |
| ServerLogger.AccessRecord | internal/pkg/httpservermw/logger.go:164-245 | method, host, URL string, request header and captured body, recorded status, header and body, accumulated error and elapsed time |
| ServerLogger.HandlerReadsOriginalBody | internal/pkg/httpservermw/logger.go:145-157 | after a clean read the handler gets exactly the original bytes |
| ServerLogger.ClientGetsRecordedAnswer | internal/pkg/httpservermw/logger.go:225-235 | the client gets the recorded status, the recorded body unless the write fails, and every recorded header |
| ServerLogger.RecordErrorOnlyOnFailure | internal/pkg/httpservermw/logger.go:237-243 | the record's Error is empty exactly when the copy, the close and the write all succeeded |
| ServerLogger.LogMiddleware.LoggingMiddleware | internal/pkg/httpservermw/logger.go:85-99 | defaults, then every option in order, then the tracer from the final provider |
| ServerLogger.LogMiddleware.Apply | internal/pkg/httpservermw/logger.go:36-75 | one option changes the settings as ApplyOpt says and never fails |
| ServerLogger.LogMiddleware.ServeHTTP | internal/pkg/httpservermw/logger.go:103-248 | a filtered-out request goes to next unchanged and logs nothing; otherwise the handler gets the buffered body, the client gets the recorded answer, and exactly one access record is logged |
| ServerLogger.LogMiddleware.ServeLogged | internal/pkg/httpservermw/logger.go:111-248 | the logged path: buffer, serve into a recorder, copy to the client, then one Access call with the record |
| ServerLogger.LogMiddleware.RecordNext | internal/pkg/httpservermw/logger.go:185-212 | the handler sees the request once and the fresh recorder holds its answer plus the injected trace headers |
| ServerPrometheus.Registry.Register | internal/pkg/httpservermw/prometheus.go:133 | a collector already registered is refused; otherwise it is added |
| ServerPrometheus.ApplyOpt | internal/pkg/httpservermw/prometheus.go:23-60 | enable-Go-metric always succeeds; a nil registerer or gatherer is an error |
| ServerPrometheus.FirstFailureWins | internal/pkg/httpservermw/prometheus.go:116-121 | a nil registerer option fails the construction whatever follows it |
| ServerPrometheus.GoMetricOptionsKeepRegisterer | internal/pkg/httpservermw/prometheus.go:116-126 | enable-Go-metric options alone never fail and leave the registerer unset |
| ServerPrometheus.Registration | internal/pkg/httpservermw/prometheus.go:132-145 | the counter is registered and the Go collector exactly when enabled; the histogram never is; a duplicate fails |
| ServerPrometheus.Bump | internal/pkg/httpservermw/prometheus.go:176-180 | Inc adds one to that label combination and leaves every other one unchanged |
| ServerPrometheus.Observe | internal/pkg/httpservermw/prometheus.go:182-186 | one duration appended under that label combination, the others untouched |
| ServerPrometheus.Pick | internal/pkg/httpservermw/prometheus.go:176-180 | a label combination taken from a non-empty set |
| ServerPrometheus.TotalRemove | internal/pkg/httpservermw/prometheus.go:176-180 | the total count splits into one combination's count plus the rest |
| ServerPrometheus.BumpAddsOne | internal/pkg/httpservermw/prometheus.go:176-180 | each counted request adds exactly one to the total count |
| ServerPrometheus.CountsAddUp | internal/pkg/httpservermw/prometheus.go:176-180 | after n counted requests the total count has grown by n |
| ServerPrometheus.RecorderAfter | internal/pkg/httpservermw/prometheus.go:171-172 | the recorder holds the handler's headers, body and status (200 by default) |
| ServerPrometheus.Prometheus.constructor | internal/pkg/httpservermw/prometheus.go:108-114 | the default settings, the no-op logger and no counted requests or durations |
| ServerPrometheus.Prometheus.Apply | internal/pkg/httpservermw/prometheus.go:23-60 | one option changes the settings or fails as ApplyOpt says; the counters are untouched |
| ServerPrometheus.Prometheus.ServeHTTP | internal/pkg/httpservermw/prometheus.go:151-207 | "/metrics" is served by the exposition handler and counts nothing; any other request is served into a recorder, counted once under (status, method, path), timed under the same labels, and copied to the client, and a failed body write is only logged |
| ServerPrometheus.Prometheus.ServeCounted | internal/pkg/httpservermw/prometheus.go:171-207 | the handler answers into a recorder; the request is counted and timed under (status, method, path); the answer is copied to the client; a write failure is logged once |
| ServerPrometheus.Prometheus.Record | internal/pkg/httpservermw/prometheus.go:176-186 | one more request and one more duration under the same labels; nothing else changes |
| ServerPrometheus.PrometheusMiddleware | internal/pkg/httpservermw/prometheus.go:81-148 | a nil handler fails first, then the first failing option, then a nil registerer, then a nil gatherer, then a duplicate registration; when every check passes and registration succeeds, the middleware is returned with no error and the counter (and the Go collector when enabled) is registered; when the Go collector is refused the counter stays registered; no other registry changes, and none at all on an earlier failure |
| ServerPrometheus.NoOptionsFails | internal/pkg/httpservermw/prometheus.go:124-126 | without options the registerer is nil, so construction fails |
| ClientCapture.Trip | internal/pkg/httpclientmw/logger.go:179-183 | a nil request never reaches the transport and gives the nil-request error; otherwise the transport's own answer for the rebuffered request |
| ClientCapture.RequestBuffer | internal/pkg/httpclientmw/logger.go:154-167 | a nil request buffers nothing; otherwise the request body is drained |
| ClientCapture.ResponseBuffer | internal/pkg/httpclientmw/logger.go:195-207 | no response buffers nothing; otherwise the response body is drained |
| ClientCapture.ClientErrors | internal/pkg/httpclientmw/logger.go:154-207 | none exactly when the request body, the round trip and the response body all succeeded; the request body's errors come first, then the wrapped round-trip error when there is one, then the response body's errors last |
| ClientCapture.ClientRecord | internal/pkg/httpclientmw/logger.go:214-247 | method and request only for a request, host and escaped path only with a URL, response exactly when the transport returned one, accumulated error, elapsed time |
| ClientCapture.NilRequestRecord | internal/pkg/httpclientmw/logger.go:179-183 | a nil request gives no response and a record carrying only the nil-request error |
| Http.DrainErrorsNonEmpty | internal/pkg/httpclientmw/logger.go:156-164 | every body error is a wrapped, non-empty message |
| Common.CumulativeErrorEmpty | internal/pkg/httpclientmw/logger.go:242-243 | the accumulated message is empty exactly when no error was appended |
| ClientCapture.ClientRecordErrorOnlyOnFailure | internal/pkg/httpclientmw/logger.go:242-247 | the record's Error is empty exactly when no body read or close failed and the transport returned no error |
| ClientCapture.BodyFailuresNotSurfaced | internal/pkg/httpclientmw/logger.go:154-180 | body failures never become the RoundTrip error; the transport sees the original bytes, or an empty body after a failed copy |
| ClientCapture.ResponseBodyReReadable | internal/pkg/httpclientmw/logger.go:206 | the caller reads the buffered response bytes again with no error |
| ClientCapture.TripBuffered | internal/pkg/httpclientmw/logger.go:154-207 | the request body is buffered; the transport is called unless the request is nil; the response body is buffered; the buffers and the result match RequestBuffer, Trip and ResponseBuffer |
| ClientCapture.Exchange | internal/pkg/httpclientmw/logger.go:146-247 | buffers, calls the transport unless the request is nil, buffers the response, and returns the transport's own response and error with the record |
| ClientLogger.ApplyOpt | internal/pkg/httpclientmw/logger.go:28-76 | a nil transport becomes the default one, an empty message is ignored, and a nil logger or tracer becomes the no-op one |
| ClientLogger.MessageNeverEmpty | internal/pkg/httpclientmw/logger.go:41-50 | the message is never empty, whatever the options |
| ClientLogger.Injecting | internal/pkg/httpclientmw/logger.go:138-144 | the propagator's headers are added to a request and nothing else changes; a nil request stays nil |
| ClientLogger.RoundTripper.NewHttpRoundTripper | internal/pkg/httpclientmw/logger.go:95-120 | defaults, options in order, then the tracer from the final provider |
| ClientLogger.RoundTripper.Apply | internal/pkg/httpclientmw/logger.go:28-76 | one option changes the settings as ApplyOpt says and never fails |
| ClientLogger.RoundTripper.RoundTrip | internal/pkg/httpclientmw/logger.go:123-252 | headers injected, then the exchange; exactly one access record with the span context; the transport's own response and error are returned |
| ClientLogOnly.ApplyOpt | internal/pkg/httpclientmw/log_only.go:21-56 | a nil transport becomes the default one, an empty message is ignored, and a nil logger becomes the no-op one |
| ClientLogOnly.MessageNeverEmpty | internal/pkg/httpclientmw/log_only.go:34-43 | starting from "outgoing request logger", the message is never empty |
| ClientLogOnly.LoggerRoundTripper.NewLogMw | internal/pkg/httpclientmw/log_only.go:69-84 | defaults, then every option in order |
| ClientLogOnly.LoggerRoundTripper.Apply | internal/pkg/httpclientmw/log_only.go:21-56 | one option changes the settings as ApplyOpt says and never fails |
| ClientLogOnly.LoggerRoundTripper.RoundTrip | internal/pkg/httpclientmw/log_only.go:87-203 | the exchange, then exactly one access record with the request's context; the transport's own response and error are returned |
| EchoLogger.RequestId | pkg/httpmw/logger.go:54-57 | the trimmed X-Request-ID header, looked up under its canonical key, when not blank, else the fresh ID |
| EchoLogger.RequestIdSpelling | pkg/httpmw/logger.go:54 | "X-Request-ID" and "X-Request-Id" are token characters differing only in case, and the latter is in canonical case |
| EchoLogger.RequestIdKeyCanonical | pkg/httpmw/logger.go:54 | the canonical form of "X-Request-ID" is "X-Request-Id" |
| EchoLogger.CorrelationIdSpelling | pkg/httpmw/logger.go:94 | "X-Correlation-ID" and "X-Correlation-Id" are token characters differing only in case, and the latter is in canonical case |
| EchoLogger.CorrelationIdKeyCanonical | pkg/httpmw/logger.go:94 | the canonical form of "X-Correlation-ID" is "X-Correlation-Id" |
| EchoLogger.ClientRequestIdUsed | pkg/httpmw/logger.go:54-57 | a request whose canonical X-Request-Id header is not blank gets its trimmed value as the request ID |
| EchoLogger.RequestIdIsTrimmed | pkg/httpmw/logger.go:54 | the request ID never has surrounding white space |
| EchoLogger.NilSkipPathLogsNothing | pkg/httpmw/logger.go:150-155 | a nil skip set logs nothing; an empty skip set logs every route |
| EchoLogger.TooLargeIsAscii | pkg/httpmw/logger.go:104 | the replacement note is ASCII text |
| EchoLogger.LoggedBody | pkg/httpmw/logger.go:102-105 | a captured body of 1,000,000 bytes or more is replaced by the note; a smaller one is kept |
| EchoLogger.LoggedBodyBounded | pkg/httpmw/logger.go:102-105 | what is logged is always under 1,000,000 bytes |
| EchoLogger.RequestBody | pkg/httpmw/logger.go:74-82 | the request bytes: empty without a body or after a failed read |
| EchoLogger.RequestData | pkg/httpmw/logger.go:84-86 | a JSON request body is cleared; otherwise data_object and data_string hold the raw bytes |
| EchoLogger.ResponseData | pkg/httpmw/logger.go:107-111 | a JSON response body gives the parsed object and an empty string; otherwise no object and the string |
| EchoLogger.JsonResponseNotDuplicated | pkg/httpmw/logger.go:107-111 | a JSON response is carried only in data_object |
| EchoLogger.WrittenAllAppends | pkg/httpmw/logger.go:176-178 | writes keep the headers, fix a status, and append every chunk in order unless the writer fails |
| EchoLogger.ClientGetsAllChunks | pkg/httpmw/logger.go:89-92 | the client gets every byte the handler writes |
| EchoLogger.BodyDumpResponseWriter.constructor | pkg/httpmw/logger.go:88-91 | the tee writes to the live writer and starts with an empty capture buffer |
| EchoLogger.BodyDumpResponseWriter.WriteHeader | pkg/httpmw/logger.go:172-174 | WriteHeader goes to the live writer only |
| EchoLogger.BodyDumpResponseWriter.Write | pkg/httpmw/logger.go:176-178 | each write reaches the live writer and then the capture buffer; a failed live write captures nothing |
| EchoLogger.BodyDumpResponseWriter.WriteAll | pkg/httpmw/logger.go:176-178 | writing chunk by chunk leaves the live writer in the WrittenAll state and captures every chunk in order unless the writer fails |
| EchoLogger.OneMoreChunk | pkg/httpmw/logger.go:176-178 | writing one more chunk extends both the live writer and the concatenated capture by that chunk |
| EchoLogger.EchoHandler.Serve | pkg/httpmw/logger.go:96 | the handler sees the request once; all it writes reaches the client and the capture buffer |
| EchoLogger.EchoErrors | pkg/httpmw/logger.go:74-99 | the read error first, then the handler's error; empty exactly when neither happened |
| EchoLogger.WithIds | pkg/httpmw/logger.go:93-94 | the two ID headers are set on the response under their canonical keys X-Request-Id and X-Correlation-Id, and status and body are kept |
| EchoLogger.EchoRecord | pkg/httpmw/logger.go:133-147 | route path, request and response data, accumulated error, elapsed milliseconds |
| EchoLogger.LoggerMiddleware.Logger | pkg/httpmw/logger.go:30-40 | the middleware keeps the skip set and the wrapped handler |
| EchoLogger.LoggerMiddleware.Handle | pkg/httpmw/logger.go:41-158 | a tracer error is returned wrapped, with nothing read, served or logged; otherwise the request is served and logged once unless skipped, and the errors are returned |
| EchoLogger.LoggerMiddleware.Serve | pkg/httpmw/logger.go:70-157 | sets the ID headers, buffers, serves through the tee, logs when not skipped, and returns the accumulated error |
| EchoLogger.LoggerMiddleware.ServeThroughTee | pkg/httpmw/logger.go:88-99 | the ID headers are set; the handler sees the request once and its output reaches the client and the capture; its error is returned unchanged |
| EchoLogger.ReadRequestBody | pkg/httpmw/logger.go:74-82 | reads the whole body without closing it, puts the bytes back, and reports a failed read |
| EchoLogger.Record | pkg/httpmw/logger.go:101-147 | the assembled record equals EchoRecord |
| MetricsPrometheus.DecrDelta | pkg/metrics/prometheus_wrap.go:31-39 | Decr adds -count for a positive count and count otherwise, so never a positive amount |
| MetricsPrometheus.DecrNeverIncreases | pkg/metrics/prometheus_wrap.go:31-39 | Decr never increases the gauge |
| MetricsPrometheus.DecrSymmetric | pkg/metrics/prometheus_wrap.go:34-38 | Decr(c) and Decr(-c) have the same effect |
| MetricsPrometheus.DecrMeetsContract | pkg/metrics/metric.go:27-28 | for a non-negative amount Decr is the interface's decrement; for a negative one it is not |
| MetricsPrometheus.PromCounter.Incr | pkg/metrics/prometheus_wrap.go:12-14 | the counter grows by the amount; a negative amount panics in the client library and changes nothing |
| MetricsPrometheus.PromGauge.Set | pkg/metrics/prometheus_wrap.go:23-25 | the gauge holds the value |
| MetricsPrometheus.PromGauge.Incr | pkg/metrics/prometheus_wrap.go:27-29 | the gauge grows by the amount |
| MetricsPrometheus.PromGauge.Decr | pkg/metrics/prometheus_wrap.go:31-39 | the gauge changes by DecrDelta and never goes up |
| MetricsPrometheus.PromTimer.Timing | pkg/metrics/prometheus_wrap.go:48-50 | exactly one observation of delta |
| MetricsPrometheus.LabelNames | pkg/metrics/prometheus.go:74-77 | the label names are the map's keys, each exactly once |
| MetricsPrometheus.SortedCompareIsSetCompare | pkg/metrics/prometheus.go:79-90 | comparing sorted lists accepts exactly the stored lists holding the map's key set, in any order |
| MetricsPrometheus.ConsistentLabelNames | pkg/metrics/metric.go:53-66 | a stored list without repeats is accepted exactly for label maps with the same key set |
| MetricsPrometheus.HitKeepsAccepting | pkg/metrics/prometheus.go:84 | after a hit sorts the stored list, it is sorted and accepts the same label sets |
| MetricsPrometheus.PrefixIsLast | pkg/metrics/prometheus.go:18-23 | the prefix is the last option's, or empty |
| MetricsPrometheus.Prometheus.constructor | pkg/metrics/prometheus.go:25-34 | no prefix, nothing registered, and empty counter, gauge and timer tables |
| MetricsPrometheus.PromCounter.constructor | pkg/metrics/prometheus.go:91-109 | a new counter keeps its label values and registered label names and starts at 0 |
| MetricsPrometheus.PromGauge.constructor | pkg/metrics/prometheus.go:130-148 | a new gauge keeps its label values and registered label names and starts at 0 |
| MetricsPrometheus.PromTimer.constructor | pkg/metrics/prometheus.go:169-188 | a new timer keeps its label values and registered label names and has no observations |
| MetricsPrometheus.Prometheus.Apply | pkg/metrics/prometheus.go:18-23 | the prefix is replaced; nothing else changes and nothing fails |
| MetricsPrometheus.Prometheus.GetCounterVec | pkg/metrics/prometheus.go:73-110 | a hit with the same label names returns the stored counter; a hit with other names panics; a miss registers the new counter under the prefixed name (or panics on a taken name), stores it in the counter table under the name as given, and returns nil; other tables are untouched |
| MetricsPrometheus.Prometheus.GetGaugeVec | pkg/metrics/prometheus.go:112-149 | a hit with the same label names returns the stored gauge; a hit with other names panics; a miss registers the new gauge under the prefixed name (or panics on a taken name), stores it in the gauge table under the name as given, and returns it; other tables are untouched |
| MetricsPrometheus.Prometheus.GetTimerVec | pkg/metrics/prometheus.go:151-189 | a hit with the same label names returns the stored timer; a hit with other names panics; a miss registers the new timer under the prefixed name (or panics on a taken name), stores it in the timer table under the name as given, and returns it; other tables are untouched |
| MetricsPrometheus.Prometheus.Close | pkg/metrics/prometheus.go:198-200 | always nil |
| MetricsPrometheus.NewPrometheus | pkg/metrics/prometheus.go:38-71 | three empty tables, the prefix from the options, the Go collector registered; never fails |
| MetricsNoop.Receive | pkg/metrics/noop.go:9-25 | a no-op instrument is unchanged by any call |
| MetricsNoop.NoopIgnoresCalls | pkg/metrics/noop.go:9-25 | any sequence of calls changes nothing |
| MetricsNoop.GetCounterVec | pkg/metrics/noop.go:35-37 | a no-op counter for any name and labels, never a panic |
| MetricsNoop.GetGaugeVec | pkg/metrics/noop.go:39-41 | a no-op gauge for any name and labels, never a panic |
| MetricsNoop.GetTimerVec | pkg/metrics/noop.go:43-45 | a no-op timer for any name and labels, never a panic |
| MetricsNoop.HandlerFunc | pkg/metrics/noop.go:47-49 | a handler is always returned |
| MetricsNoop.Close | pkg/metrics/noop.go:51-53 | always nil |
| MetricsCombine.CallLog.Add | pkg/metrics/combine.go:136-143 | a call on a child is recorded, in order |
| MetricsCombine.NonNil | pkg/metrics/combine.go:117-121 | the non-nil entries, and nothing else |
| MetricsCombine.NonNilAppend | pkg/metrics/combine.go:117-121 | skipping nils keeps order across concatenation |
| MetricsCombine.NonNilAllPresent | pkg/metrics/combine.go:117-121 | without nils, nothing is skipped |
| MetricsCombine.ChildVecs | pkg/metrics/combine.go:44-57 | one child vector per child, in child order |
| MetricsCombine.WithValuesOf | pkg/metrics/combine.go:114-126 | every non-nil child vector asked once with the same label values |
| MetricsCombine.WithValuesCalls | pkg/metrics/combine.go:114-126 | the calls WithValues makes: one per non-nil child vector, in order |
| MetricsCombine.Forwarded | pkg/metrics/combine.go:136-143 | the same call once on each non-nil child instrument, in order |
| MetricsCombine.WithValues | pkg/metrics/combine.go:114-126 | the loop builds WithValuesOf and makes exactly those calls |
| MetricsCombine.Forward | pkg/metrics/combine.go:171-196 | Incr, Set, Decr and Timing make exactly the Forwarded calls |
| MetricsCombine.ForwardReachesEachChild | pkg/metrics/combine.go:224-231 | a call reaches every non-nil child instrument and no other, with the same argument |
| MetricsCombine.ChildrenInOptionOrder | pkg/metrics/combine.go:12-39 | the options succeed exactly when none adds nil, and then the children are the added metrics in option order |
| MetricsCombine.FirstExposing | pkg/metrics/combine.go:89-97 | the first Prometheus child with a handler; none when no child is one |
| MetricsCombine.CloseErrors | pkg/metrics/combine.go:99-108 | the children's Close errors in child order; empty exactly when all returned nil |
| MetricsCombine.GetVecCalls | pkg/metrics/combine.go:46-48 | a lookup asks each child once, in order |
| MetricsCombine.CloseCalls | pkg/metrics/combine.go:100-105 | Close is called on each child once, in order |
| MetricsCombine.Combine.constructor | pkg/metrics/combine.go:30-32 | a Combine starts with no children |
| MetricsCombine.Combine.Apply | pkg/metrics/combine.go:12-21 | a nil metric is refused; any other is appended |
| MetricsCombine.Combine.GetVec | pkg/metrics/combine.go:44-87 | no children give a no-op vector; otherwise each child is asked in order |
| MetricsCombine.Combine.HandlerFunc | pkg/metrics/combine.go:89-97 | the handler of the first exposing Prometheus child, nil otherwise |
| MetricsCombine.Combine.Close | pkg/metrics/combine.go:99-108 | every child is closed even after a failure; nil exactly when all returned nil, else the combined errors |
| MetricsCombine.NewCombinedMetrics | pkg/metrics/combine.go:29-42 | no children, then the options in order; the first nil metric gives no Combine and the error |
| StringOrder.StrLeReflexive | pkg/metrics/prometheus.go:83-84 | the order sort.Strings uses is reflexive |
| StringOrder.StrLeTotal | pkg/metrics/prometheus.go:83-84 | and total |
| StringOrder.StrLeAntisymmetric | pkg/metrics/prometheus.go:83-84 | and antisymmetric |
| StringOrder.StrLeTransitive | pkg/metrics/prometheus.go:83-84 | and transitive |
| StringOrder.Insert | pkg/metrics/prometheus.go:83-84 | insertion adds exactly one element |
| StringOrder.InsertKeepsSorted | pkg/metrics/prometheus.go:83-84 | inserting into a sorted list keeps it sorted |
| StringOrder.SortStrings | pkg/metrics/prometheus.go:83-84 | sort.Strings gives a sorted permutation |
| StringOrder.SortedHeads | pkg/metrics/prometheus.go:83-84 | two non-empty sorted permutations of each other start with the same element |
| StringOrder.SortedTail | pkg/metrics/prometheus.go:83-84 | dropping the first element keeps a list sorted |
| StringOrder.SortedUnique | pkg/metrics/prometheus.go:83-84 | two sorted permutations of each other are equal |
| StringOrder.SortedEqualIffPermutation | pkg/metrics/prometheus.go:79-90 | sorted copies are equal exactly when the lists are permutations |
| StringOrder.SortSortedIsIdentity | pkg/metrics/prometheus.go:84 | sorting a sorted list changes nothing |
| StringOrder.DistinctCounts | pkg/metrics/prometheus.go:74-77 | a list without repeats holds each element once |
| StringOrder.SameElementsIffPermutation | pkg/metrics/prometheus.go:74-77 | lists without repeats are permutations exactly when they hold the same elements |
| TracerExporter.ApplyOpt | pkg/oteltracer/exporter.go:23-69 | only a nil logger is refused; a non-nil logger becomes the STDOUT writer; every endpoint, blank ones included, and every round tripper is taken as given, each changing only its own setting |
| TracerExporter.OptionsKeepLast | pkg/oteltracer/exporter.go:81-95 | without a nil logger the options succeed, and the writer, round tripper and Jaeger endpoint left are those of the last option setting each (the defaults otherwise) |
| TracerExporter.StdoutUsesLastLogger | pkg/oteltracer/exporter.go:81-149 | STDOUT writes to the last WithLogger writer, or to standard output when none is given |
| TracerExporter.JaegerUsesLastTransport | pkg/oteltracer/exporter.go:81-112 | JAEGER, when the last Jaeger endpoint set (or the default) is not blank, sends to it trimmed through the last WithHttpRoundTripper transport, or the default one |
| TracerExporter.NilLoggerFailsOptions | pkg/oteltracer/exporter.go:90-95 | the options fail exactly when one is a nil logger |
| TracerExporter.ApplyOptsLast | pkg/oteltracer/exporter.go:90-95 | an option added last acts on what the earlier ones produced |
| TracerExporter.Normalize | pkg/oteltracer/exporter.go:100-101 | the dispatched name is trimmed and upper-cased as Common.ToUpper says |
| TracerExporter.NormalizeIdempotent | pkg/oteltracer/exporter.go:100-101 | normalizing twice is normalizing once |
| TracerExporter.IgnoresCaseAndSpace | pkg/oteltracer/exporter.go:100-101 | selection gives the same result for a name and its normalized form |
| TracerExporter.NilLoggerFails | pkg/oteltracer/exporter.go:90-95 | a nil logger fails before any name is looked at |
| TracerExporter.NoopAlwaysSucceeds | pkg/oteltracer/exporter.go:151-152 | "" and NOOP give the no-op exporter |
| TracerExporter.UnknownNameFails | pkg/oteltracer/exporter.go:153-154 | an unrecognised name fails with that name in the message |
| TracerExporter.NotBlank | pkg/oteltracer/exporter.go:104-105 | a text starting with a non-space is not blank after trimming |
| TracerExporter.DefaultEndpointsNotBlank | pkg/oteltracer/exporter.go:82-88 | the default Jaeger, OTLP and OTLP gRPC endpoints are not blank after trimming |
| TracerExporter.DefaultsSucceed | pkg/oteltracer/exporter.go:82-88 | without options the only failure is an unrecognised name |
| TracerExporter.DefaultsRecognised | pkg/oteltracer/exporter.go:82-88 | without options every recognised name gives an exporter |
| TracerExporter.WithoutOptions | pkg/oteltracer/exporter.go:82-95 | without options the name is dispatched with the defaults |
| TracerExporter.DispatchWithEndpoints | pkg/oteltracer/exporter.go:103-154 | with non-blank endpoints dispatch succeeds exactly for the recognised names |
| TracerExporter.BlankEndpointFails | pkg/oteltracer/exporter.go:104-132 | JAEGER, OTLP and OTLP_GRPC fail when their endpoint is blank after trimming |
| TracerExporter.NewTracerExporter | pkg/oteltracer/exporter.go:81-156 | returns what Exporting says; after the options the default client's transport is replaced |
| TracerExporterInternal.ApplyOpt | internal/pkg/oteltracer/exporter.go:22-64 | nil and empty values are ignored and never fail; anything else replaces its setting |
| TracerExporterInternal.JaegerStep | internal/pkg/oteltracer/exporter.go:44-53 | one option changes the Jaeger endpoint exactly when it sets a non-empty one |
| TracerExporterInternal.JaegerUnset | internal/pkg/oteltracer/exporter.go:76-86 | with no option setting it, the Jaeger endpoint keeps its starting value |
| TracerExporterInternal.JaegerLast | internal/pkg/oteltracer/exporter.go:81-86 | the last option setting a non-empty Jaeger endpoint decides it |
| TracerExporterInternal.OtlpStep | internal/pkg/oteltracer/exporter.go:55-64 | one option changes the OTLP endpoint exactly when it sets a non-empty one |
| TracerExporterInternal.OtlpUnset | internal/pkg/oteltracer/exporter.go:76-86 | with no option setting it, the OTLP endpoint keeps its starting value |
| TracerExporterInternal.OtlpLast | internal/pkg/oteltracer/exporter.go:81-86 | the last option setting a non-empty OTLP endpoint decides it |
| TracerExporterInternal.IgnoredOptions | internal/pkg/oteltracer/exporter.go:22-42 | options carrying only nil or empty values change nothing |
| TracerExporterInternal.IgnoresCaseAndSpace | internal/pkg/oteltracer/exporter.go:88-89 | selection ignores case and surrounding white space |
| TracerExporterInternal.NoopAlwaysSucceeds | internal/pkg/oteltracer/exporter.go:122-123 | "" and NOOP give the no-op exporter |
| TracerExporterInternal.StdoutAlwaysSucceeds | internal/pkg/oteltracer/exporter.go:113-120 | STDOUT gives the stdout exporter writing to the debug writer |
| TracerExporterInternal.OtlpGrpcUnknown | internal/pkg/oteltracer/exporter.go:124-125 | OTLP_GRPC is an unknown name here |
| TracerExporterInternal.UnknownNameFails | internal/pkg/oteltracer/exporter.go:124-125 | an unrecognised name fails with that name in the message |
| TracerExporterInternal.JaegerNeedsEndpoint | internal/pkg/oteltracer/exporter.go:91-97 | JAEGER fails unless some option set a non-empty endpoint |
| TracerExporterInternal.OtlpNeedsEndpoint | internal/pkg/oteltracer/exporter.go:99-111 | OTLP fails unless some option set a non-empty endpoint |
| TracerExporterInternal.JaegerUsesLastEndpoint | internal/pkg/oteltracer/exporter.go:91-97 | JAEGER uses the trimmed endpoint of the last option that set one |
| TracerExporterInternal.DivergesFromPackageVariant | internal/pkg/oteltracer/exporter.go:76-79 | without options JAEGER, OTLP and OTLP_GRPC succeed in the package variant and fail here |
| TracerExporterInternal.NewTracerExporter | internal/pkg/oteltracer/exporter.go:75-127 | returns what Exporting says: an exporter and no error, or no exporter and the error |
| TracerExporterInternal.Write | internal/pkg/oteltracer/exporter.go:141-149 | returns (len(p), nil) and makes one Debug call with "data" holding the JSON value or the string |
| Respbuilder.AsHTTPError | pkg/respbuilder/resp_error.go:43-47 | errors.As finds an HTTPError on the chain, the error itself when it is one |
| Respbuilder.AsBindingError | pkg/respbuilder/resp_error.go:49-53 | errors.As finds a BindingError on the chain, the error itself when it is one |
| Respbuilder.OkStatus | pkg/respbuilder/resp_ok.go:26-29 | the table entry, or UnknownOk's "_"/"NotOk" for a code outside the table |
| Respbuilder.Ok | pkg/respbuilder/resp_ok.go:25-39 | the code's status, the messages joined with "; ", the data unchanged |
| Respbuilder.OkCodes | pkg/respbuilder/resp_ok.go:12-15 | Success is "0"/"Ok", and every code outside the table answers like UnknownOk |
| Respbuilder.OkMessageEmpty | pkg/respbuilder/resp_ok.go:34 | the message is empty exactly for no messages or a single empty one |
| Respbuilder.ErrStatus | pkg/respbuilder/resp_error.go:32-35 | every code gives "E0"/"ErrorGeneral" |
| Respbuilder.InternalReasons | pkg/respbuilder/resp_error.go:43-53 | at most two internal reasons, and none exactly when the chain holds no echo error |
| Respbuilder.ErrorMessage | pkg/respbuilder/resp_error.go:41-53 | a BindingError's Message, else an HTTPError's, else Error() |
| Respbuilder.Error | pkg/respbuilder/resp_error.go:31-70 | status with fallback, the fixed message for a nil error, and the internal reasons before the caller's |
| Respbuilder.ErrorCodeFallback | pkg/respbuilder/resp_error.go:17-19 | every code answers as ErrGeneral |
| Respbuilder.PlainErrorKeepsReasons | pkg/respbuilder/resp_error.go:41-55 | a plain error gives Error() and the caller's reasons unchanged |
| Respbuilder.CallerReasonsLast | pkg/respbuilder/resp_error.go:55 | the caller's reasons end the list in order, after at most two internal ones; a lone echo error adds exactly its own |
| RespbuilderStatus.Lookup | pkg/respbuilder/status.go:36 | a missing code reads as the zero status, with no fallback |
| RespbuilderStatus.Ok | pkg/respbuilder/status.go:35-46 | the code's status, the messages joined with "; ", the data |
| RespbuilderStatus.Error | pkg/respbuilder/status.go:48-62 | always "E0"/"GeneralError" with no data; the message is Error() or the fixed nil-error text |
| RespbuilderStatus.NoFallback | pkg/respbuilder/status.go:36 | an unknown code gives an empty code and status here, and "_" in resp_ok.go |
| RespbuilderStatus.SuccessStatusDiffers | pkg/respbuilder/status.go:20-25 | both envelopes use "0" for success but spell its status "OK" and "Ok" |
| RespbuilderStatus.EchoErrorMessageIgnored | pkg/respbuilder/status.go:53-58 | an echo error's Message is not used here, unlike resp_error.go |
| Restapi.NewHTTP | transport/restapi/http.go:28-33 | a zero StartupTime is refused with the wrapped validation error; otherwise the configuration is kept |
| Restapi.ErrorStatus | transport/restapi/http.go:42-56 | always in 1..598; 422 for a plain error; a BindingError's code wins over an HTTPError's; out of range becomes 500 |
| Restapi.HTTPErrorHandler | transport/restapi/http.go:41-63 | one JSON answer with ErrorStatus and the ErrGeneral envelope; a failed JSON write panics with the wrapped failure and writes nothing |
| Observability.ApplyOpt | internal/pkg/observability/manager.go:15-48 | nil is refused with that option's message; anything else replaces its setting |
| Observability.FirstNilFails | internal/pkg/observability/manager.go:70-75 | the options fail exactly when one carries nil, with the first such option's message |
| Observability.ApplyOptsLast | internal/pkg/observability/manager.go:70-75 | an option added last acts on what the earlier ones produced, unless they failed |
| Observability.Manager.constructor | internal/pkg/observability/manager.go:62-68 | the no-op logger, tracer provider, tracer and metric |
| Observability.Manager.Apply | internal/pkg/observability/manager.go:15-48 | a failing option leaves the manager unchanged; the tracer is never touched |
| Observability.NewManager | internal/pkg/observability/manager.go:60-93 | the first error gives no manager and the error; otherwise the settings after all options, the tracer from the final provider, and accessors returning them |
| Assets.BuildCommitId | assets/vars.go:22-24 | the embedded text trimmed; empty exactly when it is blank |
| Assets.BuildTime | assets/vars.go:26-35 | the zero time exactly when the trimmed text does not parse, otherwise a 64-bit Unix time |
| Assets.TrimLeftPadded | assets/vars.go:23 | leading white space before a non-space is dropped, and nothing else |
| Assets.TrimRightPadded | assets/vars.go:23 | trailing white space after a non-space is dropped, and nothing else |
| Assets.TrimSpacePadded | assets/vars.go:23 | trimming undoes any white-space padding of a trimmed text |
| Assets.CommitIdReadsBack | assets/vars.go:22-24 | a commit ID written with padding reads back as written |
| Assets.ItoaTrimmed | assets/vars.go:27-29 | a decimal spelling has no surrounding white space |
| Assets.BuildTimeReadsBack | assets/vars.go:26-35 | a padded decimal 64-bit value reads back as that many seconds after the epoch |
| Assets.BlankBuildTimeIsZero | assets/vars.go:30-32 | a blank build-time text gives the zero time |

## Left out

- Spans, span names, span status and span timing are not modelled. The trace
  headers the propagators inject, and the span context handed to the logger,
  are parameters. internal/pkg/httpservermw/otel.go is not part of this
  model.
- Prometheus exposition (`promhttp`) is not modelled: what "/metrics" answers
  is a function given to the middleware. `pkg/metrics` `Prometheus.HandlerFunc`
  is not modelled for the same reason.
- The Go runtime collector's metric names and the client library's label
  validation are outside the model. Only duplicate registration of a name or
  collector is kept.
- `float64` conversions and histogram/summary buckets are not modelled.
  Amounts and durations are integers.
- The `sync.RWMutex` of the metric registry is not modelled. The registry is
  sequential, so nothing is claimed about concurrent registration.
- The `cmp.Diff` text in a label-mismatch panic is not modelled: the message
  carries the kind and the name only.
- JSON parsing is not modelled. A `JsonCheck` predicate decides validity,
  and a parsed value stands for itself.
- zap's encoder and output, echo's routing, and the go-playground validator
  are foreign. The validator's message for a missing StartupTime is a fixed
  text.
- The echo `HTTPError` and `BindingError` `Error()` and `%+v` texts are
  fields of the error value, not computed.
- The clock and UUIDs are parameters: elapsed times, the errOut timestamp and
  the two IDs of the echo middleware.
- `req.WithContext` copies are not modelled: the handler sees the same
  request, and the context is a parameter.
- URL percent-escaping is not modelled: a path is its own escaped form.
- The OTLP protobuf decode in log_only.go is not modelled, because its
  result is discarded.
- The concrete Jaeger, OTLP and stdout exporters and their constructor
  errors are not modelled. An exporter is a tag carrying the endpoint and
  settings it was built from.
- A Combine child is opaque: only its answers are modelled (its vectors,
  instruments, handler and Close error). The no-op vector a Combine returns
  without children has no behaviour.
- The `/ping` route of transport/restapi/http.go is not modelled (it needs
  the clock and Duration.String), and neither is the echo instance with its
  routes and CORS middleware.
- The instrumentation-name constant of internal/pkg/observability is not part
  of this model, so a manager's tracer is identified by its provider.
- cmd/, transport/restapi/handlersystem, pkg/validator and the no-op shells
  of pkg/ylog and internal/pkg/observability are not part of this model.
- ServerLogger.LogMiddleware.ServeHTTP: requires a non-nil request, and a URL
  on the logged path, because internal/pkg/httpservermw/logger.go lines 124
  and 188 dereference both.
- ServerPrometheus.Prometheus.ServeHTTP: requires a request with a URL,
  because the labels dereference both (internal/pkg/httpservermw/prometheus.go
  lines 178-179).
- ServerPrometheus.Prometheus.ServeHTTP: a failed body write is logged with
  `bytes_written` 0, because the number of bytes a failing writer accepted is
  not modelled.
- ServerPrometheus.Prometheus.ServeCounted: the same: a failed body write is
  logged with `bytes_written` 0.
- Ylog.WithStaticFields: requires a zap logger, because it is a method of the
  zap implementation only.
- Common.ToUpper: only ASCII and Latin-1 letters, dotless i (U+0131) and long
  s (U+017F) are upper-cased. Other letters that unicode.ToUpper maps, such as
  Greek or Cyrillic ones, are kept as they are.
- Common.UpperChar: the same restriction, one character at a time.
- TracerExporter.Normalize: inherits the restriction of Common.ToUpper.
  Dispatch is unaffected, because the only letters outside ASCII whose upper
  case is ASCII are U+0131 and U+017F, and both are modelled. Only the name
  quoted in the unknown-name error can differ from Go's, for a letter outside
  Latin-1.
- Http.ResponseWriter.SetHeader: stores the key as given, not its canonical
  form. The echo middleware passes the canonical ID keys
  (EchoLogger.RequestIdKeyCanonical, EchoLogger.CorrelationIdKeyCanonical).
- Http.CopyHeaders: copies a recorded answer's keys as they are. A handler
  that writes a non-canonical key straight into the header map is therefore
  not re-keyed, as Go's Header().Set would re-key it.
- Ylog.ErrOutWrite: a failing print returns 0, while fmt.Fprint returns the
  number of bytes the output accepted before it failed.
- MetricsPrometheus.Prometheus.GetCounterVec: a name already registered as
  another kind of metric panics with the duplicate-registration text. The
  client library's own message, about a previously registered descriptor
  with a different help string, is not modelled.
- MetricsPrometheus.Prometheus.GetGaugeVec: a name already registered as
  another kind of metric panics with the duplicate-registration text; the
  client library's own message about a different help string is not
  modelled.
- MetricsPrometheus.Prometheus.GetTimerVec: a name already registered as
  another kind of metric panics with the duplicate-registration text; the
  client library's own message about a different help string is not
  modelled.

=== FILE: assets.dfy ===
/**
 * Build information (assets/vars.go): the commit ID and the build time
 * are read from embedded text files, which may carry surrounding white
 * space such as a final newline. The embedded texts are parameters.
 */
module Assets {
  import opened Common

  const AppName: string := "myapp"

  /** BuildCommitID: the embedded text without surrounding white space. */
  function BuildCommitId(embedded: string): (id: string)
    ensures Trimmed(id)
    ensures id == [] <==> AllSpace(embedded)
  {
    TrimSpace(embedded)
  }

  /**
   * BuildTime: the trimmed text read as a decimal int; a text that does not
   * parse gives the zero time, a number n the instant n seconds after the
   * Unix epoch.
   */
  function BuildTime(embedded: string): (t: Time)
    ensures t.ZeroTime? <==> Atoi(TrimSpace(embedded)).Err?
    ensures t.UnixTime? ==> MinInt64 <= t.seconds <= MaxInt64
  {
    var s := TrimSpace(embedded);
    var r := Atoi(s);
    if r.Err? then ZeroTime else UnixTime(r.value)
  }

  /** Leading white space before a non-space is dropped, and nothing else. */
  lemma {:induction false} TrimLeftPadded(pre: string, t: string)
    requires AllSpace(pre)
    requires t == [] || !IsSpace(t[0])
    ensures TrimLeftSpace(pre + t) == t
    decreases |pre|
  {
    if pre == [] {
      assert pre + t == t;
    } else {
      assert (pre + t)[1..] == pre[1..] + t;
      TrimLeftPadded(pre[1..], t);
    }
  }

  /** Trailing white space after a non-space is dropped, and nothing else. */
  lemma {:induction false} TrimRightPadded(t: string, post: string)
    requires AllSpace(post)
    requires t == [] || !IsSpace(t[|t| - 1])
    ensures TrimRightSpace(t + post) == t
    decreases |post|
  {
    if post == [] {
      assert t + post == t;
    } else {
      var shorter := post[..|post| - 1];
      assert (t + post)[..|t + post| - 1] == t + shorter;
      TrimRightPadded(t, shorter);
    }
  }

  /** TrimSpace undoes any white-space padding of a trimmed text. */
  lemma TrimSpacePadded(pre: string, s: string, post: string)
    requires AllSpace(pre) && AllSpace(post) && Trimmed(s) && s != []
    ensures TrimSpace(pre + s + post) == s
  {
    assert pre + s + post == pre + (s + post);
    TrimLeftPadded(pre, s + post);
    TrimRightPadded(s, post);
  }

  /** A commit ID written with surrounding white space reads back as written. */
  lemma CommitIdReadsBack(pre: string, id: string, post: string)
    requires AllSpace(pre) && AllSpace(post) && Trimmed(id) && id != []
    ensures BuildCommitId(pre + id + post) == id
  {
    TrimSpacePadded(pre, id, post);
  }

  /** The decimal spelling of an int has no surrounding white space. */
  lemma ItoaTrimmed(n: int)
    ensures Trimmed(Itoa(n))
  {
    var s := Itoa(n);
    var d := NatToDecimal(if n < 0 then -n else n);
    assert s[|s| - 1] == d[|d| - 1];
    assert IsDigit(d[|d| - 1]);
    assert IsDigit(s[0]) || s[0] == '-';
  }

  /**
   * A build time written as a decimal 64-bit int, with any surrounding
   * white space, reads back as that many seconds after the epoch.
   */
  lemma BuildTimeReadsBack(pre: string, n: int, post: string)
    requires AllSpace(pre) && AllSpace(post)
    requires MinInt64 <= n <= MaxInt64
    ensures BuildTime(pre + Itoa(n) + post) == UnixTime(n)
  {
    ItoaTrimmed(n);
    TrimSpacePadded(pre, Itoa(n), post);
    AtoiItoa(n);
  }

  /** An empty or blank build-time file gives the zero time. */
  lemma BlankBuildTimeIsZero(embedded: string)
    requires AllSpace(embedded)
    ensures BuildTime(embedded) == ZeroTime
  {
  }
}

=== FILE: client_capture.dfy ===
/**
 * What the two outgoing-request middlewares (the traced round tripper and
 * the log-only one) do around the wrapped transport: buffer the request
 * body, call the transport unless the request is nil, buffer the response
 * body, and assemble one access record. The two differ only in what they
 * do before the exchange (header injection) and in their options.
 */
module ClientCapture {
  import opened Common
  import opened Ylog
  import opened Http

  const NilRequest: string := "cannot do round-tripper request because *http.Request is nil"
  const RequestFailure: string := "error doing actual request"

  /** What the round tripper returns: the transport's answer, or the nil-request error. */
  function Trip(base: RequestView -> TransportResult, v: Option<RequestView>): (t: TransportResult)
    ensures v.None? ==> t == TransportResult(None, Some(NilRequest))
    ensures v.Some? ==> t == base(Rebuffered(v.value))
  {
    if v.None? then TransportResult(None, Some(NilRequest)) else base(Rebuffered(v.value))
  }

  /** The buffered request body; a nil request has an empty buffer and no errors. */
  function RequestBuffer(v: Option<RequestView>): (d: Drained)
    ensures v.None? ==> d == Drained([], [])
    ensures v.Some? ==> d == RequestDrained(v.value)
  {
    if v.Some? then RequestDrained(v.value) else Drained([], [])
  }

  /** The buffered response body; without a response the buffer is empty. */
  function ResponseBuffer(t: TransportResult): (d: Drained)
    ensures t.response.None? ==> d == Drained([], [])
    ensures t.response.Some? ==> d == ResponseDrained(t.response.value)
  {
    if t.response.Some? then ResponseDrained(t.response.value) else Drained([], [])
  }

  /**
   * The errors met, in order: request copy, request close, round trip,
   * response copy, response close.
   */
  function ClientErrors(v: Option<RequestView>, t: TransportResult): (errs: seq<string>)
    ensures errs == [] <==> RequestBuffer(v).errors == [] && t.err.None? && ResponseBuffer(t).errors == []
    ensures RequestBuffer(v).errors <= errs
    ensures |errs| == |RequestBuffer(v).errors| + (if t.err.Some? then 1 else 0) + |ResponseBuffer(t).errors|
    ensures t.err.Some? ==> errs[|RequestBuffer(v).errors|] == Wrap(RequestFailure, t.err.value)
    ensures errs[|errs| - |ResponseBuffer(t).errors|..] == ResponseBuffer(t).errors
  {
    RequestBuffer(v).errors
    + (if t.err.Some? then [Wrap(RequestFailure, t.err.value)] else [])
    + ResponseBuffer(t).errors
  }

  /**
   * The access record of one round trip. Method and the request section
   * only for a request, host and escaped path only for a request with a
   * URL, the response section exactly when the transport answered with a
   * response.
   */
  function ClientRecord(v: Option<RequestView>, t: TransportResult, isJson: JsonCheck, elapsed: int): (a: AccessLogData)
    ensures a.httpMethod == (if v.Some? then v.value.httpMethod else "")
    ensures a.host == (if v.Some? && v.value.url.Some? then v.value.url.value.host else "")
    ensures a.path == (if v.Some? && v.value.url.Some? then EscapedPath(v.value.url.value) else "")
    ensures v.None? <==> a.request.None?
    ensures v.Some? ==> a.request == Some(HTTPData(0, SimpleMap(v.value.header), Captured(isJson, RequestDrained(v.value).buffer)))
    ensures t.response.None? <==> a.response.None?
    ensures t.response.Some? ==>
      a.response == Some(HTTPData(t.response.value.statusCode, SimpleMap(t.response.value.header),
                                  Captured(isJson, ResponseDrained(t.response.value).buffer)))
    ensures a.error == CumulativeError(ClientErrors(v, t))
    ensures a.elapsedTime == elapsed
  {
    var hasUrl := v.Some? && v.value.url.Some?;
    AccessLogData(
      if v.Some? then v.value.httpMethod else "",
      if hasUrl then v.value.url.value.host else "",
      if hasUrl then EscapedPath(v.value.url.value) else "",
      if v.Some? then Some(HTTPData(0, SimpleMap(v.value.header), Captured(isJson, RequestBuffer(v).buffer))) else None,
      if t.response.Some? then
        Some(HTTPData(t.response.value.statusCode, SimpleMap(t.response.value.header), Captured(isJson, ResponseBuffer(t).buffer)))
      else None,
      CumulativeError(ClientErrors(v, t)),
      elapsed)
  }

  // ---------------------------------------------------------------------
  // Properties of a round trip

  /** A nil request yields no response and one error, which the record carries alone. */
  lemma NilRequestRecord(isJson: JsonCheck, elapsed: int)
    ensures var t := Trip(_ => TransportResult(None, None), None);
      && t == TransportResult(None, Some(NilRequest))
      && ClientRecord(None, t, isJson, elapsed)
         == AccessLogData("", "", "", None, None, Wrap(RequestFailure, NilRequest), elapsed)
  {
    var t := TransportResult(None, Some(NilRequest));
    assert ClientErrors(None, t) == [Wrap(RequestFailure, NilRequest)];
  }

  /**
   * The record's error is empty exactly when nothing failed: neither body
   * read nor closed with an error, and the transport returned no error.
   */
  lemma {:induction false} ClientRecordErrorOnlyOnFailure(v: Option<RequestView>, t: TransportResult, isJson: JsonCheck, elapsed: int)
    ensures var reqFailed := v.Some? && v.value.body.Some? && (v.value.body.value.readErr.Some? || v.value.body.value.closeErr.Some?);
      var respFailed := t.response.Some? && t.response.value.body.Some?
                        && (t.response.value.body.value.readErr.Some? || t.response.value.body.value.closeErr.Some?);
      ClientRecord(v, t, isJson, elapsed).error == "" <==> !reqFailed && t.err.None? && !respFailed
  {
    var errs := ClientErrors(v, t);
    if v.Some? && v.value.body.Some? {
      DrainErrorsNonEmpty(v.value.body.value, "request");
    }
    if t.response.Some? && t.response.value.body.Some? {
      DrainErrorsNonEmpty(t.response.value.body.value, "response");
    }
    CumulativeErrorEmpty(errs);
  }

  /**
   * Buffering never changes the round trip's own outcome: the error the
   * caller gets is the transport's, whatever the bodies did.
   */
  lemma BodyFailuresNotSurfaced(base: RequestView -> TransportResult, v: RequestView, b: ReadCloser)
    ensures Trip(base, Some(v.(body := Some(b)))).err == base(Rebuffered(v.(body := Some(b)))).err
    ensures b.readErr.Some? ==> Rebuffered(v.(body := Some(b))).body == Some(NopCloser([]))
    ensures b.readErr.None? ==> Rebuffered(v.(body := Some(b))).body == Some(NopCloser(b.data))
  {
  }

  /** The caller can read the returned response body again, with the buffered bytes and no error. */
  lemma ResponseBodyReReadable(r: ResponseView)
    requires r.body.Some?
    ensures RebufferedResponse(r).body.Some?
    ensures DrainBody(RebufferedResponse(r).body.value, "response") == Drained(ResponseDrained(r).buffer, [])
  {
  }

  // ---------------------------------------------------------------------
  // The exchange itself

  /**
   * The request body is buffered and put back, the transport is called
   * unless the request is nil, and the response body is buffered and put
   * back.
   */
  method TripBuffered(base: Transport, req: Request?)
    returns (resp: Response?, err: Option<string>, reqBuf: Drained, respBuf: Drained)
    modifies req, base
    ensures var v := old(ViewOf(req));
      var t := Trip(base.respond, v);
      && err == t.err
      && reqBuf == RequestBuffer(v)
      && respBuf == ResponseBuffer(t)
      && (resp == null <==> t.response.None?)
      && (resp != null ==> fresh(resp) && resp.View() == RebufferedResponse(t.response.value))
      && (v.Some? ==> req.View() == Rebuffered(v.value) && base.seen == old(base.seen) + [Rebuffered(v.value)])
      && (v.None? ==> base.seen == old(base.seen))
  {
    reqBuf := Drained([], []);
    if req != null {
      reqBuf := BufferRequestBody(req);
    }
    resp := null;
    if req != null {
      resp, err := base.RoundTrip(req);
    } else {
      err := Some(NilRequest);
    }
    respBuf := Drained([], []);
    if resp != null {
      respBuf := BufferResponseBody(resp);
    }
  }

  /**
   * Buffer the request body, call the transport (unless the request is
   * nil), buffer the response body, and build the access record. The
   * response object is the transport's own, and the error is the
   * transport's own (or the nil-request error).
   */
  method Exchange(base: Transport, req: Request?, isJson: JsonCheck, elapsed: int)
    returns (resp: Response?, err: Option<string>, record: AccessLogData)
    modifies req, base
    ensures var v := old(ViewOf(req));
      var t := Trip(base.respond, v);
      && err == t.err
      && (resp == null <==> t.response.None?)
      && (resp != null ==> fresh(resp) && resp.View() == RebufferedResponse(t.response.value))
      && record == ClientRecord(v, t, isJson, elapsed)
      && (v.Some? ==> req.View() == Rebuffered(v.value) && base.seen == old(base.seen) + [Rebuffered(v.value)])
      && (v.None? ==> base.seen == old(base.seen))
  {
    ghost var v := ViewOf(req);
    var d, rd;
    resp, err, d, rd := TripBuffered(base, req);
    ghost var t := Trip(base.respond, v);
    var errs := d.errors;
    if err.Some? {
      errs := errs + [Wrap(RequestFailure, err.value)];
    }
    errs := errs + rd.errors;
    assert errs == ClientErrors(v, t);
    var reqCaptured := Captured(isJson, d.buffer);
    var respCaptured := Captured(isJson, rd.buffer);

    record := AccessLogData("", "", "", None, None, "", elapsed);
    if req != null {
      var reqHeader := HttpHeaderToSimpleMap(req.header);
      record := record.(httpMethod := req.httpMethod, request := Some(HTTPData(0, reqHeader, reqCaptured)));
    }
    if req != null && req.url.Some? {
      record := record.(host := req.url.value.host, path := EscapedPath(req.url.value));
    }
    if resp != null {
      var respHeader := HttpHeaderToSimpleMap(resp.header);
      record := record.(response := Some(HTTPData(resp.statusCode, respHeader, respCaptured)));
    }
    if errs != [] {
      record := record.(error := ErrorText(errs));
    }
  }
}

=== FILE: client_log_only.dfy ===
/**
 * NewLogMw: the untraced outgoing-request middleware. The context handed to
 * the logger is the request's own (a parameter here). The request body is
 * also offered to an OTLP protobuf decoder whose result is discarded; that
 * call has no effect on anything below and is not modelled.
 */
module ClientLogOnly {
  import opened Common
  import opened Ylog
  import opened Http
  import opened ClientCapture

  const DefaultMsg: string := "outgoing request logger"

  datatype OptLogMw =
    | LogMwWithBaseRoundTripper(base: Transport?)
    | LogMwWithMessage(msg: string)
    | LogMwWithLogger(logger: Option<Logger>)

  datatype Settings = Settings(base: Transport, msg: string, logger: Logger)

  /** The defaults, with `dflt` standing for http.DefaultTransport. */
  function Defaults(dflt: Transport): Settings
  {
    Settings(dflt, DefaultMsg, NoopLogger)
  }

  /**
   * One option applied: a nil transport selects the default one, an empty
   * message keeps the current one, a nil logger selects the no-op one.
   */
  function ApplyOpt(s: Settings, opt: OptLogMw, dflt: Transport): (r: Settings)
    ensures opt.LogMwWithBaseRoundTripper? ==> r == s.(base := if opt.base == null then dflt else opt.base)
    ensures opt.LogMwWithMessage? ==> r == s.(msg := if opt.msg == "" then s.msg else opt.msg)
    ensures opt.LogMwWithLogger? ==> r == s.(logger := if opt.logger.Some? then opt.logger.value else NoopLogger)
  {
    match opt
    case LogMwWithBaseRoundTripper(h) => s.(base := if h == null then dflt else h)
    case LogMwWithMessage(m) => if m == "" then s else s.(msg := m)
    case LogMwWithLogger(l) => s.(logger := if l.Some? then l.value else NoopLogger)
  }

  function ApplyOpts(s: Settings, opts: seq<OptLogMw>, dflt: Transport): Settings
    decreases |opts|
  {
    if opts == [] then s else ApplyOpt(ApplyOpts(s, opts[..|opts| - 1], dflt), opts[|opts| - 1], dflt)
  }

  /** The message is never empty, whatever options are given. */
  lemma {:induction false} MessageNeverEmpty(opts: seq<OptLogMw>, dflt: Transport)
    ensures ApplyOpts(Defaults(dflt), opts, dflt).msg != ""
    decreases |opts|
  {
    if opts != [] {
      MessageNeverEmpty(opts[..|opts| - 1], dflt);
    }
  }

  class LoggerRoundTripper {
    var base: Transport
    var msg: string
    var logger: Logger

    function Current(): Settings
      reads this
    {
      Settings(base, msg, logger)
    }

    /**
     * NewLogMw: defaults, then every option in order. No option returns an
     * error, so the panic on an option error never happens.
     */
    constructor NewLogMw(dflt: Transport, opts: seq<OptLogMw>)
      ensures Current() == ApplyOpts(Defaults(dflt), opts, dflt)
    {
      base := dflt;
      msg := DefaultMsg;
      logger := NoopLogger;
      new;
      var i := 0;
      while i < |opts|
        invariant 0 <= i <= |opts|
        invariant Current() == ApplyOpts(Defaults(dflt), opts[..i], dflt)
      {
        assert opts[..i + 1][..i] == opts[..i];
        var err := Apply(opts[i], dflt);
        i := i + 1;
      }
      assert opts[..i] == opts;
    }

    method Apply(opt: OptLogMw, dflt: Transport) returns (err: Option<string>)
      modifies this
      ensures err.None?
      ensures Current() == ApplyOpt(old(Current()), opt, dflt)
    {
      err := None;
      match opt
      case LogMwWithBaseRoundTripper(h) => base := if h == null then dflt else h;
      case LogMwWithMessage(m) => if m != "" { msg := m; }
      case LogMwWithLogger(l) => logger := if l.Some? then l.value else NoopLogger;
    }

    /**
     * RoundTrip: the exchange, then one access record with the request's
     * context `ctx` (the background context for a nil request). The caller
     * gets the transport's own response and error; a nil request never
     * reaches the transport.
     */
    method RoundTrip(req: Request?, ctx: Ctx, elapsed: int, isJson: JsonCheck, sink: LogSink)
      returns (resp: Response?, err: Option<string>)
      modifies req, base, sink
      ensures var v := old(ViewOf(req));
        var t := Trip(base.respond, v);
        && err == t.err
        && (resp == null <==> t.response.None?)
        && (resp != null ==> fresh(resp) && resp.View() == RebufferedResponse(t.response.value))
        && (v.Some? ==> req.View() == Rebuffered(v.value) && base.seen == old(base.seen) + [Rebuffered(v.value)])
        && (v.None? ==> base.seen == old(base.seen))
        && sink.calls == old(sink.calls) + [AccessCall(logger, ctx, msg, ClientRecord(v, t, isJson, elapsed))]
        && sink.entries == old(sink.entries)
                           + EntriesOf(logger, InfoLevel, ctx, msg, [KV("data", Access(ClientRecord(v, t, isJson, elapsed)))])
    {
      var record;
      resp, err, record := Exchange(base, req, isJson, elapsed);
      LogAccess(logger, sink, ctx, msg, record);
    }
  }
}

=== FILE: client_logger.dfy ===
/**
 * NewHttpRoundTripper: the traced outgoing-request middleware. Before the
 * exchange the trace propagator writes its headers into the request; the
 * entries it writes are a parameter here, as is the span context handed to
 * the logger.
 */
module ClientLogger {
  import opened Common
  import opened Ylog
  import opened Http
  import opened Tracing
  import opened ClientCapture

  const InstrumentationName: string := "github.com/yusufsyaifudin/go-project-structure/internal/pkg/httpclientmw"
  const DefaultMsg: string := "request logger"

  datatype Opt =
    | WithBaseRoundTripper(base: Transport?)
    | WithMessage(msg: string)
    | WithLogger(logger: Option<Logger>)
    | WithTracer(tp: Option<TracerProvider>)

  datatype Settings = Settings(base: Transport, msg: string, logger: Logger, tracerProvider: TracerProvider)

  /** The defaults, with `dflt` standing for http.DefaultTransport. */
  function Defaults(dflt: Transport): Settings
  {
    Settings(dflt, DefaultMsg, NoopLogger, NoopTracerProvider)
  }

  /**
   * One option applied: a nil transport selects the default one, an empty
   * message keeps the current one, a nil logger or tracer provider selects
   * the no-op one.
   */
  function ApplyOpt(s: Settings, opt: Opt, dflt: Transport): (r: Settings)
    ensures opt.WithBaseRoundTripper? ==> r == s.(base := if opt.base == null then dflt else opt.base)
    ensures opt.WithMessage? ==> r == s.(msg := if opt.msg == "" then s.msg else opt.msg)
    ensures opt.WithLogger? ==> r == s.(logger := if opt.logger.Some? then opt.logger.value else NoopLogger)
    ensures opt.WithTracer? ==> r == s.(tracerProvider := if opt.tp.Some? then opt.tp.value else NoopTracerProvider)
  {
    match opt
    case WithBaseRoundTripper(h) => s.(base := if h == null then dflt else h)
    case WithMessage(m) => if m == "" then s else s.(msg := m)
    case WithLogger(l) => s.(logger := if l.Some? then l.value else NoopLogger)
    case WithTracer(tp) => s.(tracerProvider := if tp.Some? then tp.value else NoopTracerProvider)
  }

  function ApplyOpts(s: Settings, opts: seq<Opt>, dflt: Transport): Settings
    decreases |opts|
  {
    if opts == [] then s else ApplyOpt(ApplyOpts(s, opts[..|opts| - 1], dflt), opts[|opts| - 1], dflt)
  }

  /** The message is never empty, whatever options are given. */
  lemma {:induction false} MessageNeverEmpty(opts: seq<Opt>, dflt: Transport)
    ensures ApplyOpts(Defaults(dflt), opts, dflt).msg != ""
    decreases |opts|
  {
    if opts != [] {
      MessageNeverEmpty(opts[..|opts| - 1], dflt);
    }
  }

  /** The request after the propagator wrote its headers; nothing for a nil request. */
  function Injecting(v: Option<RequestView>, injected: map<string, string>): (r: Option<RequestView>)
    ensures v.None? <==> r.None?
    ensures v.Some? ==> r.value == v.value.(header := v.value.header + Injected(injected))
  {
    if v.Some? then Some(v.value.(header := v.value.header + Injected(injected))) else None
  }

  class RoundTripper {
    var base: Transport
    var msg: string
    var logger: Logger
    var tracerProvider: TracerProvider
    var tracer: Tracer

    function Current(): Settings
      reads this
    {
      Settings(base, msg, logger, tracerProvider)
    }

    /**
     * NewHttpRoundTripper: defaults, then every option in order, then the
     * tracer from the final tracer provider. No option returns an error, so
     * the panic on an option error never happens.
     */
    constructor NewHttpRoundTripper(dflt: Transport, opts: seq<Opt>)
      ensures Current() == ApplyOpts(Defaults(dflt), opts, dflt)
      ensures tracer == TracerOf(tracerProvider, InstrumentationName)
    {
      base := dflt;
      msg := DefaultMsg;
      logger := NoopLogger;
      tracerProvider := NoopTracerProvider;
      tracer := TracerOf(NoopTracerProvider, InstrumentationName);
      new;
      var i := 0;
      while i < |opts|
        invariant 0 <= i <= |opts|
        invariant Current() == ApplyOpts(Defaults(dflt), opts[..i], dflt)
      {
        assert opts[..i + 1][..i] == opts[..i];
        var err := Apply(opts[i], dflt);
        i := i + 1;
      }
      assert opts[..i] == opts;
      tracer := TracerOf(tracerProvider, InstrumentationName);
    }

    method Apply(opt: Opt, dflt: Transport) returns (err: Option<string>)
      modifies this
      ensures err.None?
      ensures Current() == ApplyOpt(old(Current()), opt, dflt)
      ensures tracer == old(tracer)
    {
      err := None;
      match opt
      case WithBaseRoundTripper(h) => base := if h == null then dflt else h;
      case WithMessage(m) => if m != "" { msg := m; }
      case WithLogger(l) => logger := if l.Some? then l.value else NoopLogger;
      case WithTracer(tp) => tracerProvider := if tp.Some? then tp.value else NoopTracerProvider;
    }

    /**
     * RoundTrip: inject the trace headers, then the exchange, then one
     * access record with the span context `ctx`. The caller gets the
     * transport's own response and error; a nil request never reaches the
     * transport.
     */
    method RoundTrip(req: Request?, ctx: Ctx, injected: map<string, string>, elapsed: int, isJson: JsonCheck, sink: LogSink)
      returns (resp: Response?, err: Option<string>)
      modifies req, base, sink
      ensures var v := Injecting(old(ViewOf(req)), injected);
        var t := Trip(base.respond, v);
        && err == t.err
        && (resp == null <==> t.response.None?)
        && (resp != null ==> fresh(resp) && resp.View() == RebufferedResponse(t.response.value))
        && (v.Some? ==> req.View() == Rebuffered(v.value) && base.seen == old(base.seen) + [Rebuffered(v.value)])
        && (v.None? ==> base.seen == old(base.seen))
        && sink.calls == old(sink.calls) + [AccessCall(logger, ctx, msg, ClientRecord(v, t, isJson, elapsed))]
        && sink.entries == old(sink.entries)
                           + EntriesOf(logger, InfoLevel, ctx, msg, [KV("data", Access(ClientRecord(v, t, isJson, elapsed)))])
    {
      if req != null {
        req.header := req.header + Injected(injected);
      }
      var record;
      resp, err, record := Exchange(base, req, isJson, elapsed);
      LogAccess(logger, sink, ctx, msg, record);
    }
  }
}

=== FILE: common.dfy ===
/**
 * Values every component shares: optional values, results and panics,
 * Go byte slices, and the few functions of Go's strings and strconv
 * packages that the components call.
 */
module Common {

  newtype Byte = b: int | 0 <= b < 256
  type Bytes = seq<Byte>

  datatype Option<T> = None | Some(value: T)

  /** A Go `(value, error)` pair where exactly one side is meaningful. */
  datatype Result<T> = Ok(value: T) | Err(error: string)

  /** A Go call that either returns or panics with a message. */
  datatype Outcome<T> = Returned(value: T) | Panicked(message: string)

  /**
   * Whether encoding/json accepts a byte slice as one JSON value. The JSON
   * grammar is not part of this model: every component that decodes JSON
   * takes this check as a parameter. json.Unmarshal rejects empty input, so
   * a faithful check rejects [].
   */
  type JsonCheck = Bytes -> bool

  /** time.Time as the components use it: the zero value or a Unix instant. */
  datatype Time = ZeroTime | UnixTime(seconds: int)

  // ---------------------------------------------------------------------
  // strings.TrimSpace and its helpers

  /** unicode.IsSpace: the Latin-1 spaces and the Unicode White_Space characters. */
  predicate IsSpace(c: char)
  {
    var n := c as int;
    n == 0x20 || (0x09 <= n <= 0x0D) || n == 0x85 || n == 0xA0 || n == 0x1680
    || (0x2000 <= n <= 0x200A) || n == 0x2028 || n == 0x2029 || n == 0x202F
    || n == 0x205F || n == 0x3000
  }

  predicate Trimmed(s: string)
  {
    s == [] || (!IsSpace(s[0]) && !IsSpace(s[|s| - 1]))
  }

  predicate AllSpace(s: string)
  {
    forall k :: 0 <= k < |s| ==> IsSpace(s[k])
  }

  function TrimLeftSpace(s: string): (r: string)
    ensures |r| <= |s| && r == s[|s| - |r|..]
    ensures AllSpace(s[..|s| - |r|])
    ensures r == [] || !IsSpace(r[0])
  {
    if |s| > 0 && IsSpace(s[0]) then
      var r := TrimLeftSpace(s[1..]);
      assert s[..|s| - |r|] == [s[0]] + s[1..][..|s| - 1 - |r|];
      r
    else s
  }

  function TrimRightSpace(s: string): (r: string)
    ensures |r| <= |s| && r == s[..|r|]
    ensures AllSpace(s[|r|..])
    ensures r == [] || !IsSpace(r[|r| - 1])
  {
    if |s| > 0 && IsSpace(s[|s| - 1]) then TrimRightSpace(s[..|s| - 1]) else s
  }

  /** strings.TrimSpace: drop leading and trailing white space. */
  function TrimSpace(s: string): (r: string)
    ensures Trimmed(r)
    ensures |r| <= |s|
    ensures r == [] <==> AllSpace(s)
    ensures Trimmed(s) ==> r == s
  {
    var l := TrimLeftSpace(s);
    var r := TrimRightSpace(l);
    assert AllSpace(s) ==> l == [];
    assert r == [] ==> l == [];
    assert l == [] ==> s[..|s| - |l|] == s;
    assert r != [] ==> r[0] == l[0];
    r
  }

  // ---------------------------------------------------------------------
  // strings.ToUpper

  /**
   * unicode.ToUpper on ASCII and Latin-1 letters and on the two letters
   * outside Latin-1 whose upper case is ASCII:
   * - a-z become A-Z;
   * - U+00E0..U+00FE (but U+00F7, the division sign) become U+00C0..U+00DE;
   * - y with diaeresis (U+00FF) becomes U+0178 and micro sign (U+00B5) becomes U+039C;
   * - dotless i (U+0131) becomes I and long s (U+017F) becomes S.
   * Every other character is left as it is.
   */
  function UpperChar(c: char): (u: char)
    ensures IsSpace(u) == IsSpace(c)
    ensures 'a' <= c <= 'z' ==> 'A' <= u <= 'Z'
    ensures '\U{00E0}' <= c <= '\U{00FE}' && c != '\U{00F7}' ==> u as int == c as int - 32
    ensures c as int < 128 ==> u as int < 128
    ensures (!('a' <= c <= 'z') && !('\U{00E0}' <= c <= '\U{00FF}') && c != '\U{00B5}'
             && c != '\U{0131}' && c != '\U{017F}') ==> u == c
  {
    if 'a' <= c <= 'z' then (c as int - 32) as char
    else if '\U{00E0}' <= c <= '\U{00FE}' && c != '\U{00F7}' then (c as int - 32) as char
    else if c == '\U{00FF}' then '\U{0178}'
    else if c == '\U{00B5}' then '\U{039C}'
    else if c == '\U{0131}' then 'I'
    else if c == '\U{017F}' then 'S'
    else c
  }

  function ToUpper(s: string): (r: string)
    ensures |r| == |s|
    ensures forall i :: 0 <= i < |s| ==> r[i] == UpperChar(s[i])
  {
    seq(|s|, i requires 0 <= i < |s| => UpperChar(s[i]))
  }

  lemma ToUpperIdempotent(s: string)
    ensures ToUpper(ToUpper(s)) == ToUpper(s)
  {
    var u := ToUpper(s);
    forall i | 0 <= i < |u| ensures UpperChar(u[i]) == u[i] {
      assert u[i] == UpperChar(s[i]);
    }
  }

  /** ToUpper keeps white space where it was, so trimming and upper-casing commute. */
  lemma {:induction false} ToUpperKeepsTrimmed(s: string)
    requires Trimmed(s)
    ensures Trimmed(ToUpper(s))
  {
  }

  // ---------------------------------------------------------------------
  // strings.TrimRight with a one-character cut set

  /** strings.TrimRight(s, string(c)): drop every trailing `c`. */
  function TrimRightChar(s: string, c: char): (r: string)
    ensures |r| <= |s| && r == s[..|r|]
    ensures forall k :: |r| <= k < |s| ==> s[k] == c
    ensures r == [] || r[|r| - 1] != c
  {
    if |s| > 0 && s[|s| - 1] == c then TrimRightChar(s[..|s| - 1], c) else s
  }

  // ---------------------------------------------------------------------
  // strings.Join

  function Join(parts: seq<string>, sep: string): (r: string)
    ensures parts == [] ==> r == ""
    ensures |parts| == 1 ==> r == parts[0]
    ensures |parts| >= 1 ==> |r| >= |parts[0]| && r[..|parts[0]|] == parts[0]
  {
    if |parts| == 0 then ""
    else if |parts| == 1 then parts[0]
    else Join(parts[..|parts| - 1], sep) + sep + parts[|parts| - 1]
  }

  // ---------------------------------------------------------------------
  // Errors: fmt.Errorf("...: %w", e) and go.uber.org/multierr

  /** The message of fmt.Errorf("<prefix>: %w", err). */
  function Wrap(prefix: string, err: string): (r: string)
    ensures |r| == |prefix| + 2 + |err|
    ensures r[..|prefix|] == prefix && r[|prefix| + 2..] == err
  {
    prefix + ": " + err
  }

  /**
   * The message of an error accumulated with multierr.Append: one error
   * keeps its own message, several are joined with "; " in the order they
   * were appended.
   */
  function ErrorText(errs: seq<string>): (r: string)
    ensures |errs| == 1 ==> r == errs[0]
    ensures |errs| >= 1 ==> |r| >= |errs[0]| && r[..|errs[0]|] == errs[0]
  {
    Join(errs, "; ")
  }

  /**
   * What `err.Error()` gives for an error accumulated with multierr.Append
   * from nil: nothing when no error was appended.
   */
  function CumulativeError(errs: seq<string>): (r: string)
    ensures errs == [] ==> r == ""
    ensures errs != [] ==> r == ErrorText(errs)
  {
    if errs == [] then "" else ErrorText(errs)
  }

  /** An error message accumulated from non-empty messages is empty exactly when there are none. */
  lemma {:induction false} CumulativeErrorEmpty(errs: seq<string>)
    requires forall e :: e in errs ==> |e| >= 1
    ensures CumulativeError(errs) == "" <==> errs == []
  {
    if errs != [] {
      assert errs[0] in errs;
      assert |ErrorText(errs)| >= |errs[0]|;
    }
  }

  // ---------------------------------------------------------------------
  // Bytes of an ASCII string ([]byte(s) for a literal)

  predicate IsAscii(s: string)
  {
    forall i :: 0 <= i < |s| ==> s[i] as int < 128
  }

  function AsciiBytes(s: string): (b: Bytes)
    requires IsAscii(s)
    ensures |b| == |s|
    ensures forall i :: 0 <= i < |s| ==> b[i] as int == s[i] as int
  {
    seq(|s|, i requires 0 <= i < |s| => s[i] as int as Byte)
  }

  // ---------------------------------------------------------------------
  // UTF-8 length: what len() of a Go string counts

  /** The number of bytes of a character's UTF-8 encoding. */
  function Utf8Width(c: char): (w: nat)
    ensures 1 <= w <= 4
    ensures w == 1 <==> c as int < 128
  {
    if c as int < 0x80 then 1
    else if c as int < 0x800 then 2
    else if c as int < 0x1_0000 then 3
    else 4
  }

  /** The number of bytes of a text's UTF-8 encoding. */
  function Utf8Len(s: string): (n: nat)
    ensures n >= |s|
  {
    if s == [] then 0 else Utf8Width(s[0]) + Utf8Len(s[1..])
  }

  /** The byte count of a concatenation is the sum of the byte counts. */
  lemma {:induction false} Utf8LenAppend(a: string, b: string)
    ensures Utf8Len(a + b) == Utf8Len(a) + Utf8Len(b)
    decreases |a|
  {
    if a == [] {
      assert a + b == b;
    } else {
      assert (a + b)[0] == a[0] && (a + b)[1..] == a[1..] + b;
      Utf8LenAppend(a[1..], b);
    }
  }

  /** An ASCII text has one byte per character, and only an ASCII text has. */
  lemma {:induction false} Utf8LenAscii(s: string)
    ensures Utf8Len(s) == |s| <==> IsAscii(s)
    decreases |s|
  {
    if s != [] {
      Utf8LenAscii(s[1..]);
      assert IsAscii(s) <==> s[0] as int < 128 && IsAscii(s[1..]) by {
        assert forall i :: 1 <= i < |s| ==> s[1..][i - 1] == s[i];
      }
    }
  }

  // ---------------------------------------------------------------------
  // strconv.Itoa and strconv.Atoi (64-bit int)

  const MinInt64: int := -0x8000_0000_0000_0000
  const MaxInt64: int := 0x7FFF_FFFF_FFFF_FFFF

  predicate IsDigit(c: char)
  {
    '0' <= c <= '9'
  }

  predicate AllDigits(s: string)
  {
    forall i :: 0 <= i < |s| ==> IsDigit(s[i])
  }

  function DigitChar(d: nat): (c: char)
    requires d < 10
    ensures IsDigit(c) && c as int - '0' as int == d
  {
    ('0' as int + d) as char
  }

  /** The value of a string of decimal digits, most significant first. */
  function DecimalValue(s: string): nat
    requires AllDigits(s)
  {
    if s == [] then 0
    else DecimalValue(s[..|s| - 1]) * 10 + (s[|s| - 1] as int - '0' as int)
  }

  /** The shortest decimal spelling of a natural number. */
  function NatToDecimal(n: nat): (r: string)
    ensures |r| >= 1 && AllDigits(r)
    ensures |r| > 1 ==> r[0] != '0'
    decreases n
  {
    if n < 10 then [DigitChar(n)] else NatToDecimal(n / 10) + [DigitChar(n % 10)]
  }

  /** strconv.Itoa. */
  function Itoa(n: int): (r: string)
    ensures |r| >= 1
    ensures n < 0 <==> r[0] == '-'
  {
    if n < 0 then "-" + NatToDecimal(-n) else NatToDecimal(n)
  }

  /**
   * strconv.Atoi on a 64-bit platform: an optional sign followed by at least
   * one decimal digit, nothing else, and a value that fits in 64 bits.
   */
  function Atoi(s: string): (r: Result<int>)
    ensures r.Ok? ==> MinInt64 <= r.value <= MaxInt64
    ensures r.Ok? ==> |s| >= 1 && (IsDigit(s[0]) || s[0] == '-' || s[0] == '+')
    ensures AllDigits(s) && |s| >= 1 && DecimalValue(s) <= MaxInt64 ==> r == Ok(DecimalValue(s))
  {
    if |s| == 0 then Err("strconv.Atoi: invalid syntax")
    else
      var neg := s[0] == '-';
      var digits := if s[0] == '-' || s[0] == '+' then s[1..] else s;
      if |digits| == 0 || !AllDigits(digits) then Err("strconv.Atoi: invalid syntax")
      else
        var v: int := if neg then -(DecimalValue(digits) as int) else DecimalValue(digits);
        if v < MinInt64 || v > MaxInt64 then Err("strconv.Atoi: value out of range")
        else Ok(v)
  }

  lemma {:induction false} DecimalValueOfNatToDecimal(n: nat)
    ensures DecimalValue(NatToDecimal(n)) == n
    decreases n
  {
    var r := NatToDecimal(n);
    if n >= 10 {
      DecimalValueOfNatToDecimal(n / 10);
      assert r[..|r| - 1] == NatToDecimal(n / 10);
    }
  }

  /** Atoi reads back what Itoa writes, for every 64-bit value. */
  lemma AtoiItoa(n: int)
    requires MinInt64 <= n <= MaxInt64
    ensures Atoi(Itoa(n)) == Ok(n)
  {
    var s := Itoa(n);
    if n < 0 {
      var d := NatToDecimal(-n);
      DecimalValueOfNatToDecimal(-n);
      assert s == "-" + d;
      assert s[0] == '-' && s[1..] == d;
    } else {
      var d := NatToDecimal(n);
      DecimalValueOfNatToDecimal(n);
      assert s == d && IsDigit(s[0]);
    }
  }
}

=== FILE: echo_logger.dfy ===
/**
 * The echo access-log middleware: it chooses a request ID, buffers the
 * request body, tees everything the handler writes into a capture buffer,
 * and logs one record through the global logger unless the route is
 * skipped.
 *
 * Fresh UUIDs, the clock and the tracer construction of the external ylog
 * package are parameters: `freshId` and `correlationId` are the two UUIDs
 * the middleware would draw, `tracerErr` is what building the tracer
 * returns, `elapsedMs` the elapsed time in milliseconds.
 */
module EchoLogger {
  import opened Common
  import opened Http

  /** The header names as the middleware spells them. */
  const RequestIdHeader: string := "X-Request-ID"
  const CorrelationIdHeader: string := "X-Correlation-ID"
  /** Their canonical forms: the keys Header.Get reads and Header.Set writes. */
  const RequestIdKey: string := "X-Request-Id"
  const CorrelationIdKey: string := "X-Correlation-Id"
  const LogMessage: string := "incoming request"
  const TooLarge: string := "message larger than 1MB to log"
  const MaxLogged: nat := 1_000_000
  const ReadFailure: string := "error read request body"
  const InjectFailure: string := "cannot inject propagation data"

  /** What the middleware puts in the request context. */
  datatype ContextData = ContextData(requestId: string, correlationId: string)

  /** The data_object of a record: nothing, a raw byte slice, or a decoded JSON value. */
  datatype DataObject = NoObject | ByteSlice(b: Bytes) | Parsed(source: Bytes)

  datatype EchoHTTPData = EchoHTTPData(header: map<string, string>, dataObject: DataObject, dataString: Bytes)

  datatype EchoAccessLog = EchoAccessLog(path: string, request: EchoHTTPData, response: EchoHTTPData,
                                         error: string, elapsedTime: int)

  /** LoggerOpt: the route paths not to log; nil means that nothing is logged. */
  datatype LoggerOpt = LoggerOpt(skipPath: Option<set<string>>)

  /** One ylog.Info call made by the middleware. */
  datatype InfoEntry = InfoEntry(ctx: ContextData, msg: string, data: EchoAccessLog)

  /** The global logger of the external ylog package: the Info calls it received. */
  class GlobalLog {
    var infos: seq<InfoEntry>

    constructor ()
      ensures infos == []
    {
      infos := [];
    }
  }

  // ---------------------------------------------------------------------
  // Pure rules

  /** The request ID: the trimmed X-Request-ID header when it is not blank, a fresh ID otherwise. */
  function RequestId(h: Header, freshId: string): (id: string)
    ensures TrimSpace(HeaderGet(h, RequestIdHeader)) != "" ==> id == TrimSpace(HeaderGet(h, RequestIdHeader))
    ensures TrimSpace(HeaderGet(h, RequestIdHeader)) == "" ==> id == freshId
  {
    var given := TrimSpace(HeaderGet(h, RequestIdHeader));
    if given == "" then freshId else given
  }

  /** How the request-ID header name is spelled, and its canonical form. */
  lemma RequestIdSpelling()
    ensures forall i :: 0 <= i < |RequestIdKey| ==> TokenChar(RequestIdKey[i]) && TokenChar(RequestIdHeader[i])
    ensures forall i :: 0 <= i < |RequestIdKey| && (i == 0 || RequestIdKey[i - 1] == '-') ==> !('a' <= RequestIdKey[i] <= 'z')
    ensures forall i :: 0 < i < |RequestIdKey| && RequestIdKey[i - 1] != '-' ==> !('A' <= RequestIdKey[i] <= 'Z')
    ensures forall i :: 0 <= i < |RequestIdKey| ==> LowerAscii(RequestIdHeader[i]) == LowerAscii(RequestIdKey[i])
  {
  }

  /** The canonical form of the request-ID header name. */
  lemma RequestIdKeyCanonical()
    ensures CanonicalKey(RequestIdHeader) == RequestIdKey
  {
    RequestIdSpelling();
    CanonicalKeyFixed(RequestIdKey);
    CanonicalKeyIgnoresCase(RequestIdHeader, RequestIdKey);
  }

  /** How the correlation-ID header name is spelled, and its canonical form. */
  lemma CorrelationIdSpelling()
    ensures forall i :: 0 <= i < |CorrelationIdKey| ==> TokenChar(CorrelationIdKey[i]) && TokenChar(CorrelationIdHeader[i])
    ensures forall i :: 0 <= i < |CorrelationIdKey| && (i == 0 || CorrelationIdKey[i - 1] == '-') ==> !('a' <= CorrelationIdKey[i] <= 'z')
    ensures forall i :: 0 < i < |CorrelationIdKey| && CorrelationIdKey[i - 1] != '-' ==> !('A' <= CorrelationIdKey[i] <= 'Z')
    ensures forall i :: 0 <= i < |CorrelationIdKey| ==> LowerAscii(CorrelationIdHeader[i]) == LowerAscii(CorrelationIdKey[i])
  {
  }

  /** The canonical form of the correlation-ID header name. */
  lemma CorrelationIdKeyCanonical()
    ensures CanonicalKey(CorrelationIdHeader) == CorrelationIdKey
  {
    CorrelationIdSpelling();
    CanonicalKeyFixed(CorrelationIdKey);
    CanonicalKeyIgnoresCase(CorrelationIdHeader, CorrelationIdKey);
  }

  /**
   * A client that sends a non-blank X-Request-Id (the key net/http builds
   * from any spelling of the name) has its trimmed value used as the ID.
   */
  lemma ClientRequestIdUsed(h: Header, freshId: string)
    requires RequestIdKey in h && |h[RequestIdKey]| > 0
    requires TrimSpace(h[RequestIdKey][0]) != ""
    ensures RequestId(h, freshId) == TrimSpace(h[RequestIdKey][0])
  {
    RequestIdKeyCanonical();
  }

  /** A client-supplied ID is used without surrounding white space. */
  lemma RequestIdIsTrimmed(h: Header, freshId: string)
    requires Trimmed(freshId)
    ensures Trimmed(RequestId(h, freshId))
  {
  }

  /** Whether a route is logged: only with a skip set, and only when the route is not in it. */
  predicate ShouldLog(opt: LoggerOpt, path: string)
  {
    opt.skipPath.Some? && path !in opt.skipPath.value
  }

  lemma NilSkipPathLogsNothing(path: string)
    ensures !ShouldLog(LoggerOpt(None), path)
    ensures ShouldLog(LoggerOpt(Some({})), path)
  {
  }

  lemma TooLargeIsAscii()
    ensures IsAscii(TooLarge)
  {
  }

  /** The response body as logged: a body of 1,000,000 bytes or more is replaced by a fixed note. */
  function LoggedBody(captured: Bytes): (b: Bytes)
    ensures |captured| < MaxLogged ==> b == captured
    ensures |captured| >= MaxLogged ==> IsAscii(TooLarge) && b == AsciiBytes(TooLarge)
  {
    TooLargeIsAscii();
    if |captured| >= MaxLogged then AsciiBytes(TooLarge) else captured
  }

  /** What is logged of a response body is always under the limit. */
  lemma LoggedBodyBounded(captured: Bytes)
    ensures |LoggedBody(captured)| < MaxLogged
    ensures |captured| >= MaxLogged ==> |LoggedBody(captured)| == |TooLarge|
  {
  }

  /** The request body the middleware reads: empty without a body or after a failed read. */
  function RequestBody(v: RequestView): (b: Bytes)
    ensures v.body.None? ==> b == []
    ensures v.body.Some? && v.body.value.readErr.Some? ==> b == []
    ensures v.body.Some? && v.body.value.readErr.None? ==> b == v.body.value.data
  {
    if v.body.Some? && v.body.value.readErr.None? then v.body.value.data else []
  }

  /**
   * The request side of a record: a body that is JSON is cleared, otherwise
   * both data_object and data_string hold the raw bytes.
   */
  function RequestData(v: RequestView, isJson: JsonCheck): (d: EchoHTTPData)
    ensures d.header == SimpleMap(v.header)
    ensures isJson(RequestBody(v)) ==> d.dataObject == ByteSlice([]) && d.dataString == []
    ensures !isJson(RequestBody(v)) ==> d.dataObject == ByteSlice(RequestBody(v)) && d.dataString == RequestBody(v)
  {
    var b := RequestBody(v);
    var kept := if isJson(b) then [] else b;
    EchoHTTPData(SimpleMap(v.header), ByteSlice(kept), kept)
  }

  /**
   * The response side of a record: a logged body that is JSON becomes the
   * decoded object and an empty string, anything else stays a string.
   */
  function ResponseData(h: Header, captured: Bytes, isJson: JsonCheck): (d: EchoHTTPData)
    ensures d.header == SimpleMap(h)
    ensures isJson(LoggedBody(captured)) ==> d.dataObject == Parsed(LoggedBody(captured)) && d.dataString == []
    ensures !isJson(LoggedBody(captured)) ==> d.dataObject == NoObject && d.dataString == LoggedBody(captured)
  {
    var b := LoggedBody(captured);
    if isJson(b) then EchoHTTPData(SimpleMap(h), Parsed(b), []) else EchoHTTPData(SimpleMap(h), NoObject, b)
  }

  /** Exactly one of data_object and data_string carries a JSON response. */
  lemma JsonResponseNotDuplicated(h: Header, captured: Bytes, isJson: JsonCheck)
    requires isJson(LoggedBody(captured))
    ensures ResponseData(h, captured, isJson).dataString == []
    ensures ResponseData(h, captured, isJson).dataObject.Parsed?
  {
  }

  // ---------------------------------------------------------------------
  // The tee writer and the handler

  /** All chunks one after the other. */
  function Concat(chunks: seq<Bytes>): (b: Bytes)
    decreases |chunks|
  {
    if chunks == [] then [] else Concat(chunks[..|chunks| - 1]) + chunks[|chunks| - 1]
  }

  /** A live writer after one Write per chunk, in order. */
  function WrittenAll(s: WriterState, chunks: seq<Bytes>, writeErr: Option<string>): (t: WriterState)
    decreases |chunks|
  {
    if chunks == [] then s else Written(WrittenAll(s, chunks[..|chunks| - 1], writeErr), chunks[|chunks| - 1], writeErr)
  }

  /**
   * Writing chunk by chunk leaves the headers alone, fixes a status as soon
   * as one chunk is written, and appends every chunk in order unless the
   * writer fails.
   */
  lemma {:induction false} WrittenAllAppends(s: WriterState, chunks: seq<Bytes>, writeErr: Option<string>)
    ensures WrittenAll(s, chunks, writeErr).header == s.header
    ensures s.code.Some? ==> WrittenAll(s, chunks, writeErr).code == s.code
    ensures chunks != [] ==> WrittenAll(s, chunks, writeErr).code.Some?
    ensures WrittenAll(s, chunks, writeErr).body == (if writeErr.None? then s.body + Concat(chunks) else s.body)
    decreases |chunks|
  {
    if chunks != [] {
      var init := chunks[..|chunks| - 1];
      var last := chunks[|chunks| - 1];
      WrittenAllAppends(s, init, writeErr);
      var before := WrittenAll(s, init, writeErr);
      assert WrittenAll(s, chunks, writeErr) == Written(before, last, writeErr);
      if writeErr.None? {
        assert Concat(chunks) == Concat(init) + last;
        assert s.body + Concat(init) + last == s.body + Concat(chunks);
      }
    }
  }

  lemma AppendAssoc(a: Bytes, b: Bytes, c: Bytes)
    ensures a + b + c == a + (b + c)
  {
  }

  /** Writing the chunks, then one more, is writing them and then that one. */
  lemma OneMoreChunk(s: WriterState, sent: seq<Bytes>, chunk: Bytes, writeErr: Option<string>)
    ensures WrittenAll(s, sent + [chunk], writeErr) == Written(WrittenAll(s, sent, writeErr), chunk, writeErr)
    ensures Concat(sent + [chunk]) == Concat(sent) + chunk
  {
    var done := sent + [chunk];
    assert done[..|done| - 1] == sent && done[|done| - 1] == chunk;
  }

  /** What a handler does: set headers, maybe a status, write chunks, return an error or not. */
  datatype EchoReply = EchoReply(header: Header, status: Option<int>, chunks: seq<Bytes>, err: Option<string>)

  /** The live writer after the handler's reply went through the tee. */
  function EchoDelivered(s: WriterState, r: EchoReply, writeErr: Option<string>): (t: WriterState)
  {
    var withHeader := s.(header := s.header + r.header);
    var withStatus := if r.status.Some? && withHeader.code.None? then withHeader.(code := r.status) else withHeader;
    WrittenAll(withStatus, r.chunks, writeErr)
  }

  /** The client gets the handler's body in full when the live writer does not fail. */
  lemma ClientGetsAllChunks(s: WriterState, r: EchoReply)
    ensures EchoDelivered(s, r, None).body == s.body + Concat(r.chunks)
    ensures EchoDelivered(s, r, None).header == s.header + r.header
  {
    var withHeader := s.(header := s.header + r.header);
    var withStatus := if r.status.Some? && withHeader.code.None? then withHeader.(code := r.status) else withHeader;
    WrittenAllAppends(withStatus, r.chunks, None);
  }

  /**
   * bodyDumpResponseWriter: every Write goes to the live writer and then
   * into the capture buffer, as io.MultiWriter does; a failed live write
   * stops there and captures nothing.
   */
  class BodyDumpResponseWriter {
    const live: ResponseWriter
    var captured: Bytes

    constructor (live: ResponseWriter)
      ensures this.live == live && captured == []
    {
      this.live := live;
      captured := [];
    }

    method WriteHeader(code: int)
      modifies live
      ensures live.State() == old(live.State()).(code := if old(live.code).None? then Some(code) else old(live.code))
    {
      live.WriteHeader(code);
    }

    method Write(b: Bytes) returns (err: Option<string>)
      modifies this, live
      ensures err == live.writeErr
      ensures live.State() == Written(old(live.State()), b, live.writeErr)
      ensures captured == old(captured) + (if live.writeErr.None? then b else [])
    {
      err := live.Write(b);
      if err.None? {
        captured := captured + b;
      }
    }

    /** The handler's writes, one chunk at a time. */
    method WriteAll(chunks: seq<Bytes>)
      modifies this, live
      ensures live.State() == WrittenAll(old(live.State()), chunks, live.writeErr)
      ensures captured == old(captured) + (if live.writeErr.None? then Concat(chunks) else [])
    {
      ghost var s0 := live.State();
      ghost var c0 := captured;
      ghost var sent: seq<Bytes> := [];
      var i := 0;
      while i < |chunks|
        invariant 0 <= i <= |chunks| && sent == chunks[..i]
        invariant live.State() == WrittenAll(s0, sent, live.writeErr)
        invariant live.writeErr.None? ==> captured == c0 + Concat(sent)
        invariant live.writeErr.Some? ==> captured == c0
      {
        OneMoreChunk(s0, sent, chunks[i], live.writeErr);
        var _ := Write(chunks[i]);
        AppendAssoc(c0, Concat(sent), chunks[i]);
        sent := sent + [chunks[i]];
        i := i + 1;
      }
      assert sent == chunks;
    }
  }

  /** The handler the middleware wraps: what it does for each request, and the requests it saw. */
  class EchoHandler {
    const respond: RequestView -> EchoReply
    var seen: seq<RequestView>

    constructor (respond: RequestView -> EchoReply)
      ensures this.respond == respond && seen == []
    {
      this.respond := respond;
      seen := [];
    }

    method Serve(w: BodyDumpResponseWriter, req: Request) returns (err: Option<string>)
      modifies this, w, w.live
      ensures seen == old(seen) + [old(req.View())]
      ensures err == respond(old(req.View())).err
      ensures w.live.State() == EchoDelivered(old(w.live.State()), respond(old(req.View())), w.live.writeErr)
      ensures w.captured == old(w.captured) + (if w.live.writeErr.None? then Concat(respond(old(req.View())).chunks) else [])
    {
      var reply := respond(req.View());
      seen := seen + [req.View()];
      w.live.header := w.live.header + reply.header;
      if reply.status.Some? {
        w.WriteHeader(reply.status.value);
      }
      w.WriteAll(reply.chunks);
      err := reply.err;
    }
  }

  // ---------------------------------------------------------------------
  // The middleware

  /** The errors met, in order: the request-body read, then the handler's own. */
  function EchoErrors(v: RequestView, r: EchoReply): (errs: seq<string>)
    ensures v.body.Some? && v.body.value.readErr.Some? ==> |errs| >= 1 && errs[0] == Wrap(ReadFailure, v.body.value.readErr.value)
    ensures r.err.Some? ==> |errs| >= 1 && errs[|errs| - 1] == r.err.value
    ensures errs == [] <==> (v.body.None? || v.body.value.readErr.None?) && r.err.None?
  {
    (if v.body.Some? && v.body.value.readErr.Some? then [Wrap(ReadFailure, v.body.value.readErr.value)] else [])
    + (if r.err.Some? then [r.err.value] else [])
  }

  /** The live writer's state before the handler runs: the two ID headers set. */
  function WithIds(s: WriterState, ids: ContextData): (t: WriterState)
    ensures t.header == s.header[RequestIdKey := [ids.requestId]][CorrelationIdKey := [ids.correlationId]]
    ensures t.code == s.code && t.body == s.body
  {
    s.(header := s.header[RequestIdKey := [ids.requestId]][CorrelationIdKey := [ids.correlationId]])
  }

  /** The record of one request. */
  function EchoRecord(v: RequestView, respHeader: Header, captured: Bytes, routePath: string,
                      isJson: JsonCheck, errs: seq<string>, elapsedMs: int): (a: EchoAccessLog)
    ensures a.path == routePath && a.elapsedTime == elapsedMs
    ensures a.request == RequestData(v, isJson)
    ensures a.response == ResponseData(respHeader, captured, isJson)
    ensures a.error == CumulativeError(errs)
  {
    EchoAccessLog(routePath, RequestData(v, isJson), ResponseData(respHeader, captured, isJson), CumulativeError(errs), elapsedMs)
  }

  /** The middleware returned by Logger(opt) around `next`. */
  class LoggerMiddleware {
    const opt: LoggerOpt
    const next: EchoHandler

    constructor Logger(opt: LoggerOpt, next: EchoHandler)
      ensures this.opt == opt && this.next == next
    {
      this.opt := opt;
      this.next := next;
    }

    /**
     * Handle one request. When the tracer cannot be built the request is
     * neither read nor served nor logged. Otherwise the handler gets the
     * buffered body, its output reaches the client through the tee, the
     * record is logged when the route is not skipped, and the errors met
     * are returned.
     */
    method Handle(req: Request, live: ResponseWriter, routePath: string, freshId: string, correlationId: string,
                  tracerErr: Option<string>, elapsedMs: int, isJson: JsonCheck, log: GlobalLog)
      returns (err: Option<string>)
      modifies req, live, next, log
      ensures var v := old(req.View());
        var ids := ContextData(RequestId(v.header, freshId), correlationId);
        var reply := next.respond(Rebuffered(v));
        var errs := EchoErrors(v, reply);
        var captured := if live.writeErr.None? then Concat(reply.chunks) else [];
        if tracerErr.Some? then
          && err == Some(Wrap(InjectFailure, tracerErr.value))
          && req.View() == v && live.State() == old(live.State())
          && next.seen == old(next.seen) && log.infos == old(log.infos)
        else
          && req.View() == Rebuffered(v)
          && next.seen == old(next.seen) + [Rebuffered(v)]
          && live.State() == EchoDelivered(WithIds(old(live.State()), ids), reply, live.writeErr)
          && err == (if errs == [] then None else Some(ErrorText(errs)))
          && log.infos == old(log.infos)
               + (if ShouldLog(opt, routePath)
                  then [InfoEntry(ids, LogMessage, EchoRecord(v, live.header, captured, routePath, isJson, errs, elapsedMs))]
                  else [])
    {
      var requestId := TrimSpace(HeaderGet(req.header, RequestIdHeader));
      if requestId == "" {
        requestId := freshId;
      }
      var ids := ContextData(requestId, correlationId);
      if tracerErr.Some? {
        err := Some(Wrap(InjectFailure, tracerErr.value));
        return;
      }
      err := Serve(req, live, routePath, ids, elapsedMs, isJson, log);
    }

    /** Handle once the tracer is built: read, serve through the tee, log, return the errors. */
    method Serve(req: Request, live: ResponseWriter, routePath: string, ids: ContextData,
                 elapsedMs: int, isJson: JsonCheck, log: GlobalLog)
      returns (err: Option<string>)
      modifies req, live, next, log
      ensures var v := old(req.View());
        var reply := next.respond(Rebuffered(v));
        var errs := EchoErrors(v, reply);
        var captured := if live.writeErr.None? then Concat(reply.chunks) else [];
        && req.View() == Rebuffered(v)
        && next.seen == old(next.seen) + [Rebuffered(v)]
        && live.State() == EchoDelivered(WithIds(old(live.State()), ids), reply, live.writeErr)
        && err == (if errs == [] then None else Some(ErrorText(errs)))
        && log.infos == old(log.infos)
             + (if ShouldLog(opt, routePath)
                then [InfoEntry(ids, LogMessage, EchoRecord(v, live.header, captured, routePath, isJson, errs, elapsedMs))]
                else [])
    {
      ghost var v := req.View();
      var errs, reqBody := ReadRequestBody(req);

      ghost var reply := next.respond(Rebuffered(v));
      var captured, handlerErr := ServeThroughTee(req, live, ids);
      if handlerErr.Some? {
        errs := errs + [handlerErr.value];
      }
      assert errs == EchoErrors(v, reply);

      var record := Record(v, req.header, reqBody, live.header, captured, routePath, isJson, errs, elapsedMs);
      if opt.skipPath.Some? && routePath !in opt.skipPath.value {
        log.infos := log.infos + [InfoEntry(ids, LogMessage, record)];
      }
      err := if errs == [] then None else Some(ErrorText(errs));
    }

    /**
     * The ID headers are set on the live writer, then the handler answers
     * through the tee: what it writes reaches the client and the capture
     * buffer. Its error is returned as it is.
     */
    method ServeThroughTee(req: Request, live: ResponseWriter, ids: ContextData)
      returns (captured: Bytes, handlerErr: Option<string>)
      modifies live, next
      ensures var reply := next.respond(req.View());
        && next.seen == old(next.seen) + [req.View()]
        && live.State() == EchoDelivered(WithIds(old(live.State()), ids), reply, live.writeErr)
        && captured == (if live.writeErr.None? then Concat(reply.chunks) else [])
        && handlerErr == reply.err
    {
      var w := new BodyDumpResponseWriter(live);
      // Header().Set stores the canonical forms of the two names (RequestIdKeyCanonical, CorrelationIdKeyCanonical).
      live.SetHeader(RequestIdKey, ids.requestId);
      live.SetHeader(CorrelationIdKey, ids.correlationId);
      assert live.State() == WithIds(old(live.State()), ids);
      handlerErr := next.Serve(w, req);
      captured := w.captured;
    }
  }

  /** Read the whole request body (without closing it) and put the bytes back as the new body. */
  method ReadRequestBody(req: Request) returns (errs: seq<string>, reqBody: Bytes)
    modifies req
    ensures reqBody == RequestBody(old(req.View()))
    ensures req.View() == Rebuffered(old(req.View()))
    ensures errs == (if old(req.body).Some? && old(req.body).value.readErr.Some?
                     then [Wrap(ReadFailure, old(req.body).value.readErr.value)] else [])
  {
    errs := [];
    reqBody := [];
    if req.body.Some? {
      if req.body.value.readErr.Some? {
        errs := [Wrap(ReadFailure, req.body.value.readErr.value)];
      } else {
        reqBody := req.body.value.data;
      }
      req.body := Some(NopCloser(reqBody));
    }
  }

  /** Assemble the record: truncate and classify the captured response, clear a JSON request body. */
  method Record(ghost v: RequestView, reqHeader: Header, reqBody: Bytes, liveHeader: Header, captured: Bytes,
                routePath: string, isJson: JsonCheck, errs: seq<string>, elapsedMs: int)
    returns (record: EchoAccessLog)
    requires reqHeader == v.header && reqBody == RequestBody(v)
    ensures record == EchoRecord(v, liveHeader, captured, routePath, isJson, errs, elapsedMs)
  {
    var respBody := captured;
    if |respBody| >= MaxLogged {
      TooLargeIsAscii();
      respBody := AsciiBytes(TooLarge);
    }
    var respObj := NoObject;
    if isJson(respBody) {
      respObj := Parsed(respBody);
      respBody := [];
    }
    var loggedReq := if isJson(reqBody) then [] else reqBody;
    var respHeader := HttpHeaderToSimpleMap(liveHeader);
    var reqSimple := HttpHeaderToSimpleMap(reqHeader);
    record := EchoAccessLog(routePath, EchoHTTPData(reqSimple, ByteSlice(loggedReq), loggedReq),
                            EchoHTTPData(respHeader, respObj, respBody), CumulativeError(errs), elapsedMs);
  }
}

=== FILE: http.dfy ===
/**
 * The parts of net/http the middlewares touch: headers, bodies, URLs,
 * requests, responses, response writers, and the handler or transport a
 * middleware wraps. The wrapped handler and transport are code outside
 * the service: each is a pure function from what it is given to what it
 * produces, plus a log of what it was given.
 */
module Http {
  import opened Common
  import opened Ylog

  /** http.Header, keyed by canonical header names. */
  type Header = map<string, seq<string>>

  /** The access-log form of a header: every key, its values joined by one space. */
  function SimpleMap(h: Header): map<string, string>
  {
    map k | k in h :: Join(h[k], " ")
  }

  /**
   * HttpHeaderToSimpleMap: build the simple map key by key. Map iteration
   * order is unspecified in Go, so the loop takes the keys in any order.
   */
  method HttpHeaderToSimpleMap(h: Header) returns (out: map<string, string>)
    ensures out.Keys == h.Keys
    ensures forall k :: k in h ==> out[k] == Join(h[k], " ")
    ensures out == SimpleMap(h)
  {
    out := map[];
    var todo := h.Keys;
    while todo != {}
      invariant todo <= h.Keys
      invariant out.Keys == h.Keys - todo
      invariant forall k :: k in out ==> out[k] == Join(h[k], " ")
      decreases todo
    {
      var k :| k in todo;
      out := out[k := Join(h[k], " ")];
      todo := todo - {k};
    }
  }

  /** Header.Set on every entry of a simple map: each key gets that one value. */
  function SetAll(h: Header, m: map<string, string>): (r: Header)
    ensures r.Keys == h.Keys + m.Keys
    ensures forall k :: k in m ==> r[k] == [m[k]]
    ensures forall k :: k in h && k !in m ==> r[k] == h[k]
  {
    map k | k in h.Keys + m.Keys :: if k in m then [m[k]] else h[k]
  }

  /**
   * A header copied value-joined onto a writer reads back, in access-log
   * form, exactly as the original did.
   */
  lemma SetAllReadsBack(h: Header, src: Header)
    ensures forall k :: k in src ==> SimpleMap(SetAll(h, SimpleMap(src)))[k] == SimpleMap(src)[k]
  {
  }

  /** A byte allowed in a header field name: an ASCII token character. */
  predicate TokenChar(c: char)
  {
    || ('a' <= c <= 'z') || ('A' <= c <= 'Z') || ('0' <= c <= '9')
    || c == '!' || c == '#' || c == '$' || c == '%' || c == '&' || c == '\'' || c == '*'
    || c == '+' || c == '-' || c == '.' || c == '^' || c == '_' || c == '`' || c == '|' || c == '~'
  }

  /**
   * The case folding of CanonicalMIMEHeaderKey: a letter at the start or
   * just after '-' is upper-cased, every other letter lower-cased.
   */
  function CanonicalFrom(s: string, upper: bool): (r: string)
    ensures |r| == |s|
  {
    if s == [] then []
    else
      var d := Fold(s[0], upper);
      [d] + CanonicalFrom(s[1..], d == '-')
  }

  /** One character folded: upper-cased where a word starts, lower-cased elsewhere. */
  function Fold(c: char, upper: bool): (d: char)
    ensures d == '-' <==> c == '-'
  {
    if upper && 'a' <= c <= 'z' then (c as int - 32) as char
    else if !upper && 'A' <= c <= 'Z' then (c as int + 32) as char
    else c
  }

  /** Each character is folded by whether it starts the key or follows a '-'. */
  lemma {:induction false} CanonicalFromAt(s: string, upper: bool)
    ensures forall i :: 0 <= i < |s| ==> CanonicalFrom(s, upper)[i] == Fold(s[i], if i == 0 then upper else s[i - 1] == '-')
    decreases |s|
  {
    if s != [] {
      var next := Fold(s[0], upper) == '-';
      assert next == (s[0] == '-');
      var rest := CanonicalFrom(s[1..], next);
      assert CanonicalFrom(s, upper) == [Fold(s[0], upper)] + rest;
      CanonicalFromAt(s[1..], next);
      forall i | 1 <= i < |s|
        ensures CanonicalFrom(s, upper)[i] == Fold(s[i], s[i - 1] == '-')
      {
        assert CanonicalFrom(s, upper)[i] == rest[i - 1];
        assert s[1..][i - 1] == s[i];
        if i > 1 {
          assert s[1..][i - 2] == s[i - 1];
        }
      }
    }
  }

  /**
   * textproto.CanonicalMIMEHeaderKey, which Header.Get and Header.Set apply
   * to their key: a key holding a character outside the token characters is
   * kept as it is; otherwise its letters are case-folded as CanonicalFrom says.
   */
  function CanonicalKey(k: string): (r: string)
    ensures |r| == |k|
    ensures (exists i :: 0 <= i < |k| && !TokenChar(k[i])) ==> r == k
  {
    if forall i :: 0 <= i < |k| ==> TokenChar(k[i]) then CanonicalFrom(k, true) else k
  }

  /** Case folding keeps every character a token character and changes no non-letter. */
  lemma {:induction false} CanonicalFromKeepsTokens(s: string, upper: bool)
    requires forall i :: 0 <= i < |s| ==> TokenChar(s[i])
    ensures forall i :: 0 <= i < |s| ==> TokenChar(CanonicalFrom(s, upper)[i])
    ensures forall i :: 0 <= i < |s| && s[i] == '-' ==> CanonicalFrom(s, upper)[i] == '-'
    decreases |s|
  {
    if s != [] {
      CanonicalFromKeepsTokens(s[1..], CanonicalFrom(s, upper)[0] == '-');
      forall i | 0 <= i < |s|
        ensures TokenChar(CanonicalFrom(s, upper)[i])
      {
        if i > 0 {
          assert s[1..][i - 1] == s[i];
        }
      }
      forall i | 0 <= i < |s| && s[i] == '-'
        ensures CanonicalFrom(s, upper)[i] == '-'
      {
        if i > 0 {
          assert s[1..][i - 1] == s[i];
        }
      }
    }
  }

  /** Folding an already folded key changes nothing. */
  lemma {:induction false} CanonicalFromIdempotent(s: string, upper: bool)
    ensures CanonicalFrom(CanonicalFrom(s, upper), upper) == CanonicalFrom(s, upper)
    decreases |s|
  {
    if s != [] {
      var t := CanonicalFrom(s, upper);
      assert t[1..] == CanonicalFrom(s[1..], t[0] == '-');
      CanonicalFromIdempotent(s[1..], t[0] == '-');
    }
  }

  /** A canonical key is its own canonical form: Get and Set agree on it however often applied. */
  lemma CanonicalKeyIdempotent(k: string)
    ensures CanonicalKey(CanonicalKey(k)) == CanonicalKey(k)
  {
    if forall i :: 0 <= i < |k| ==> TokenChar(k[i]) {
      CanonicalFromKeepsTokens(k, true);
      CanonicalFromIdempotent(k, true);
    }
  }

  /**
   * A key of token characters already in canonical case (a word starts
   * with no lower-case letter and goes on with no upper-case one) is its
   * own canonical form.
   */
  lemma CanonicalKeyFixed(k: string)
    requires forall i :: 0 <= i < |k| ==> TokenChar(k[i])
    requires forall i :: 0 <= i < |k| && (i == 0 || k[i - 1] == '-') ==> !('a' <= k[i] <= 'z')
    requires forall i :: 0 < i < |k| && k[i - 1] != '-' ==> !('A' <= k[i] <= 'Z')
    ensures CanonicalKey(k) == k
  {
    CanonicalFromAt(k, true);
    forall i | 0 <= i < |k|
      ensures CanonicalFrom(k, true)[i] == k[i]
    {
      var upper := if i == 0 then true else k[i - 1] == '-';
      assert CanonicalFrom(k, true)[i] == Fold(k[i], upper);
      if upper {
        assert !('a' <= k[i] <= 'z');
      } else {
        assert !('A' <= k[i] <= 'Z');
      }
    }
  }

  /** An ASCII letter in lower case; any other character as it is. */
  function LowerAscii(c: char): char
  {
    if 'A' <= c <= 'Z' then (c as int + 32) as char else c
  }

  /** Two keys that differ only in the case of their ASCII letters fold alike. */
  lemma {:induction false} CanonicalFromIgnoresCase(s: string, t: string, upper: bool)
    requires |s| == |t|
    requires forall i :: 0 <= i < |s| ==> LowerAscii(s[i]) == LowerAscii(t[i])
    ensures CanonicalFrom(s, upper) == CanonicalFrom(t, upper)
    decreases |s|
  {
    if s != [] {
      assert LowerAscii(s[0]) == LowerAscii(t[0]);
      assert CanonicalFrom(s, upper)[0] == CanonicalFrom(t, upper)[0];
      forall i | 0 <= i < |s[1..]|
        ensures LowerAscii(s[1..][i]) == LowerAscii(t[1..][i])
      {
        assert s[1..][i] == s[i + 1] && t[1..][i] == t[i + 1];
      }
      CanonicalFromIgnoresCase(s[1..], t[1..], CanonicalFrom(s, upper)[0] == '-');
    }
  }

  /**
   * Header lookups ignore case: two keys of token characters that differ
   * only in the case of their letters have the same canonical form, so
   * Header.Get finds the same entry for both.
   */
  lemma CanonicalKeyIgnoresCase(k: string, k2: string)
    requires |k| == |k2|
    requires forall i :: 0 <= i < |k| ==> TokenChar(k[i]) && TokenChar(k2[i])
    requires forall i :: 0 <= i < |k| ==> LowerAscii(k[i]) == LowerAscii(k2[i])
    ensures CanonicalKey(k) == CanonicalKey(k2)
  {
    CanonicalFromIgnoresCase(k, k2, true);
  }

  /** Header.Get: the first value stored under the canonical form of the key, or "". */
  function HeaderGet(h: Header, k: string): (v: string)
    ensures CanonicalKey(k) !in h ==> v == ""
    ensures CanonicalKey(k) in h && |h[CanonicalKey(k)]| > 0 ==> v == h[CanonicalKey(k)][0]
  {
    var key := CanonicalKey(k);
    if key in h && |h[key]| > 0 then h[key][0] else ""
  }

  // ---------------------------------------------------------------------
  // Bodies

  /**
   * An io.ReadCloser: the bytes a reader delivers, the error Read ends with
   * instead (if any), and the error Close returns (if any).
   */
  datatype ReadCloser = ReadCloser(data: Bytes, readErr: Option<string>, closeErr: Option<string>)

  /** io.NopCloser over a buffer: reads the buffer, never fails. */
  function NopCloser(b: Bytes): ReadCloser
  {
    ReadCloser(b, None, None)
  }

  /** What draining a body leaves: the buffer and the errors met, in order. */
  datatype Drained = Drained(buffer: Bytes, errors: seq<string>)

  /**
   * Copy a body into a fresh buffer, emptying the buffer when the copy
   * fails, then close the body. `what` is "request" or "response".
   */
  function DrainBody(body: ReadCloser, what: string): (d: Drained)
    ensures body.readErr.None? ==> d.buffer == body.data
    ensures body.readErr.Some? ==> d.buffer == []
    ensures |d.errors| == (if body.readErr.Some? then 1 else 0) + (if body.closeErr.Some? then 1 else 0)
    ensures body.readErr.Some? ==> d.errors[0] == Wrap("error copy " + what + " body", body.readErr.value)
    ensures body.closeErr.Some? ==> d.errors[|d.errors| - 1] == Wrap("error closing " + what + " body", body.closeErr.value)
  {
    var copied := if body.readErr.Some? then Drained([], [Wrap("error copy " + what + " body", body.readErr.value)])
                  else Drained(body.data, []);
    if body.closeErr.Some? then Drained(copied.buffer, copied.errors + [Wrap("error closing " + what + " body", body.closeErr.value)])
    else copied
  }

  /** Every error a drained body reports is a wrapped message, never empty. */
  lemma DrainErrorsNonEmpty(body: ReadCloser, what: string)
    ensures forall e :: e in DrainBody(body, what).errors ==> |e| >= 2
  {
  }

  /** The body a middleware puts back can be drained again with the same bytes and no error. */
  lemma DrainBodyRestores(body: ReadCloser, what: string)
    ensures DrainBody(NopCloser(DrainBody(body, what).buffer), what) == Drained(DrainBody(body, what).buffer, [])
  {
  }

  /**
   * What an access record keeps of a buffered body: the decoded JSON value
   * when the bytes are JSON, the bytes as a string when they are not JSON
   * and not empty, and nothing otherwise.
   */
  function Captured(isJson: JsonCheck, b: Bytes): (v: Value)
    ensures isJson(b) ==> v == JsonValue(b)
    ensures !isJson(b) && |b| > 0 ==> v == Text(b)
    ensures !isJson(b) && |b| == 0 ==> v == Nil
  {
    if isJson(b) then JsonValue(b) else if |b| > 0 then Text(b) else Nil
  }

  /**
   * With a JSON check that rejects empty input, as json.Unmarshal does, a
   * body is captured as nothing exactly when it is empty, and otherwise the
   * captured value holds exactly the buffered bytes.
   */
  lemma CapturedKeepsBytes(isJson: JsonCheck, b: Bytes)
    requires !isJson([])
    ensures Captured(isJson, b) == Nil <==> b == []
    ensures Captured(isJson, b).JsonValue? ==> Captured(isJson, b).source == b
    ensures Captured(isJson, b).Text? ==> Captured(isJson, b).bytes == b
  {
  }

  // ---------------------------------------------------------------------
  // URLs

  /** A url.URL; percent-encoding is not modelled, so a path is its own escaped form. */
  datatype Url = Url(scheme: string, host: string, path: string, rawQuery: string)

  function EscapedPath(u: Url): string
  {
    u.path
  }

  /** URL.String for an absolute or host-relative URL without user info or fragment. */
  function UrlString(u: Url): (s: string)
    ensures u.scheme == "" && u.host == "" && u.rawQuery == "" ==> s == EscapedPath(u)
  {
    (if u.scheme != "" then u.scheme + ":" else "")
    + (if u.host != "" then "//" + u.host else "")
    + EscapedPath(u)
    + (if u.rawQuery != "" then "?" + u.rawQuery else "")
  }

  // ---------------------------------------------------------------------
  // Requests and responses

  /** What a handler or transport can observe of a request. */
  datatype RequestView = RequestView(httpMethod: string, url: Option<Url>, header: Header, body: Option<ReadCloser>)

  class Request {
    var httpMethod: string
    var url: Option<Url>
    var header: Header
    var body: Option<ReadCloser>

    constructor (httpMethod: string, url: Option<Url>, header: Header, body: Option<ReadCloser>)
      ensures View() == RequestView(httpMethod, url, header, body)
    {
      this.httpMethod := httpMethod;
      this.url := url;
      this.header := header;
      this.body := body;
    }

    function View(): RequestView
      reads this
    {
      RequestView(httpMethod, url, header, body)
    }
  }

  /** A request pointer as a handler sees it: nothing when it is nil. */
  function ViewOf(req: Request?): Option<RequestView>
    reads req
  {
    if req == null then None else Some(req.View())
  }

  datatype ResponseView = ResponseView(statusCode: int, header: Header, body: Option<ReadCloser>)

  class Response {
    var statusCode: int
    var header: Header
    var body: Option<ReadCloser>

    constructor (v: ResponseView)
      ensures View() == v
    {
      statusCode := v.statusCode;
      header := v.header;
      body := v.body;
    }

    function View(): ResponseView
      reads this
    {
      ResponseView(statusCode, header, body)
    }
  }

  /** The outcome of buffering the request body; nothing is read when there is no body. */
  function RequestDrained(v: RequestView): (d: Drained)
    ensures v.body.None? ==> d == Drained([], [])
    ensures v.body.Some? ==> d == DrainBody(v.body.value, "request")
  {
    if v.body.Some? then DrainBody(v.body.value, "request") else Drained([], [])
  }

  /** The request handed on downstream: its body replaced by the buffered bytes. */
  function Rebuffered(v: RequestView): (h: RequestView)
    ensures h.httpMethod == v.httpMethod && h.url == v.url && h.header == v.header
    ensures v.body.None? ==> h.body.None?
    ensures v.body.Some? ==> h.body == Some(NopCloser(RequestDrained(v).buffer))
  {
    if v.body.Some? then v.(body := Some(NopCloser(RequestDrained(v).buffer))) else v
  }

  /** The propagator's header entries, each set as a single value. */
  function Injected(injected: map<string, string>): Header
  {
    map k | k in injected :: [injected[k]]
  }

  /** Buffer the request body and put the buffer back in its place. */
  method BufferRequestBody(req: Request) returns (d: Drained)
    modifies req
    ensures d == RequestDrained(old(req.View()))
    ensures req.View() == Rebuffered(old(req.View()))
  {
    d := Drained([], []);
    if req.body.Some? {
      d := DrainBody(req.body.value, "request");
      req.body := Some(NopCloser(d.buffer));
    }
  }

  /** The outcome of buffering a response body; nothing is read when there is no body. */
  function ResponseDrained(v: ResponseView): (d: Drained)
    ensures v.body.None? ==> d == Drained([], [])
    ensures v.body.Some? ==> d == DrainBody(v.body.value, "response")
  {
    if v.body.Some? then DrainBody(v.body.value, "response") else Drained([], [])
  }

  /** The response handed back to the caller: its body replaced by the buffered bytes. */
  function RebufferedResponse(v: ResponseView): (r: ResponseView)
    ensures r.statusCode == v.statusCode && r.header == v.header
    ensures v.body.None? ==> r.body.None?
    ensures v.body.Some? ==> r.body == Some(NopCloser(ResponseDrained(v).buffer))
  {
    if v.body.Some? then v.(body := Some(NopCloser(ResponseDrained(v).buffer))) else v
  }

  /** Buffer the response body and put the buffer back in its place. */
  method BufferResponseBody(resp: Response) returns (d: Drained)
    modifies resp
    ensures d == ResponseDrained(old(resp.View()))
    ensures resp.View() == RebufferedResponse(old(resp.View()))
  {
    d := Drained([], []);
    if resp.body.Some? {
      d := DrainBody(resp.body.value, "response");
      resp.body := Some(NopCloser(d.buffer));
    }
  }

  // ---------------------------------------------------------------------
  // Response writers

  /** The state of a response writer: its header, the status written, the body written. */
  datatype WriterState = WriterState(header: Header, code: Option<int>, body: Bytes)

  /** The status a writer reports: what WriteHeader set, 200 when it was never called. */
  function StatusOf(s: WriterState): int
  {
    if s.code.Some? then s.code.value else 200
  }

  /**
   * An http.ResponseWriter. The first WriteHeader fixes the status and later
   * ones are ignored; Write fixes 200 when no status was written. A live
   * writer may fail every Write; httptest.NewRecorder never does.
   */
  class ResponseWriter {
    var header: Header
    var code: Option<int>
    var body: Bytes
    const writeErr: Option<string>

    constructor (writeErr: Option<string>)
      ensures State() == WriterState(map[], None, []) && this.writeErr == writeErr
    {
      header := map[];
      code := None;
      body := [];
      this.writeErr := writeErr;
    }

    /** httptest.NewRecorder. */
    constructor Recorder()
      ensures State() == WriterState(map[], None, []) && writeErr.None?
    {
      header := map[];
      code := None;
      body := [];
      writeErr := None;
    }

    function State(): WriterState
      reads this
    {
      WriterState(header, code, body)
    }

    /**
     * Header().Set(k, v) for a key already in canonical form: the key is
     * stored as given, which is what Set stores when CanonicalKey(k) == k.
     */
    method SetHeader(k: string, v: string)
      modifies this
      ensures State() == old(State()).(header := old(header)[k := [v]])
    {
      header := header[k := [v]];
    }

    method WriteHeader(c: int)
      modifies this
      ensures State() == old(State()).(code := if old(code).None? then Some(c) else old(code))
    {
      if code.None? {
        code := Some(c);
      }
    }

    method Write(b: Bytes) returns (err: Option<string>)
      modifies this
      ensures err == writeErr
      ensures State() == Written(old(State()), b, writeErr)
    {
      if code.None? {
        code := Some(200);
      }
      if writeErr.None? {
        body := body + b;
      }
      err := writeErr;
    }
  }

  /** The writer state after Write(b). */
  function Written(s: WriterState, b: Bytes, writeErr: Option<string>): (t: WriterState)
    ensures t.header == s.header && t.code.Some?
    ensures s.code.Some? ==> t.code == s.code
    ensures t.body == (if writeErr.None? then s.body + b else s.body)
  {
    WriterState(s.header, if s.code.Some? then s.code else Some(200), if writeErr.None? then s.body + b else s.body)
  }

  /**
   * The live writer after the recorded answer is copied to it: every
   * recorded header set with its values joined by a space, the recorded
   * status written, then the recorded body.
   */
  function Forwarded(s: WriterState, rec: WriterState, writeErr: Option<string>): (t: WriterState)
    ensures t.header == SetAll(s.header, SimpleMap(rec.header))
    ensures s.code.None? ==> t.code == Some(StatusOf(rec))
    ensures t.body == (if writeErr.None? then s.body + rec.body else s.body)
  {
    var headed := s.(header := SetAll(s.header, SimpleMap(rec.header)));
    var statused := if headed.code.None? then headed.(code := Some(StatusOf(rec))) else headed;
    Written(statused, rec.body, writeErr)
  }

  /** for k, v := range h { w.Header().Set(k, strings.Join(v, " ")) } */
  method CopyHeaders(w: ResponseWriter, h: Header)
    modifies w
    ensures w.State() == old(w.State()).(header := SetAll(old(w.header), SimpleMap(h)))
  {
    ghost var start := w.header;
    var todo := h.Keys;
    while todo != {}
      invariant todo <= h.Keys
      invariant w.header.Keys == start.Keys + (h.Keys - todo)
      invariant forall k :: k in h && k !in todo ==> w.header[k] == [Join(h[k], " ")]
      invariant forall k :: k in start && (k !in h || k in todo) ==> w.header[k] == start[k]
      invariant w.code == old(w.code) && w.body == old(w.body)
      decreases todo
    {
      var k :| k in todo;
      w.SetHeader(k, Join(h[k], " "));
      todo := todo - {k};
    }
    assert h.Keys - todo == h.Keys;
    SetAllPointwise(start, h, w.header);
  }

  /** Copy a recorded answer to the live writer: its headers, its status, then its body. */
  method CopyRecorded(w: ResponseWriter, rec: WriterState) returns (err: Option<string>)
    modifies w
    ensures err == w.writeErr
    ensures w.State() == Forwarded(old(w.State()), rec, w.writeErr)
  {
    CopyHeaders(w, rec.header);
    w.WriteHeader(StatusOf(rec));
    err := w.Write(rec.body);
  }

  /** A header agreeing with SetAll(start, SimpleMap(h)) key by key is that header. */
  lemma SetAllPointwise(start: Header, h: Header, r: Header)
    requires r.Keys == start.Keys + h.Keys
    requires forall k :: k in h ==> r[k] == [Join(h[k], " ")]
    requires forall k :: k in start && k !in h ==> r[k] == start[k]
    ensures r == SetAll(start, SimpleMap(h))
  {
  }
  // ---------------------------------------------------------------------
  // The wrapped handler

  /** What a handler does with its writer: set headers, maybe WriteHeader, then Write a body. */
  datatype Reply = Reply(header: Header, status: Option<int>, body: Bytes)

  /** The writer state after a handler's reply. */
  function Delivered(s: WriterState, r: Reply, writeErr: Option<string>): (t: WriterState)
    ensures t.header == s.header + r.header
    ensures s.code.Some? ==> t.code == s.code
    ensures s.code.None? && r.status.Some? ==> t.code == r.status
    ensures s.code.None? && r.status.None? ==> t.code == Some(200)
    ensures t.body == (if writeErr.None? then s.body + r.body else s.body)
  {
    var withHeader := s.(header := s.header + r.header);
    var withStatus := if r.status.Some? && withHeader.code.None? then withHeader.(code := r.status) else withHeader;
    Written(withStatus, r.body, writeErr)
  }

  /** A handler the middleware wraps: what it replies to each request, and the requests it saw. */
  class Downstream {
    const respond: Option<RequestView> -> Reply
    var seen: seq<Option<RequestView>>

    constructor (respond: Option<RequestView> -> Reply)
      ensures this.respond == respond && seen == []
    {
      this.respond := respond;
      seen := [];
    }

    method ServeHTTP(w: ResponseWriter, req: Request?)
      modifies this, w
      ensures seen == old(seen) + [old(ViewOf(req))]
      ensures w.State() == Delivered(old(w.State()), respond(old(ViewOf(req))), w.writeErr)
    {
      var view := ViewOf(req);
      seen := seen + [view];
      var reply := respond(view);
      w.header := w.header + reply.header;
      if reply.status.Some? {
        w.WriteHeader(reply.status.value);
      }
      var _ := w.Write(reply.body);
    }
  }

  // ---------------------------------------------------------------------
  // The wrapped transport

  /** What a transport returns for a request: a response, an error, or both. */
  datatype TransportResult = TransportResult(response: Option<ResponseView>, err: Option<string>)

  /** An http.RoundTripper the client middlewares wrap (http.DefaultTransport included). */
  class Transport {
    const respond: RequestView -> TransportResult
    var seen: seq<RequestView>

    constructor (respond: RequestView -> TransportResult)
      ensures this.respond == respond && seen == []
    {
      this.respond := respond;
      seen := [];
    }

    method RoundTrip(req: Request) returns (resp: Response?, err: Option<string>)
      modifies this
      ensures seen == old(seen) + [req.View()]
      ensures err == respond(req.View()).err
      ensures resp == null <==> respond(req.View()).response.None?
      ensures resp != null ==> fresh(resp) && resp.View() == respond(req.View()).response.value
    {
      seen := seen + [req.View()];
      var r := respond(req.View());
      err := r.err;
      if r.response.Some? {
        resp := new Response(r.response.value);
      } else {
        resp := null;
      }
    }
  }
}

=== FILE: metric.dfy ===
/**
 * The metric interfaces' promises: what a counter, a gauge and a timer
 * hold after one call, stated on their readings. The Prometheus-backed
 * instruments are proved against these; the no-op backend deliberately
 * keeps none of them.
 */
module Metric {

  /** StatCounter.Incr: the counter grows by the amount. */
  function CounterAfter(total: int, count: int): int
  {
    total + count
  }

  /** The three calls a StatGauge accepts. */
  datatype GaugeCall = SetTo(value: int) | IncrBy(count: int) | DecrBy(count: int)

  /** StatGauge: Set replaces the value, Incr adds the amount, Decr takes it away. */
  function GaugeAfter(value: int, call: GaugeCall): int
  {
    match call
    case SetTo(v) => v
    case IncrBy(n) => value + n
    case DecrBy(n) => value - n
  }

  /** StatTimer.Timing: one more observation, in nanoseconds. */
  function TimerAfter(observations: seq<int>, delta: int): seq<int>
  {
    observations + [delta]
  }
}

=== FILE: metrics_combine.dfy ===
/**
 * The combining metric backend: it holds child backends in the order they
 * were added and forwards every lookup and every instrument call to each of
 * them. A child is seen here only through its answers (whether it is the
 * Prometheus backend, whether it exposes a handler, whether its vectors and
 * instruments are nil, what its Close returns); the vectors and instruments
 * it hands out are opaque handles, and every call the combiner makes on a
 * child is recorded in a call log.
 */
module MetricsCombine {
  import opened Common

  const NilMetric: string := "cannot add nil metric to combined metrics"

  datatype Kind = CounterKind | GaugeKind | TimerKind

  /** A child backend as the combiner sees it. */
  datatype Child = Child(id: nat, isPrometheus: bool, hasHandler: bool, nilVectors: bool, nilStats: bool, closeErr: Option<string>)

  /** A child's vector, and a child's instrument obtained from one. */
  datatype Vec = ChildVec(child: Child, kind: Kind, name: string, labelNames: seq<string>)
  datatype Stat = ChildStat(vec: Vec, labelValues: seq<string>)

  /** What child.Get*Vec(name, labelNames...) returns. */
  function ChildGet(c: Child, kind: Kind, name: string, labelNames: seq<string>): Option<Vec>
  {
    if c.nilVectors then None else Some(ChildVec(c, kind, name, labelNames))
  }

  /** What a child vector's WithValues(labelValues...) returns. */
  function ChildWithValues(v: Vec, labelValues: seq<string>): Option<Stat>
  {
    if v.child.nilStats then None else Some(ChildStat(v, labelValues))
  }

  /** A call an instrument receives. */
  datatype StatOp = Incr(count: int) | Set(value: int) | Decr(count: int) | Timing(delta: int)

  /** Every call the combiner makes on a child, its vectors or its instruments. */
  datatype Call =
    | GetVecCall(child: Child, kind: Kind, name: string, labelNames: seq<string>)
    | WithValuesCall(vec: Vec, labelValues: seq<string>)
    | StatCall(stat: Stat, op: StatOp)
    | CloseCall(child: Child)

  class CallLog {
    var calls: seq<Call>

    constructor ()
      ensures calls == []
    {
      calls := [];
    }

    method Add(c: Call)
      modifies this
      ensures calls == old(calls) + [c]
    {
      calls := calls + [c];
    }
  }

  // ---------------------------------------------------------------------
  // Nil skipping

  /** The non-nil entries, in order. */
  function NonNil<T(!new)>(xs: seq<Option<T>>): (r: seq<T>)
    ensures |r| <= |xs|
    ensures forall x :: x in r <==> Some(x) in xs
    decreases |xs|
  {
    if xs == [] then []
    else
      var init := xs[..|xs| - 1];
      assert xs == init + [xs[|xs| - 1]];
      NonNil(init) + (if xs[|xs| - 1].Some? then [xs[|xs| - 1].value] else [])
  }

  /** Skipping nils distributes over concatenation: order is kept and nothing else is dropped. */
  lemma {:induction false} NonNilAppend<T(!new)>(a: seq<Option<T>>, b: seq<Option<T>>)
    ensures NonNil(a + b) == NonNil(a) + NonNil(b)
    decreases |b|
  {
    if b == [] {
      assert a + b == a;
    } else {
      var init := b[..|b| - 1];
      assert (a + b)[..|a + b| - 1] == a + init;
      assert b[..|b| - 1] == init;
      NonNilAppend(a, init);
    }
  }

  /** Without nils, nothing is skipped. */
  lemma {:induction false} NonNilAllPresent<T(!new)>(xs: seq<Option<T>>)
    requires forall i :: 0 <= i < |xs| ==> xs[i].Some?
    ensures |NonNil(xs)| == |xs|
    ensures forall i :: 0 <= i < |xs| ==> NonNil(xs)[i] == xs[i].value
    decreases |xs|
  {
    if xs != [] {
      NonNilAllPresent(xs[..|xs| - 1]);
    }
  }

  // ---------------------------------------------------------------------
  // Lookups

  /** One child vector per child, in child order. */
  function ChildVecs(children: seq<Child>, kind: Kind, name: string, labelNames: seq<string>): (vs: seq<Option<Vec>>)
    ensures |vs| == |children|
    ensures forall i :: 0 <= i < |children| ==> vs[i] == ChildGet(children[i], kind, name, labelNames)
  {
    seq(|children|, i requires 0 <= i < |children| => ChildGet(children[i], kind, name, labelNames))
  }

  /** The combined vector: a no-op vector without children, else every child's vector. */
  datatype CombinedVec = NoopVec(kind: Kind) | CombineVec(kind: Kind, vecs: seq<Option<Vec>>)

  /** The combined instrument: every non-nil child instrument obtained for the label values. */
  datatype CombinedStat = CombineStat(kind: Kind, stats: seq<Option<Stat>>)

  /** WithValues: the child vectors that are not nil, each asked once for the same label values. */
  function WithValuesOf(vecs: seq<Option<Vec>>, labelValues: seq<string>): (ss: seq<Option<Stat>>)
    ensures |ss| == |NonNil(vecs)|
    ensures forall i :: 0 <= i < |ss| ==> ss[i] == ChildWithValues(NonNil(vecs)[i], labelValues)
  {
    seq(|NonNil(vecs)|, i requires 0 <= i < |NonNil(vecs)| => ChildWithValues(NonNil(vecs)[i], labelValues))
  }

  /** The calls WithValues makes: one per non-nil child vector, in order. */
  function WithValuesCalls(vecs: seq<Option<Vec>>, labelValues: seq<string>): (cs: seq<Call>)
    ensures |cs| == |NonNil(vecs)|
    ensures forall i :: 0 <= i < |cs| ==> cs[i] == WithValuesCall(NonNil(vecs)[i], labelValues)
  {
    seq(|NonNil(vecs)|, i requires 0 <= i < |NonNil(vecs)| => WithValuesCall(NonNil(vecs)[i], labelValues))
  }

  /** The calls an instrument call makes: the same call once on each non-nil child instrument, in order. */
  function Forwarded(stats: seq<Option<Stat>>, op: StatOp): (cs: seq<Call>)
    ensures |cs| == |NonNil(stats)|
    ensures forall i :: 0 <= i < |cs| ==> cs[i] == StatCall(NonNil(stats)[i], op)
  {
    seq(|NonNil(stats)|, i requires 0 <= i < |NonNil(stats)| => StatCall(NonNil(stats)[i], op))
  }

  /**
   * A combined vector's WithValues: each non-nil child vector is asked, in
   * order, with the same label values.
   */
  method WithValues(vecs: seq<Option<Vec>>, labelValues: seq<string>, log: CallLog) returns (s: seq<Option<Stat>>)
    modifies log
    ensures s == WithValuesOf(vecs, labelValues)
    ensures log.calls == old(log.calls) + WithValuesCalls(vecs, labelValues)
  {
    s := [];
    var i := 0;
    while i < |vecs|
      invariant 0 <= i <= |vecs|
      invariant s == WithValuesOf(vecs[..i], labelValues)
      invariant log.calls == old(log.calls) + WithValuesCalls(vecs[..i], labelValues)
    {
      assert vecs[..i + 1] == vecs[..i] + [vecs[i]];
      assert vecs[..i + 1][..i] == vecs[..i];
      if vecs[i].Some? {
        var v := vecs[i].value;
        s := s + [ChildWithValues(v, labelValues)];
        log.Add(WithValuesCall(v, labelValues));
      }
      i := i + 1;
    }
    assert vecs[..i] == vecs;
  }

  /**
   * Incr, Set, Decr and Timing on a combined instrument: the same call,
   * once, on each non-nil child instrument, in order; nothing else.
   */
  method Forward(stats: seq<Option<Stat>>, op: StatOp, log: CallLog)
    modifies log
    ensures log.calls == old(log.calls) + Forwarded(stats, op)
  {
    var i := 0;
    while i < |stats|
      invariant 0 <= i <= |stats|
      invariant log.calls == old(log.calls) + Forwarded(stats[..i], op)
    {
      assert stats[..i + 1] == stats[..i] + [stats[i]];
      assert stats[..i + 1][..i] == stats[..i];
      if stats[i].Some? {
        log.Add(StatCall(stats[i].value, op));
      }
      i := i + 1;
    }
    assert stats[..i] == stats;
  }

  /** An instrument call reaches every non-nil child instrument and no other. */
  lemma ForwardReachesEachChild(stats: seq<Option<Stat>>, op: StatOp)
    ensures forall s :: StatCall(s, op) in Forwarded(stats, op) <==> Some(s) in stats
    ensures forall c :: c in Forwarded(stats, op) ==> c.StatCall? && c.op == op
  {
    forall s ensures StatCall(s, op) in Forwarded(stats, op) <==> Some(s) in stats {
      if StatCall(s, op) in Forwarded(stats, op) {
        var i :| 0 <= i < |Forwarded(stats, op)| && Forwarded(stats, op)[i] == StatCall(s, op);
        assert s == NonNil(stats)[i];
      }
      if Some(s) in stats {
        var i :| 0 <= i < |NonNil(stats)| && NonNil(stats)[i] == s;
        assert Forwarded(stats, op)[i] == StatCall(s, op);
      }
    }
  }

  // ---------------------------------------------------------------------
  // Options and construction

  datatype CombineOpt = CombineMetricAdd(m: Option<Child>)

  /** The children after the options, or the error of the first nil metric. */
  function ApplyOpts(children: seq<Child>, opts: seq<CombineOpt>): Result<seq<Child>>
    decreases |opts|
  {
    if opts == [] then Ok(children)
    else if opts[0].m.None? then Err(NilMetric)
    else ApplyOpts(children + [opts[0].m.value], opts[1..])
  }

  /**
   * The options succeed exactly when none adds a nil metric, and then the
   * children are the added metrics in option order.
   */
  lemma {:induction false} ChildrenInOptionOrder(children: seq<Child>, opts: seq<CombineOpt>)
    ensures ApplyOpts(children, opts).Ok? <==> forall i :: 0 <= i < |opts| ==> opts[i].m.Some?
    ensures ApplyOpts(children, opts).Err? ==> ApplyOpts(children, opts).error == NilMetric
    ensures ApplyOpts(children, opts).Ok? ==>
      && |ApplyOpts(children, opts).value| == |children| + |opts|
      && ApplyOpts(children, opts).value[..|children|] == children
      && forall i :: 0 <= i < |opts| ==> ApplyOpts(children, opts).value[|children| + i] == opts[i].m.value
    decreases |opts|
  {
    if opts != [] && opts[0].m.Some? {
      var next := children + [opts[0].m.value];
      ChildrenInOptionOrder(next, opts[1..]);
      if ApplyOpts(children, opts).Ok? {
        var r := ApplyOpts(children, opts).value;
        assert r == ApplyOpts(next, opts[1..]).value;
        assert r[..|children|] == next[..|children|];
        forall i | 0 <= i < |opts| ensures r[|children| + i] == opts[i].m.value {
          if i > 0 {
            assert opts[1..][i - 1] == opts[i];
            assert r[|next| + (i - 1)] == opts[1..][i - 1].m.value;
          }
        }
      }
      if !(forall i :: 0 <= i < |opts| ==> opts[i].m.Some?) {
        var i :| 0 <= i < |opts| && opts[i].m.None?;
        assert opts[1..][i - 1] == opts[i];
      }
    } else if opts != [] {
      assert opts[0].m.None?;
    }
  }

  /** The first child that is the Prometheus backend and exposes a handler. */
  function FirstExposing(children: seq<Child>): (r: Option<Child>)
    ensures r.Some? ==> r.value in children && r.value.isPrometheus && r.value.hasHandler
    ensures r.Some? ==> exists i :: 0 <= i < |children| && children[i] == r.value
                          && forall j :: 0 <= j < i ==> !(children[j].isPrometheus && children[j].hasHandler)
    ensures r.None? <==> forall c :: c in children ==> !(c.isPrometheus && c.hasHandler)
    decreases |children|
  {
    if children == [] then None
    else if children[0].isPrometheus && children[0].hasHandler then Some(children[0])
    else
      var r := FirstExposing(children[1..]);
      assert r.Some? ==> exists i :: 0 < i < |children| && children[i] == r.value
                          && forall j :: 0 <= j < i ==> !(children[j].isPrometheus && children[j].hasHandler) by {
        if r.Some? {
          var k :| 0 <= k < |children[1..]| && children[1..][k] == r.value
                   && forall j :: 0 <= j < k ==> !(children[1..][j].isPrometheus && children[1..][j].hasHandler);
          assert children[k + 1] == r.value;
          forall j | 0 <= j < k + 1 ensures !(children[j].isPrometheus && children[j].hasHandler) {
            if j > 0 {
              assert children[j] == children[1..][j - 1];
            }
          }
        }
      }
      assert children == [children[0]] + children[1..];
      r
  }

  /** The errors of the children's Close calls, in child order. */
  function CloseErrors(children: seq<Child>): (errs: seq<string>)
    ensures errs == [] <==> forall c :: c in children ==> c.closeErr.None?
    decreases |children|
  {
    if children == [] then []
    else
      var init := children[..|children| - 1];
      var last := children[|children| - 1];
      assert children == init + [last];
      CloseErrors(init) + (if last.closeErr.Some? then [last.closeErr.value] else [])
  }

  /** The calls a lookup makes: one on each child, in order. */
  function GetVecCalls(children: seq<Child>, kind: Kind, name: string, labelNames: seq<string>): (cs: seq<Call>)
    ensures |cs| == |children|
    ensures forall i :: 0 <= i < |children| ==> cs[i] == GetVecCall(children[i], kind, name, labelNames)
  {
    seq(|children|, i requires 0 <= i < |children| => GetVecCall(children[i], kind, name, labelNames))
  }

  /** The calls Close makes: one on each child, in order. */
  function CloseCalls(children: seq<Child>): (cs: seq<Call>)
    ensures |cs| == |children|
    ensures forall i :: 0 <= i < |children| ==> cs[i] == CloseCall(children[i])
  {
    seq(|children|, i requires 0 <= i < |children| => CloseCall(children[i]))
  }

  class Combine {
    var metrics: seq<Child>

    constructor ()
      ensures metrics == []
    {
      metrics := [];
    }

    /** CombineMetricAdd: a nil metric is refused; any other is appended. */
    method Apply(opt: CombineOpt) returns (err: Option<string>)
      modifies this
      ensures opt.m.None? ==> err == Some(NilMetric) && metrics == old(metrics)
      ensures opt.m.Some? ==> err.None? && metrics == old(metrics) + [opt.m.value]
    {
      if opt.m.None? {
        return Some(NilMetric);
      }
      metrics := metrics + [opt.m.value];
      err := None;
    }

    /**
     * GetCounterVec, GetGaugeVec and GetTimerVec: every child is asked in
     * order; without children the result is a no-op vector.
     */
    method GetVec(kind: Kind, name: string, labelNames: seq<string>, log: CallLog) returns (v: CombinedVec)
      modifies log
      ensures |metrics| == 0 ==> v == NoopVec(kind)
      ensures |metrics| > 0 ==> v == CombineVec(kind, ChildVecs(metrics, kind, name, labelNames))
      ensures log.calls == old(log.calls) + GetVecCalls(metrics, kind, name, labelNames)
    {
      var vecs: seq<Option<Vec>> := [];
      var i := 0;
      while i < |metrics|
        invariant 0 <= i <= |metrics|
        invariant vecs == ChildVecs(metrics[..i], kind, name, labelNames)
        invariant log.calls == old(log.calls) + GetVecCalls(metrics[..i], kind, name, labelNames)
      {
        log.Add(GetVecCall(metrics[i], kind, name, labelNames));
        vecs := vecs + [ChildGet(metrics[i], kind, name, labelNames)];
        i := i + 1;
      }
      assert metrics[..i] == metrics;
      if |vecs| <= 0 {
        return NoopVec(kind);
      }
      v := CombineVec(kind, vecs);
    }

    /** HandlerFunc: the handler of the first Prometheus child that has one, nil otherwise. */
    method HandlerFunc() returns (h: Option<Child>)
      ensures h == FirstExposing(metrics)
    {
      var i := 0;
      while i < |metrics|
        invariant 0 <= i <= |metrics|
        invariant FirstExposing(metrics) == FirstExposing(metrics[i..])
      {
        assert metrics[i..][0] == metrics[i] && metrics[i..][1..] == metrics[i + 1..];
        if metrics[i].isPrometheus && metrics[i].hasHandler {
          return Some(metrics[i]);
        }
        i := i + 1;
      }
      h := None;
    }

    /**
     * Close: every child is closed, in order, even after one fails; the
     * result is nil exactly when every child returned nil, else all the
     * child errors combined.
     */
    method Close(log: CallLog) returns (err: Option<string>)
      modifies log
      ensures log.calls == old(log.calls) + CloseCalls(metrics)
      ensures err.None? <==> forall c :: c in metrics ==> c.closeErr.None?
      ensures err.Some? ==> err.value == ErrorText(CloseErrors(metrics))
    {
      var errs: seq<string> := [];
      var i := 0;
      while i < |metrics|
        invariant 0 <= i <= |metrics|
        invariant errs == CloseErrors(metrics[..i])
        invariant log.calls == old(log.calls) + CloseCalls(metrics[..i])
      {
        assert metrics[..i + 1][..i] == metrics[..i];
        log.Add(CloseCall(metrics[i]));
        if metrics[i].closeErr.Some? {
          errs := errs + [metrics[i].closeErr.value];
        }
        i := i + 1;
      }
      assert metrics[..i] == metrics;
      err := if errs == [] then None else Some(ErrorText(errs));
    }
  }

  /** NewCombinedMetrics: no children, then the options in order, stopping at the first nil metric. */
  method NewCombinedMetrics(opts: seq<CombineOpt>) returns (c: Combine?, err: Option<string>)
    ensures ApplyOpts([], opts).Err? ==> c == null && err == Some(ApplyOpts([], opts).error)
    ensures ApplyOpts([], opts).Ok? ==> c != null && fresh(c) && err.None? && c.metrics == ApplyOpts([], opts).value
  {
    c := new Combine();
    var i := 0;
    while i < |opts|
      invariant 0 <= i <= |opts|
      invariant ApplyOpts([], opts) == ApplyOpts(c.metrics, opts[i..])
    {
      assert opts[i..][0] == opts[i] && opts[i..][1..] == opts[i + 1..];
      var e := c.Apply(opts[i]);
      if e.Some? {
        return null, e;
      }
      i := i + 1;
    }
    err := None;
  }
}

=== FILE: metrics_noop.dfy ===
/**
 * The no-op metric backend: its instruments hold no reading and ignore
 * every call, its lookups accept any name and labels, its handler writes
 * nothing and its Close never fails.
 */
module MetricsNoop {
  import opened Common

  datatype NoopStat = NoopCounter | NoopGauge | NoopTimer

  /** A call an instrument can receive. */
  datatype StatCall = Incr(count: int) | Set(value: int) | Decr(count: int) | Timing(delta: int)

  /** The no-op instrument after one call: unchanged. */
  function Receive(s: NoopStat, call: StatCall): (r: NoopStat)
    ensures r == s
  {
    s
  }

  /** The instrument after a sequence of calls, in order. */
  function ReceiveAll(s: NoopStat, calls: seq<StatCall>): NoopStat
    decreases |calls|
  {
    if calls == [] then s else ReceiveAll(Receive(s, calls[0]), calls[1..])
  }

  /**
   * However many calls a no-op instrument receives, nothing changes: the
   * per-call fact of Receive, carried along a whole sequence of calls.
   */
  lemma {:induction false} NoopIgnoresCalls(s: NoopStat, calls: seq<StatCall>)
    ensures ReceiveAll(s, calls) == s
    decreases |calls|
  {
    if calls != [] {
      NoopIgnoresCalls(Receive(s, calls[0]), calls[1..]);
    }
  }

  datatype NoopMetric = NoopMetric

  /** The handler the no-op backend exposes: present, and writing nothing. */
  datatype NoopHandler = WritesNothing

  function NewNoop(): NoopMetric
  {
    NoopMetric
  }

  /** GetCounterVec: a no-op counter for any name and labels; it never panics. */
  function GetCounterVec(m: NoopMetric, name: string, labels: map<string, string>): (s: Outcome<NoopStat>)
    ensures s == Returned(NoopCounter)
  {
    Returned(NoopCounter)
  }

  /** GetGaugeVec: a no-op gauge for any name and labels; it never panics. */
  function GetGaugeVec(m: NoopMetric, name: string, labels: map<string, string>): (s: Outcome<NoopStat>)
    ensures s == Returned(NoopGauge)
  {
    Returned(NoopGauge)
  }

  /** GetTimerVec: a no-op timer for any name and labels; it never panics. */
  function GetTimerVec(m: NoopMetric, name: string, labels: map<string, string>): (s: Outcome<NoopStat>)
    ensures s == Returned(NoopTimer)
  {
    Returned(NoopTimer)
  }

  /** HandlerFunc: never nil. */
  function HandlerFunc(m: NoopMetric): (h: Option<NoopHandler>)
    ensures h.Some?
  {
    Some(WritesNothing)
  }

  /** Close: never fails. */
  function Close(m: NoopMetric): (err: Option<string>)
    ensures err.None?
  {
    None
  }
}

=== FILE: metrics_prometheus.dfy ===
/**
 * The Prometheus metric backend: one table per kind (counter, gauge,
 * timer) from a metric name to the instrument registered under it, each
 * instrument carrying the label names it was registered with. A lookup of
 * a present name compares label names ignoring order and panics on a
 * mismatch; a lookup of an absent name registers a new labelled instrument
 * with the client library's registry under the prefixed name, which panics
 * when that name is already taken.
 */
module MetricsPrometheus {
  import opened Common
  import opened StringOrder
  import Metric

  /** The client library's refusal of a negative counter increment. */
  const CounterDecrease: string := "counter cannot decrease in value"
  /** The client library's refusal of a second collector under a name it already holds. */
  const DuplicateRegistration: string := "duplicate metrics collector registration attempted"

  /** The panic for a present name asked for with other label names (the diff text is not modelled). */
  function MismatchMessage(kind: string, name: string): string
  {
    kind + " vector name '" + name + "' already registered: mismatch labels: "
  }

  // ---------------------------------------------------------------------
  // The instruments

  /**
   * The amount Decr adds to a gauge: a positive count is negated, zero or a
   * negative count is added as it is.
   */
  function DecrDelta(count: int): (d: int)
    ensures d <= 0
    ensures d == count || d == -count
  {
    if count > 0 then -count else count
  }

  /** Decr never increases a gauge. */
  lemma DecrNeverIncreases(value: int, count: int)
    ensures value + DecrDelta(count) <= value
  {
  }

  /** Decr(c) and Decr(-c) have the same effect. */
  lemma DecrSymmetric(count: int)
    ensures DecrDelta(count) == DecrDelta(-count)
  {
  }

  /** For a non-negative amount Decr is the interface's decrement; for a negative one it is not. */
  lemma DecrMeetsContract(value: int, count: int)
    ensures count >= 0 ==> value + DecrDelta(count) == Metric.GaugeAfter(value, Metric.DecrBy(count))
    ensures count < 0 ==> value + DecrDelta(count) != Metric.GaugeAfter(value, Metric.DecrBy(count))
  {
  }

  /** promCounter: a labelled counter and the label names it was registered with. */
  class PromCounter {
    const labelValues: map<string, string>
    var registeredLabels: seq<string>
    var total: int

    constructor (labelValues: map<string, string>, names: seq<string>)
      ensures this.labelValues == labelValues && registeredLabels == names && total == 0
    {
      this.labelValues := labelValues;
      registeredLabels := names;
      total := 0;
    }

    /** Incr: the counter grows by `count`; a negative amount panics in the client library. */
    method Incr(count: int) returns (o: Outcome<()>)
      modifies this
      ensures count >= 0 ==> o == Returned(()) && total == Metric.CounterAfter(old(total), count)
      ensures count < 0 ==> o == Panicked(CounterDecrease) && total == old(total)
      ensures registeredLabels == old(registeredLabels)
    {
      if count < 0 {
        o := Panicked(CounterDecrease);
      } else {
        total := total + count;
        o := Returned(());
      }
    }
  }

  /** promGauge: a labelled gauge and the label names it was registered with. */
  class PromGauge {
    const labelValues: map<string, string>
    var registeredLabels: seq<string>
    var value: int

    constructor (labelValues: map<string, string>, names: seq<string>)
      ensures this.labelValues == labelValues && registeredLabels == names && value == 0
    {
      this.labelValues := labelValues;
      registeredLabels := names;
      value := 0;
    }

    method Set(v: int)
      modifies this
      ensures value == Metric.GaugeAfter(old(value), Metric.SetTo(v))
      ensures registeredLabels == old(registeredLabels)
    {
      value := v;
    }

    method Incr(count: int)
      modifies this
      ensures value == Metric.GaugeAfter(old(value), Metric.IncrBy(count))
      ensures registeredLabels == old(registeredLabels)
    {
      value := value + count;
    }

    /** Decr: the gauge goes down by the magnitude of `count`, whatever its sign. */
    method Decr(count: int)
      modifies this
      ensures value == old(value) + DecrDelta(count)
      ensures value <= old(value)
      ensures count >= 0 ==> value == Metric.GaugeAfter(old(value), Metric.DecrBy(count))
      ensures registeredLabels == old(registeredLabels)
    {
      var c := count;
      if c > 0 {
        c := -c;
      }
      value := value + c;
    }
  }

  /** promTimer: a labelled summary and the label names it was registered with. */
  class PromTimer {
    const labelValues: map<string, string>
    var registeredLabels: seq<string>
    var observations: seq<int>

    constructor (labelValues: map<string, string>, names: seq<string>)
      ensures this.labelValues == labelValues && registeredLabels == names && observations == []
    {
      this.labelValues := labelValues;
      registeredLabels := names;
      observations := [];
    }

    /** Timing: exactly one observation of `delta`. */
    method Timing(delta: int)
      modifies this
      ensures observations == Metric.TimerAfter(old(observations), delta)
      ensures registeredLabels == old(registeredLabels)
    {
      observations := observations + [delta];
    }
  }

  // ---------------------------------------------------------------------
  // Label names

  /**
   * The label names of a label map, in the map's (unspecified) iteration
   * order: each key exactly once.
   */
  method LabelNames(labels: map<string, string>) returns (names: seq<string>)
    ensures Distinct(names)
    ensures forall k :: k in names <==> k in labels
  {
    names := [];
    var rest := labels.Keys;
    while rest != {}
      invariant rest <= labels.Keys
      invariant Distinct(names)
      invariant forall k :: k in names <==> k in labels && k !in rest
      decreases rest
    {
      var k :| k in rest;
      names := names + [k];
      rest := rest - {k};
    }
  }

  /**
   * Sorting both lists and comparing them accepts exactly the stored lists
   * that hold the label names of the map, each once, in any order.
   */
  lemma {:induction false} SortedCompareIsSetCompare(names: seq<string>, stored: seq<string>, labels: set<string>)
    requires Distinct(names)
    requires forall k :: k in names <==> k in labels
    ensures SortStrings(names) == SortStrings(stored) <==> multiset(stored) == multiset(labels)
  {
    forall x ensures multiset(names)[x] == multiset(labels)[x] {
      DistinctCounts(names, x);
    }
    assert multiset(names) == multiset(labels);
    SortedEqualIffPermutation(names, stored);
  }

  /**
   * Label names are consistent across calls: a stored list without repeats
   * is accepted exactly for label maps with the same key set.
   */
  lemma ConsistentLabelNames(stored: seq<string>, labels: set<string>)
    requires Distinct(stored)
    ensures multiset(stored) == multiset(labels) <==> (forall k :: k in stored <==> k in labels)
  {
    if multiset(stored) == multiset(labels) {
      forall k ensures k in stored <==> k in labels {
        assert k in stored <==> k in multiset(stored);
      }
    }
    if forall k :: k in stored <==> k in labels {
      forall x ensures multiset(stored)[x] == multiset(labels)[x] {
        DistinctCounts(stored, x);
      }
    }
  }

  /** A hit sorts the stored list in place; the same label names stay accepted afterwards. */
  lemma HitKeepsAccepting(stored: seq<string>, labels: set<string>)
    ensures Sorted(SortStrings(stored))
    ensures multiset(SortStrings(stored)) == multiset(labels) <==> multiset(stored) == multiset(labels)
  {
  }

  // ---------------------------------------------------------------------
  // The backend

  datatype PrometheusOpt = PrometheusWithPrefix(prefix: string)

  /** PrometheusWithPrefix replaces the prefix. */
  function ApplyOpt(prefix: string, opt: PrometheusOpt): string
  {
    opt.prefix
  }

  /** The prefix after the options, applied in order. */
  function ApplyOpts(prefix: string, opts: seq<PrometheusOpt>): string
    decreases |opts|
  {
    if opts == [] then prefix else ApplyOpt(ApplyOpts(prefix, opts[..|opts| - 1]), opts[|opts| - 1])
  }

  /** The prefix is the last option's, or empty without options. */
  lemma PrefixIsLast(opts: seq<PrometheusOpt>)
    ensures ApplyOpts("", opts) == if opts == [] then "" else opts[|opts| - 1].prefix
  {
  }

  class Prometheus {
    var prefix: string
    /** The fully-qualified names held by the registry, apart from the Go runtime collector's. */
    var registered: set<string>
    var goCollector: bool
    var counter: map<string, PromCounter>
    var gauge: map<string, PromGauge>
    var timer: map<string, PromTimer>

    constructor ()
      ensures prefix == "" && registered == {} && !goCollector
      ensures counter == map[] && gauge == map[] && timer == map[]
    {
      prefix := "";
      registered := {};
      goCollector := false;
      counter := map[];
      gauge := map[];
      timer := map[];
    }

    /** One option: the prefix is replaced; no option fails. */
    method Apply(opt: PrometheusOpt) returns (err: Option<string>)
      modifies this
      ensures err.None?
      ensures prefix == ApplyOpt(old(prefix), opt)
      ensures registered == old(registered) && goCollector == old(goCollector)
      ensures counter == old(counter) && gauge == old(gauge) && timer == old(timer)
    {
      prefix := opt.prefix;
      err := None;
    }

    /**
     * GetCounterVec. A present name: both label lists are sorted (the
     * stored one in place) and compared; the stored counter on a match, a
     * panic otherwise. An absent name: a new counter bound to `labels` is
     * registered under the prefixed name and stored, or the registration
     * panics. On a miss the caller gets the (nil) lookup result, not the
     * new counter.
     */
    method GetCounterVec(name: string, labels: map<string, string>) returns (c: PromCounter?, o: Outcome<()>)
      modifies this, if name in counter then {counter[name]} else {}
      ensures prefix == old(prefix) && goCollector == old(goCollector)
      ensures gauge == old(gauge) && timer == old(timer)
      ensures name in old(counter) ==>
        && counter == old(counter) && registered == old(registered)
        && counter[name].registeredLabels == SortStrings(old(counter[name].registeredLabels))
        && (multiset(old(counter[name].registeredLabels)) == multiset(labels.Keys) ==> o == Returned(()) && c == counter[name])
        && (multiset(old(counter[name].registeredLabels)) != multiset(labels.Keys) ==>
              o == Panicked(MismatchMessage("counter", name)) && c == null)
      ensures name !in old(counter) && prefix + name in old(registered) ==>
        o == Panicked(DuplicateRegistration) && c == null && counter == old(counter) && registered == old(registered)
      ensures name !in old(counter) && prefix + name !in old(registered) ==>
        && o == Returned(()) && c == null
        && registered == old(registered) + {prefix + name}
        && counter.Keys == old(counter.Keys) + {name}
        && (forall n :: n in old(counter) ==> counter[n] == old(counter[n]))
        && fresh(counter[name])
        && counter[name].labelValues == labels && counter[name].total == 0
        && Distinct(counter[name].registeredLabels)
        && (forall k :: k in counter[name].registeredLabels <==> k in labels)
    {
      var names := LabelNames(labels);
      if name in counter {
        var stored := counter[name];
        SortedCompareIsSetCompare(names, stored.registeredLabels, labels.Keys);
        var sortedNames := SortStrings(names);
        stored.registeredLabels := SortStrings(stored.registeredLabels);
        if sortedNames != stored.registeredLabels {
          c, o := null, Panicked(MismatchMessage("counter", name));
        } else {
          c, o := stored, Returned(());
        }
        return;
      }
      if prefix + name in registered {
        c, o := null, Panicked(DuplicateRegistration);
        return;
      }
      var entry := new PromCounter(labels, names);
      registered := registered + {prefix + name};
      counter := counter[name := entry];
      c, o := null, Returned(());
    }

    /** GetGaugeVec: as GetCounterVec, except that a miss returns the new gauge. */
    method GetGaugeVec(name: string, labels: map<string, string>) returns (g: PromGauge?, o: Outcome<()>)
      modifies this, if name in gauge then {gauge[name]} else {}
      ensures prefix == old(prefix) && goCollector == old(goCollector)
      ensures counter == old(counter) && timer == old(timer)
      ensures name in old(gauge) ==>
        && gauge == old(gauge) && registered == old(registered)
        && gauge[name].registeredLabels == SortStrings(old(gauge[name].registeredLabels))
        && (multiset(old(gauge[name].registeredLabels)) == multiset(labels.Keys) ==> o == Returned(()) && g == gauge[name])
        && (multiset(old(gauge[name].registeredLabels)) != multiset(labels.Keys) ==>
              o == Panicked(MismatchMessage("gauge", name)) && g == null)
      ensures name !in old(gauge) && prefix + name in old(registered) ==>
        o == Panicked(DuplicateRegistration) && g == null && gauge == old(gauge) && registered == old(registered)
      ensures name !in old(gauge) && prefix + name !in old(registered) ==>
        && o == Returned(()) && name in gauge && g == gauge[name]
        && registered == old(registered) + {prefix + name}
        && gauge.Keys == old(gauge.Keys) + {name}
        && (forall n :: n in old(gauge) ==> gauge[n] == old(gauge[n]))
        && fresh(g)
        && g.labelValues == labels && g.value == 0
        && Distinct(g.registeredLabels)
        && (forall k :: k in g.registeredLabels <==> k in labels)
    {
      var names := LabelNames(labels);
      if name in gauge {
        var stored := gauge[name];
        SortedCompareIsSetCompare(names, stored.registeredLabels, labels.Keys);
        var sortedNames := SortStrings(names);
        stored.registeredLabels := SortStrings(stored.registeredLabels);
        if sortedNames != stored.registeredLabels {
          g, o := null, Panicked(MismatchMessage("gauge", name));
        } else {
          g, o := stored, Returned(());
        }
        return;
      }
      if prefix + name in registered {
        g, o := null, Panicked(DuplicateRegistration);
        return;
      }
      var entry := new PromGauge(labels, names);
      registered := registered + {prefix + name};
      gauge := gauge[name := entry];
      g, o := entry, Returned(());
    }

    /** GetTimerVec: as GetGaugeVec, for summaries. */
    method GetTimerVec(name: string, labels: map<string, string>) returns (t: PromTimer?, o: Outcome<()>)
      modifies this, if name in timer then {timer[name]} else {}
      ensures prefix == old(prefix) && goCollector == old(goCollector)
      ensures counter == old(counter) && gauge == old(gauge)
      ensures name in old(timer) ==>
        && timer == old(timer) && registered == old(registered)
        && timer[name].registeredLabels == SortStrings(old(timer[name].registeredLabels))
        && (multiset(old(timer[name].registeredLabels)) == multiset(labels.Keys) ==> o == Returned(()) && t == timer[name])
        && (multiset(old(timer[name].registeredLabels)) != multiset(labels.Keys) ==>
              o == Panicked(MismatchMessage("timer", name)) && t == null)
      ensures name !in old(timer) && prefix + name in old(registered) ==>
        o == Panicked(DuplicateRegistration) && t == null && timer == old(timer) && registered == old(registered)
      ensures name !in old(timer) && prefix + name !in old(registered) ==>
        && o == Returned(()) && name in timer && t == timer[name]
        && registered == old(registered) + {prefix + name}
        && timer.Keys == old(timer.Keys) + {name}
        && (forall n :: n in old(timer) ==> timer[n] == old(timer[n]))
        && fresh(t)
        && t.labelValues == labels && t.observations == []
        && Distinct(t.registeredLabels)
        && (forall k :: k in t.registeredLabels <==> k in labels)
    {
      var names := LabelNames(labels);
      if name in timer {
        var stored := timer[name];
        SortedCompareIsSetCompare(names, stored.registeredLabels, labels.Keys);
        var sortedNames := SortStrings(names);
        stored.registeredLabels := SortStrings(stored.registeredLabels);
        if sortedNames != stored.registeredLabels {
          t, o := null, Panicked(MismatchMessage("timer", name));
        } else {
          t, o := stored, Returned(());
        }
        return;
      }
      if prefix + name in registered {
        t, o := null, Panicked(DuplicateRegistration);
        return;
      }
      var entry := new PromTimer(labels, names);
      registered := registered + {prefix + name};
      timer := timer[name := entry];
      t, o := entry, Returned(());
    }

    /** Close does nothing yet and never fails. */
    method Close() returns (err: Option<string>)
      ensures err.None?
    {
      err := None;
    }
  }

  /**
   * NewPrometheus: a fresh registry and three empty tables, the options in
   * order, then the Go runtime collector registered under the final prefix.
   * No option fails, and registering the first collector in a fresh
   * registry does not either.
   */
  method NewPrometheus(opts: seq<PrometheusOpt>) returns (p: Prometheus?, err: Option<string>)
    ensures err.None? && p != null && fresh(p)
    ensures p.prefix == ApplyOpts("", opts)
    ensures p.goCollector && p.registered == {}
    ensures p.counter == map[] && p.gauge == map[] && p.timer == map[]
  {
    p := new Prometheus();
    var i := 0;
    while i < |opts|
      invariant 0 <= i <= |opts|
      invariant p.prefix == ApplyOpts("", opts[..i])
      invariant !p.goCollector && p.registered == {}
      invariant p.counter == map[] && p.gauge == map[] && p.timer == map[]
    {
      assert opts[..i + 1][..i] == opts[..i];
      var e := p.Apply(opts[i]);
      if e.Some? {
        return null, e;
      }
      i := i + 1;
    }
    assert opts[..i] == opts;
    p.goCollector := true;
    err := None;
  }
}

=== FILE: observability.dfy ===
/**
 * The observability manager (internal/pkg/observability/manager.go): a
 * logger, a tracer provider, the tracer derived from it, and a metric
 * backend. Each option refuses nil; NewManager starts from no-op parts,
 * stops at the first failing option, and derives the tracer last.
 */
module Observability {
  import opened Common
  import Ylog

  /** A trace.TracerProvider: the no-op one or another. */
  datatype TracerProvider = NoopTracerProvider | OtherTracerProvider(id: nat)

  /**
   * provider.Tracer(instrumentationName). The instrumentation name constant
   * is not part of this model; the tracer is identified by its provider.
   */
  datatype Tracer = TracerOf(provider: TracerProvider)

  /** A metrics.Metric: the no-op backend or another. */
  datatype MetricRef = NoopMetric | OtherMetric(id: nat)

  /** The three settings the options change. */
  datatype Settings = Settings(logger: Ylog.Logger, tracerProvider: TracerProvider, metric: MetricRef)

  const Defaults: Settings := Settings(Ylog.NoopLogger, NoopTracerProvider, NoopMetric)

  datatype Opt =
    | WithLogger(logger: Option<Ylog.Logger>)
    | WithTracerProvider(provider: Option<TracerProvider>)
    | WithMetric(metric: Option<MetricRef>)

  const NilLogger: string := "cannot use nil logger"
  const NilTracerProvider: string := "cannot use nil tracer provider"
  const NilMetric: string := "cannot use nil metric"

  /** Whether an option carries nil. */
  predicate IsNil(opt: Opt)
  {
    match opt
    case WithLogger(l) => l.None?
    case WithTracerProvider(p) => p.None?
    case WithMetric(m) => m.None?
  }

  /** The error an option carrying nil reports. */
  function NilMessage(opt: Opt): string
  {
    match opt
    case WithLogger(_) => NilLogger
    case WithTracerProvider(_) => NilTracerProvider
    case WithMetric(_) => NilMetric
  }

  /** One option: nil is refused with that option's message, anything else replaces its setting. */
  function ApplyOpt(s: Settings, opt: Opt): (r: Result<Settings>)
    ensures r.Err? <==> IsNil(opt)
    ensures r.Err? ==> r.error == NilMessage(opt)
    ensures opt.WithLogger? && r.Ok? ==> r.value == s.(logger := opt.logger.value)
    ensures opt.WithTracerProvider? && r.Ok? ==> r.value == s.(tracerProvider := opt.provider.value)
    ensures opt.WithMetric? && r.Ok? ==> r.value == s.(metric := opt.metric.value)
  {
    match opt
    case WithLogger(l) => if l.None? then Err(NilLogger) else Ok(s.(logger := l.value))
    case WithTracerProvider(p) => if p.None? then Err(NilTracerProvider) else Ok(s.(tracerProvider := p.value))
    case WithMetric(m) => if m.None? then Err(NilMetric) else Ok(s.(metric := m.value))
  }

  /** The options in order, stopping at the first error. */
  function ApplyOpts(s: Settings, opts: seq<Opt>): Result<Settings>
    decreases |opts|
  {
    if opts == [] then Ok(s)
    else
      var r := ApplyOpt(s, opts[0]);
      if r.Err? then Err(r.error) else ApplyOpts(r.value, opts[1..])
  }

  /**
   * The options fail exactly when one of them carries nil, and then with
   * the message of the first such option: later options are not applied.
   */
  lemma {:induction false} FirstNilFails(s: Settings, opts: seq<Opt>)
    ensures ApplyOpts(s, opts).Err? <==> exists i :: 0 <= i < |opts| && IsNil(opts[i])
    ensures forall i :: 0 <= i < |opts| && IsNil(opts[i]) && (forall j :: 0 <= j < i ==> !IsNil(opts[j])) ==>
      ApplyOpts(s, opts) == Err(NilMessage(opts[i]))
    decreases |opts|
  {
    if opts != [] {
      var r := ApplyOpt(s, opts[0]);
      if r.Ok? {
        var rest := opts[1..];
        FirstNilFails(r.value, rest);
        assert forall i :: 1 <= i < |opts| ==> opts[i] == rest[i - 1];
        if exists i :: 0 <= i < |opts| && IsNil(opts[i]) {
          var i :| 0 <= i < |opts| && IsNil(opts[i]);
          assert IsNil(rest[i - 1]);
        }
        forall i | 0 <= i < |opts| && IsNil(opts[i]) && (forall j :: 0 <= j < i ==> !IsNil(opts[j]))
          ensures ApplyOpts(s, opts) == Err(NilMessage(opts[i]))
        {
          assert IsNil(rest[i - 1]);
          forall j | 0 <= j < i - 1
            ensures !IsNil(rest[j])
          {
            assert rest[j] == opts[j + 1];
          }
        }
      }
    }
  }

  /** With no nil option, the last option of each kind decides its setting. */
  lemma {:induction false} ApplyOptsLast(s: Settings, opts: seq<Opt>, opt: Opt)
    ensures ApplyOpts(s, opts + [opt]) ==
      if ApplyOpts(s, opts).Err? then ApplyOpts(s, opts) else ApplyOpt(ApplyOpts(s, opts).value, opt)
    decreases |opts|
  {
    if opts == [] {
      assert opts + [opt] == [opt];
    } else {
      assert (opts + [opt])[0] == opts[0] && (opts + [opt])[1..] == opts[1..] + [opt];
      var r := ApplyOpt(s, opts[0]);
      if r.Ok? {
        ApplyOptsLast(r.value, opts[1..], opt);
      }
    }
  }

  class Manager {
    var logger: Ylog.Logger
    var tracerProvider: TracerProvider
    var tracer: Tracer
    var metric: MetricRef

    /** The no-op logger, tracer provider, its tracer and the no-op metric. */
    constructor ()
      ensures Current() == Defaults && tracer == TracerOf(NoopTracerProvider)
    {
      logger := Ylog.NoopLogger;
      tracerProvider := NoopTracerProvider;
      tracer := TracerOf(NoopTracerProvider);
      metric := NoopMetric;
    }

    /** The settings the options change. */
    function Current(): Settings
      reads this
    {
      Settings(logger, tracerProvider, metric)
    }

    /** Applying one option: an error leaves the manager as it was. */
    method Apply(opt: Opt) returns (err: Option<string>)
      modifies this
      ensures var r := ApplyOpt(old(Current()), opt);
        && (r.Err? ==> err == Some(r.error) && Current() == old(Current()))
        && (r.Ok? ==> err.None? && Current() == r.value)
      ensures tracer == old(tracer)
    {
      err := None;
      match opt
      case WithLogger(l) =>
        if l.None? {
          return Some(NilLogger);
        }
        logger := l.value;
      case WithTracerProvider(p) =>
        if p.None? {
          return Some(NilTracerProvider);
        }
        tracerProvider := p.value;
      case WithMetric(m) =>
        if m.None? {
          return Some(NilMetric);
        }
        metric := m.value;
    }

    /** Logger, Tracer and Metric: the stored parts. */
    function Logger(): Ylog.Logger
      reads this
    {
      logger
    }

    function Tracer(): Tracer
      reads this
    {
      tracer
    }

    function Metric(): MetricRef
      reads this
    {
      metric
    }
  }

  /**
   * NewManager: the defaults, the options in order (the first error gives
   * no manager), then the tracer is taken from the final tracer provider.
   */
  method NewManager(opts: seq<Opt>) returns (m: Manager?, err: Option<string>)
    ensures var r := ApplyOpts(Defaults, opts);
      && (r.Err? ==> m == null && err == Some(r.error))
      && (r.Ok? ==> m != null && fresh(m) && err.None? && m.Current() == r.value && m.tracer == TracerOf(r.value.tracerProvider))
      && (r.Ok? ==> m.Logger() == r.value.logger && m.Tracer() == TracerOf(r.value.tracerProvider) && m.Metric() == r.value.metric)
  {
    var mgr := new Manager();
    var i := 0;
    while i < |opts|
      invariant 0 <= i <= |opts|
      invariant ApplyOpts(Defaults, opts) == ApplyOpts(mgr.Current(), opts[i..])
    {
      assert opts[i..][0] == opts[i] && opts[i..][1..] == opts[i + 1..];
      var e := mgr.Apply(opts[i]);
      if e.Some? {
        return null, e;
      }
      i := i + 1;
    }
    mgr.tracer := TracerOf(mgr.tracerProvider);
    return mgr, None;
  }
}

=== FILE: respbuilder.dfy ===
/**
 * The response envelopes of pkg/respbuilder (resp_ok.go and resp_error.go):
 * a code is looked up in a table of (Code, Status) pairs, with a fallback
 * entry for codes the table lacks; messages are joined with "; "; an echo
 * HTTPError or BindingError found in an error's chain contributes its
 * message and an internal reason placed before the caller's reasons.
 */
module Respbuilder {
  import opened Common

  // ---------------------------------------------------------------------
  // Go errors as errors.As sees them

  /**
   * An error value and its Unwrap chain. `text` is what its Error() method
   * returns; `message` is the fmt "%+v" text of an echo error's Message.
   * echo.BindingError embeds *echo.HTTPError, so it has the same code,
   * message and Unwrap (the internal error), but errors.As does not see it
   * as an *echo.HTTPError.
   */
  datatype GoError =
    | PlainError(text: string, wrapped: Option<GoError>)
    | HTTPError(code: int, message: string, text: string, internal: Option<GoError>)
    | BindingError(code: int, message: string, text: string, internal: Option<GoError>)

  /** errors.As(err, &*echo.HTTPError): the first HTTPError on the chain. */
  function AsHTTPError(e: GoError): (r: Option<GoError>)
    ensures r.Some? ==> r.value.HTTPError?
    ensures e.HTTPError? ==> r == Some(e)
    decreases e
  {
    match e
    case HTTPError(_, _, _, _) => Some(e)
    case PlainError(_, w) => if w.None? then None else AsHTTPError(w.value)
    case BindingError(_, _, _, w) => if w.None? then None else AsHTTPError(w.value)
  }

  /** errors.As(err, &*echo.BindingError): the first BindingError on the chain. */
  function AsBindingError(e: GoError): (r: Option<GoError>)
    ensures r.Some? ==> r.value.BindingError?
    ensures e.BindingError? ==> r == Some(e)
    decreases e
  {
    match e
    case BindingError(_, _, _, _) => Some(e)
    case PlainError(_, w) => if w.None? then None else AsBindingError(w.value)
    case HTTPError(_, _, _, w) => if w.None? then None else AsBindingError(w.value)
  }

  /** Whether the chain holds neither kind of echo error. */
  predicate PlainChain(e: GoError)
  {
    AsHTTPError(e).None? && AsBindingError(e).None?
  }

  // ---------------------------------------------------------------------
  // resp_ok.go

  datatype RespStatus = RespStatus(code: string, status: string)

  const UnknownOk: int := 0
  const Success: int := 1

  const RespMapOk: map<int, RespStatus> := map[UnknownOk := RespStatus("_", "NotOk"), Success := RespStatus("0", "Ok")]

  datatype RespStructureOk<D> = RespStructureOk(code: string, status: string, message: string, data: D)

  /** The status of a success code: its table entry, or UnknownOk's when it has none. */
  function OkStatus(respCode: int): (r: RespStatus)
    ensures respCode in RespMapOk ==> r == RespMapOk[respCode]
    ensures respCode !in RespMapOk ==> r == RespStatus("_", "NotOk")
    ensures r in RespMapOk.Values
  {
    if respCode in RespMapOk then RespMapOk[respCode] else RespMapOk[UnknownOk]
  }

  /** Ok: the code's status, the custom messages joined with "; ", the data as given. */
  function Ok<D>(respCode: int, data: D, customMsg: seq<string>): (r: RespStructureOk<D>)
    ensures RespStatus(r.code, r.status) == OkStatus(respCode)
    ensures r.message == Join(customMsg, "; ")
    ensures r.data == data
  {
    var s := OkStatus(respCode);
    RespStructureOk(s.code, s.status, Join(customMsg, "; "), data)
  }

  /** Success is "0"/"Ok"; every code outside the table answers like UnknownOk, "_"/"NotOk". */
  lemma OkCodes<D>(respCode: int, data: D, msgs: seq<string>)
    ensures respCode == Success ==> Ok(respCode, data, msgs).code == "0" && Ok(respCode, data, msgs).status == "Ok"
    ensures respCode !in {UnknownOk, Success} ==>
      Ok(respCode, data, msgs) == Ok(UnknownOk, data, msgs) && Ok(respCode, data, msgs).code == "_"
  {
  }

  /**
   * The message is empty (and so omitted from the JSON) exactly when there
   * are no custom messages or a single empty one.
   */
  lemma {:induction false} OkMessageEmpty<D>(respCode: int, data: D, msgs: seq<string>)
    ensures Ok(respCode, data, msgs).message == "" <==> msgs == [] || msgs == [""]
  {
    if |msgs| >= 2 {
      var init := Join(msgs[..|msgs| - 1], "; ");
      assert Join(msgs, "; ") == init + "; " + msgs[|msgs| - 1];
      assert |Join(msgs, "; ")| >= 2;
    }
  }

  // ---------------------------------------------------------------------
  // resp_error.go

  const ErrGeneral: int := 0

  const RespMapErr: map<int, RespStatus> := map[ErrGeneral := RespStatus("E0", "ErrorGeneral")]

  const NilErrorMsg: string := "programmatically error, caller call this but with nil error"

  datatype ErrorBody = ErrorBody(message: string, reasons: seq<string>)

  datatype RespStructureErr = RespStructureErr(code: string, status: string, error: ErrorBody)

  /** The status of an error code: its table entry, or ErrGeneral's when it has none. */
  function ErrStatus(respCode: int): (r: RespStatus)
    ensures respCode in RespMapErr ==> r == RespMapErr[respCode]
    ensures r == RespStatus("E0", "ErrorGeneral")
  {
    if respCode in RespMapErr then RespMapErr[respCode] else RespMapErr[ErrGeneral]
  }

  /** The reasons the echo errors on the chain contribute: HTTPError's first, then BindingError's. */
  function InternalReasons(e: GoError): (rs: seq<string>)
    ensures |rs| <= 2
    ensures PlainChain(e) <==> rs == []
  {
    var h := AsHTTPError(e);
    var b := AsBindingError(e);
    (if h.Some? then [h.value.text] else []) + (if b.Some? then [b.value.text] else [])
  }

  /** The message: a BindingError's Message, else an HTTPError's, else Error(). */
  function ErrorMessage(e: GoError): (m: string)
    ensures PlainChain(e) ==> m == e.text
    ensures AsBindingError(e).Some? ==> m == AsBindingError(e).value.message
    ensures AsBindingError(e).None? && AsHTTPError(e).Some? ==> m == AsHTTPError(e).value.message
  {
    var h := AsHTTPError(e);
    var b := AsBindingError(e);
    if b.Some? then b.value.message else if h.Some? then h.value.message else e.text
  }

  /** Error: status by code with fallback; a nil error gets a fixed message; internal reasons come first. */
  function Error(respCode: int, err: Option<GoError>, reasons: seq<string>): (r: RespStructureErr)
    ensures RespStatus(r.code, r.status) == ErrStatus(respCode)
    ensures err.None? ==> r.error == ErrorBody(NilErrorMsg, reasons)
    ensures err.Some? ==> r.error.message == ErrorMessage(err.value)
    ensures err.Some? ==> r.error.reasons == InternalReasons(err.value) + reasons
  {
    var s := ErrStatus(respCode);
    var e := if err.None? then PlainError(NilErrorMsg, None) else err.value;
    RespStructureErr(s.code, s.status, ErrorBody(ErrorMessage(e), InternalReasons(e) + reasons))
  }

  /** Every code, known or not, answers "E0"/"ErrorGeneral". */
  lemma ErrorCodeFallback(respCode: int, err: Option<GoError>, reasons: seq<string>)
    ensures Error(respCode, err, reasons) == Error(ErrGeneral, err, reasons)
    ensures Error(respCode, err, reasons).code == "E0" && Error(respCode, err, reasons).status == "ErrorGeneral"
  {
  }

  /** A plain error chain: the message is Error() and the reasons are the caller's, unchanged. */
  lemma PlainErrorKeepsReasons(respCode: int, e: GoError, reasons: seq<string>)
    requires PlainChain(e)
    ensures Error(respCode, Some(e), reasons).error == ErrorBody(e.text, reasons)
  {
  }

  /**
   * The caller's reasons always end the list, in their order, after at
   * most two internal ones; an echo error adds exactly one reason.
   */
  lemma CallerReasonsLast(respCode: int, err: Option<GoError>, reasons: seq<string>)
    ensures var rs := Error(respCode, err, reasons).error.reasons;
      && |reasons| <= |rs| <= |reasons| + 2
      && rs[|rs| - |reasons|..] == reasons
    ensures err.Some? && err.value.HTTPError? && AsBindingError(err.value).None? ==>
      Error(respCode, err, reasons).error == ErrorBody(err.value.message, [err.value.text] + reasons)
    ensures err.Some? && err.value.BindingError? && AsHTTPError(err.value).None? ==>
      Error(respCode, err, reasons).error == ErrorBody(err.value.message, [err.value.text] + reasons)
  {
    var rs := Error(respCode, err, reasons).error.reasons;
    if err.Some? {
      assert rs == InternalReasons(err.value) + reasons;
    }
  }
}

=== FILE: respbuilder_status.dfy ===
/**
 * The older envelope of pkg/respbuilder/status.go: one table for success
 * and error codes, no fallback entry (a missing code reads as the zero
 * RespStatus), and an Error that always answers with ErrGeneral and carries
 * no data. Its names clash with resp_ok.go and resp_error.go, so it is a
 * module of its own.
 */
module RespbuilderStatus {
  import opened Common
  import Respbuilder

  const Success: int := 0
  const ErrGeneral: int := 1

  const RespMap: map<int, Respbuilder.RespStatus> :=
    map[Success := Respbuilder.RespStatus("0", "OK"), ErrGeneral := Respbuilder.RespStatus("E0", "GeneralError")]

  /** The RespStructure of status.go; Data is absent (nil) when Error builds it. */
  datatype RespStructure<D> = RespStructure(code: string, status: string, message: string, data: Option<D>)

  /** A map index in Go: the entry, or the zero value when the key is missing. */
  function Lookup(respCode: int): (r: Respbuilder.RespStatus)
    ensures respCode in RespMap ==> r == RespMap[respCode]
    ensures respCode !in RespMap ==> r == Respbuilder.RespStatus("", "")
  {
    if respCode in RespMap then RespMap[respCode] else Respbuilder.RespStatus("", "")
  }

  /** Ok: the code's status (empty when unknown), the messages joined with "; ", the data. */
  function Ok<D>(respCode: int, data: D, customMsg: seq<string>): (r: RespStructure<D>)
    ensures Respbuilder.RespStatus(r.code, r.status) == Lookup(respCode)
    ensures r.message == Join(customMsg, "; ")
    ensures r.data == Some(data)
  {
    var s := Lookup(respCode);
    RespStructure(s.code, s.status, Join(customMsg, "; "), Some(data))
  }

  /** Error: always ErrGeneral, no data, and Error() of the error or the fixed nil-error text. */
  function Error<D>(err: Option<Respbuilder.GoError>): (r: RespStructure<D>)
    ensures r.code == "E0" && r.status == "GeneralError" && r.data.None?
    ensures err.None? ==> r.message == Respbuilder.NilErrorMsg
    ensures err.Some? ==> r.message == err.value.text
  {
    var s := RespMap[ErrGeneral];
    var e := if err.None? then Respbuilder.PlainError(Respbuilder.NilErrorMsg, None) else err.value;
    RespStructure(s.code, s.status, e.text, None)
  }

  /** Unlike resp_ok.go there is no fallback: an unknown code gives an empty Code and Status. */
  lemma NoFallback<D>(respCode: int, data: D, msgs: seq<string>)
    requires respCode != Success && respCode != ErrGeneral
    ensures Ok(respCode, data, msgs).code == "" && Ok(respCode, data, msgs).status == ""
    ensures Respbuilder.Ok(respCode, data, msgs).code == "_"
  {
  }

  /** The two envelopes agree on the success code but spell its status differently. */
  lemma SuccessStatusDiffers<D>(data: D, msgs: seq<string>)
    ensures Ok(Success, data, msgs).code == Respbuilder.Ok(Respbuilder.Success, data, msgs).code == "0"
    ensures Ok(Success, data, msgs).status == "OK" != Respbuilder.Ok(Respbuilder.Success, data, msgs).status
  {
  }

  /** Unlike resp_error.go, an echo error's Message is not used: the message is always Error(). */
  lemma EchoErrorMessageIgnored<D>(e: Respbuilder.GoError)
    requires e.HTTPError? && e.internal.None? && e.message != e.text
    ensures Error<D>(Some(e)).message != Respbuilder.Error(Respbuilder.ErrGeneral, Some(e), []).error.message
  {
    assert Respbuilder.AsBindingError(e).None?;
  }
}

=== FILE: restapi.dfy ===
/**
 * The REST transport (transport/restapi/http.go): NewHTTP refuses a
 * configuration without a startup time, and the echo error handler answers
 * every error with a status in 1..598 and the ErrGeneral envelope.
 */
module Restapi {
  import opened Common
  import Respbuilder

  datatype HTTPConfig = HTTPConfig(buildCommitId: string, buildTime: Time, startupTime: Time)

  /** The server; the echo instance with its routes is not part of this model. */
  datatype HTTP = HTTP(config: HTTPConfig)

  /** The go-playground validator's text for a missing `required` StartupTime. */
  const StartupTimeRequired: string := "Key: 'HTTPConfig.StartupTime' Error:Field validation for 'StartupTime' failed on the 'required' tag"

  const ConfigError: string := "http server config error"

  const StatusUnprocessableEntity: int := 422
  const StatusInternalServerError: int := 500

  /** NewHTTP: a zero StartupTime is refused with a wrapped validation error; anything else is kept. */
  function NewHTTP(cfg: HTTPConfig): (r: Result<HTTP>)
    ensures r.Ok? <==> cfg.startupTime != ZeroTime
    ensures r.Ok? ==> r.value.config == cfg
    ensures r.Err? ==> r.error == Wrap(ConfigError, StartupTimeRequired)
  {
    if cfg.startupTime == ZeroTime then Err(Wrap(ConfigError, StartupTimeRequired)) else Ok(HTTP(cfg))
  }

  /** The status before clamping: 422, replaced by an HTTPError's code, then by a BindingError's. */
  function ChosenStatus(err: Respbuilder.GoError): int
  {
    var b := Respbuilder.AsBindingError(err);
    var h := Respbuilder.AsHTTPError(err);
    if b.Some? then b.value.code else if h.Some? then h.value.code else StatusUnprocessableEntity
  }

  /** The status the handler writes: the chosen one, or 500 when it is not in 1..598. */
  function ErrorStatus(err: Respbuilder.GoError): (s: int)
    ensures 1 <= s <= 598
    ensures Respbuilder.PlainChain(err) ==> s == StatusUnprocessableEntity
    ensures var b := Respbuilder.AsBindingError(err);
      b.Some? && 0 < b.value.code < 599 ==> s == b.value.code
    ensures var b, h := Respbuilder.AsBindingError(err), Respbuilder.AsHTTPError(err);
      b.None? && h.Some? && 0 < h.value.code < 599 ==> s == h.value.code
    ensures ChosenStatus(err) <= 0 || ChosenStatus(err) >= 599 ==> s == StatusInternalServerError
  {
    var c := ChosenStatus(err);
    if c <= 0 || c >= 599 then StatusInternalServerError else c
  }

  /** echo.Context as the handler uses it: JSON answers, and the failure its JSON call reports. */
  class EchoContext {
    var written: seq<(int, Respbuilder.RespStructureErr)>
    const jsonFailure: Option<string>

    constructor (jsonFailure: Option<string>)
      ensures written == [] && this.jsonFailure == jsonFailure
    {
      written := [];
      this.jsonFailure := jsonFailure;
    }
  }

  const HandlerPanic: string := "echo.HTTPErrorHandler panic"

  /**
   * The HTTPErrorHandler NewHTTP installs: one JSON answer with the status
   * and the ErrGeneral envelope for the error; a failed JSON write panics
   * with the wrapped failure.
   */
  method HTTPErrorHandler(err: Respbuilder.GoError, c: EchoContext) returns (o: Outcome<()>)
    modifies c
    ensures c.jsonFailure.None? ==>
      && o == Returned(())
      && c.written == old(c.written) + [(ErrorStatus(err), Respbuilder.Error(Respbuilder.ErrGeneral, Some(err), []))]
    ensures c.jsonFailure.Some? ==> o == Panicked(Wrap(HandlerPanic, c.jsonFailure.value)) && c.written == old(c.written)
  {
    var httpStatus := StatusUnprocessableEntity;
    var h := Respbuilder.AsHTTPError(err);
    if h.Some? {
      httpStatus := h.value.code;
    }
    var b := Respbuilder.AsBindingError(err);
    if b.Some? {
      httpStatus := b.value.code;
    }
    if httpStatus <= 0 || httpStatus >= 599 {
      httpStatus := StatusInternalServerError;
    }
    var body := Respbuilder.Error(Respbuilder.ErrGeneral, Some(err), []);
    if c.jsonFailure.Some? {
      return Panicked(Wrap(HandlerPanic, c.jsonFailure.value));
    }
    c.written := c.written + [(httpStatus, body)];
    o := Returned(());
  }
}

=== FILE: server_logger.dfy ===
/**
 * LoggingMiddleware: the HTTP server middleware that buffers the request
 * body, lets the wrapped handler answer into a recorder, copies the
 * recorded answer to the live writer and logs one access record.
 *
 * Spans are outside this model. What the tracing does to the exchange is
 * kept: the context handed to the logger is a parameter, and the headers
 * the trace propagator injects into the recorded response are a parameter.
 */
module ServerLogger {
  import opened Common
  import opened Ylog
  import opened Http
  import opened Tracing

  const InstrumentationName: string := "github.com/yusufsyaifudin/go-project-structure/internal/pkg/httpservermw"
  const DefaultMsg: string := "request logger"
  const WriteFailure: string := "failed to write to actual response writer"

  /** A Filter says whether a request is to be logged; it must not change the request. */
  type Filter = RequestView -> bool

  datatype LoggerOpt =
    | LogMwWithMessage(msg: string)
    | LogMwWithLogger(logger: Option<Logger>)
    | LogMwWithTracer(tp: Option<TracerProvider>)
    | LogMwWithFilter(filter: Option<Filter>)

  datatype Settings = Settings(msg: string, logger: Logger, tracerProvider: TracerProvider, filter: Option<Filter>)

  const Defaults: Settings := Settings(DefaultMsg, NoopLogger, NoopTracerProvider, None)

  /**
   * One option applied. The message is taken as given, even when empty; a
   * nil logger or tracer provider selects the no-op one.
   */
  function ApplyOpt(s: Settings, opt: LoggerOpt): (r: Settings)
    ensures opt.LogMwWithMessage? ==> r == s.(msg := opt.msg)
    ensures opt.LogMwWithLogger? ==> r == s.(logger := if opt.logger.Some? then opt.logger.value else NoopLogger)
    ensures opt.LogMwWithTracer? ==> r == s.(tracerProvider := if opt.tp.Some? then opt.tp.value else NoopTracerProvider)
    ensures opt.LogMwWithFilter? ==> r == s.(filter := opt.filter)
  {
    match opt
    case LogMwWithMessage(m) => s.(msg := m)
    case LogMwWithLogger(l) => s.(logger := if l.Some? then l.value else NoopLogger)
    case LogMwWithTracer(tp) => s.(tracerProvider := if tp.Some? then tp.value else NoopTracerProvider)
    case LogMwWithFilter(f) => s.(filter := f)
  }

  function ApplyOpts(s: Settings, opts: seq<LoggerOpt>): Settings
    decreases |opts|
  {
    if opts == [] then s else ApplyOpt(ApplyOpts(s, opts[..|opts| - 1]), opts[|opts| - 1])
  }

  /** Whether a request is logged: always without a filter, otherwise when the filter says so. */
  predicate Logs(filter: Option<Filter>, v: RequestView)
  {
    filter.None? || filter.value(v)
  }

  // ---------------------------------------------------------------------
  // What one logged request does, as functions of what went in

  /** The recorder after the handler answered and the propagator injected its headers. */
  function Recorded(reply: Reply, injected: map<string, string>): (rec: WriterState)
    ensures rec.header == reply.header + Injected(injected)
    ensures rec.body == reply.body
    ensures StatusOf(rec) == (if reply.status.Some? then reply.status.value else 200)
  {
    var s := Delivered(WriterState(map[], None, []), reply, None);
    s.(header := s.header + Injected(injected))
  }

  /**
   * The errors met while serving, in the order they were met: the request
   * body's copy and close errors first, then the failed live-body write.
   */
  function ServeErrors(v: RequestView, writeErr: Option<string>): (errs: seq<string>)
    ensures errs == [] <==> RequestDrained(v).errors == [] && writeErr.None?
    ensures RequestDrained(v).errors <= errs
    ensures |errs| == |RequestDrained(v).errors| + (if writeErr.Some? then 1 else 0)
    ensures writeErr.Some? ==> errs[|errs| - 1] == Wrap(WriteFailure, writeErr.value)
  {
    RequestDrained(v).errors + (if writeErr.Some? then [Wrap(WriteFailure, writeErr.value)] else [])
  }

  /** The access record of one logged request. */
  function AccessRecord(v: RequestView, isJson: JsonCheck, rec: WriterState, writeErr: Option<string>, elapsed: int): (a: AccessLogData)
    ensures a.httpMethod == v.httpMethod
    ensures a.host == (if v.url.Some? then v.url.value.host else "")
    ensures a.path == (if v.url.Some? then UrlString(v.url.value) else "")
    ensures a.request == Some(HTTPData(0, SimpleMap(v.header), Captured(isJson, RequestDrained(v).buffer)))
    ensures a.response == Some(HTTPData(StatusOf(rec), SimpleMap(rec.header), Captured(isJson, rec.body)))
    ensures a.error == CumulativeError(ServeErrors(v, writeErr))
    ensures a.elapsedTime == elapsed
  {
    AccessLogData(
      v.httpMethod,
      if v.url.Some? then v.url.value.host else "",
      if v.url.Some? then UrlString(v.url.value) else "",
      Some(HTTPData(0, SimpleMap(v.header), Captured(isJson, RequestDrained(v).buffer))),
      Some(HTTPData(StatusOf(rec), SimpleMap(rec.header), Captured(isJson, rec.body))),
      CumulativeError(ServeErrors(v, writeErr)),
      elapsed)
  }

  // ---------------------------------------------------------------------
  // Properties of a logged request

  /** When the body reads cleanly the handler reads exactly the original bytes. */
  lemma HandlerReadsOriginalBody(v: RequestView)
    requires v.body.Some? && v.body.value.readErr.None?
    ensures Rebuffered(v).body == Some(NopCloser(v.body.value.data))
  {
  }

  /**
   * A client writing to a fresh writer gets the handler's status, the
   * handler's body (unless the write fails) and the handler's headers plus
   * the injected ones, whatever went wrong while buffering the request.
   */
  lemma ClientGetsRecordedAnswer(rec: WriterState, writeErr: Option<string>)
    ensures var t := Forwarded(WriterState(map[], None, []), rec, writeErr);
      && StatusOf(t) == StatusOf(rec)
      && t.body == (if writeErr.None? then rec.body else [])
      && SimpleMap(t.header) == SimpleMap(rec.header)
  {
    var t := Forwarded(WriterState(map[], None, []), rec, writeErr);
    assert t.header.Keys == rec.header.Keys;
    forall k | k in rec.header ensures SimpleMap(t.header)[k] == SimpleMap(rec.header)[k] {
      assert t.header[k] == [Join(rec.header[k], " ")];
    }
  }

  /** The record's error is empty exactly when the copy, the close and the write all succeeded. */
  lemma {:induction false} RecordErrorOnlyOnFailure(v: RequestView, isJson: JsonCheck, rec: WriterState, writeErr: Option<string>, elapsed: int)
    ensures var failed := (v.body.Some? && (v.body.value.readErr.Some? || v.body.value.closeErr.Some?)) || writeErr.Some?;
      AccessRecord(v, isJson, rec, writeErr, elapsed).error == "" <==> !failed
  {
    if v.body.Some? {
      DrainErrorsNonEmpty(v.body.value, "request");
    }
    CumulativeErrorEmpty(ServeErrors(v, writeErr));
  }

  class LogMiddleware {
    var msg: string
    var logger: Logger
    var tracerProvider: TracerProvider
    var filter: Option<Filter>
    var tracer: Tracer
    const next: Downstream

    function Current(): Settings
      reads this
    {
      Settings(msg, logger, tracerProvider, filter)
    }

    /**
     * LoggingMiddleware: defaults, then every option in order. No option
     * returns an error, so the panic on an option error never happens.
     */
    constructor LoggingMiddleware(next: Downstream, opts: seq<LoggerOpt>)
      ensures this.next == next
      ensures Current() == ApplyOpts(Defaults, opts)
      ensures tracer == TracerOf(tracerProvider, InstrumentationName)
    {
      this.next := next;
      msg := DefaultMsg;
      logger := NoopLogger;
      tracerProvider := NoopTracerProvider;
      filter := None;
      tracer := TracerOf(NoopTracerProvider, InstrumentationName);
      new;
      var i := 0;
      while i < |opts|
        invariant 0 <= i <= |opts|
        invariant Current() == ApplyOpts(Defaults, opts[..i])
      {
        assert opts[..i + 1][..i] == opts[..i];
        var err := Apply(opts[i]);
        i := i + 1;
      }
      assert opts[..i] == opts;
      tracer := TracerOf(tracerProvider, InstrumentationName);
    }

    method Apply(opt: LoggerOpt) returns (err: Option<string>)
      modifies this
      ensures err.None?
      ensures Current() == ApplyOpt(old(Current()), opt)
      ensures tracer == old(tracer)
    {
      err := None;
      match opt
      case LogMwWithMessage(m) => msg := m;
      case LogMwWithLogger(l) => logger := if l.Some? then l.value else NoopLogger;
      case LogMwWithTracer(tp) => tracerProvider := if tp.Some? then tp.value else NoopTracerProvider;
      case LogMwWithFilter(f) => filter := f;
    }

    /**
     * Serve one request. A request the filter rejects goes straight to the
     * handler. Otherwise the body is buffered and put back, the handler
     * answers into a recorder, the answer is copied to `w`, and one access
     * record goes to the logger after the copy.
     *
     * The request must not be nil, and a logged request must have a URL:
     * the span name and the hand-over to the handler dereference both.
     */
    method ServeHTTP(w: ResponseWriter, req: Request, parentCtx: Ctx, injected: map<string, string>,
                     elapsed: int, isJson: JsonCheck, sink: LogSink)
      requires Logs(filter, req.View()) ==> req.url.Some?
      modifies req, next, w, sink
      ensures !Logs(filter, old(req.View())) ==>
        && req.View() == old(req.View())
        && next.seen == old(next.seen) + [Some(old(req.View()))]
        && w.State() == Delivered(old(w.State()), next.respond(Some(old(req.View()))), w.writeErr)
        && sink.calls == old(sink.calls) && sink.entries == old(sink.entries)
      ensures Logs(filter, old(req.View())) ==>
        var hv := Rebuffered(old(req.View()));
        var rec := Recorded(next.respond(Some(hv)), injected);
        var record := AccessRecord(old(req.View()), isJson, rec, w.writeErr, elapsed);
        && req.View() == hv
        && next.seen == old(next.seen) + [Some(hv)]
        && w.State() == Forwarded(old(w.State()), rec, w.writeErr)
        && sink.calls == old(sink.calls) + [AccessCall(logger, parentCtx, msg, record)]
        && sink.entries == old(sink.entries) + EntriesOf(logger, InfoLevel, parentCtx, msg, [KV("data", Access(record))])
    {
      if filter.Some? && !filter.value(req.View()) {
        next.ServeHTTP(w, req);
        return;
      }
      ServeLogged(w, req, parentCtx, injected, elapsed, isJson, sink);
    }

    /** The logged path of ServeHTTP. */
    method ServeLogged(w: ResponseWriter, req: Request, parentCtx: Ctx, injected: map<string, string>,
                       elapsed: int, isJson: JsonCheck, sink: LogSink)
      requires req.url.Some?
      modifies req, next, w, sink
      ensures var hv := Rebuffered(old(req.View()));
        var rec := Recorded(next.respond(Some(hv)), injected);
        var record := AccessRecord(old(req.View()), isJson, rec, w.writeErr, elapsed);
        && req.View() == hv
        && next.seen == old(next.seen) + [Some(hv)]
        && w.State() == Forwarded(old(w.State()), rec, w.writeErr)
        && sink.calls == old(sink.calls) + [AccessCall(logger, parentCtx, msg, record)]
        && sink.entries == old(sink.entries) + EntriesOf(logger, InfoLevel, parentCtx, msg, [KV("data", Access(record))])
    {
      ghost var v0 := req.View();
      var d := BufferRequestBody(req);
      var errs := d.errors;
      var reqCaptured := Captured(isJson, d.buffer);

      var accessLog := EmptyAccessLog;
      var reqHeader := HttpHeaderToSimpleMap(req.header);
      accessLog := accessLog.(httpMethod := req.httpMethod, request := Some(HTTPData(0, reqHeader, reqCaptured)));
      if req.url.Some? {
        accessLog := accessLog.(host := req.url.value.host, path := UrlString(req.url.value));
      }

      var rec := RecordNext(req, injected);
      var respBuf := rec.body;
      var respCaptured := Captured(isJson, respBuf);
      ghost var recorded := Recorded(next.respond(Some(Rebuffered(v0))), injected);

      var status := StatusOf(rec.State());
      var respHeader := HttpHeaderToSimpleMap(rec.header);
      accessLog := accessLog.(response := Some(HTTPData(status, respHeader, respCaptured)));

      var writeErr := CopyRecorded(w, rec.State());
      if writeErr.Some? {
        errs := errs + [Wrap(WriteFailure, writeErr.value)];
      }
      assert errs == ServeErrors(v0, w.writeErr);

      if errs != [] {
        accessLog := accessLog.(error := ErrorText(errs));
      }
      accessLog := accessLog.(elapsedTime := elapsed);
      ghost var record := AccessRecord(v0, isJson, recorded, w.writeErr, elapsed);
      assert accessLog.request == record.request;
      assert accessLog.response == record.response;
      assert accessLog == record;

      LogAccess(logger, sink, parentCtx, msg, accessLog);
    }

    /**
     * The handler answers into a fresh recorder, and the propagator's trace
     * headers are added to the recorded header.
     */
    method RecordNext(req: Request, injected: map<string, string>) returns (rec: ResponseWriter)
      modifies next
      ensures fresh(rec)
      ensures next.seen == old(next.seen) + [Some(req.View())]
      ensures rec.State() == Recorded(next.respond(Some(req.View())), injected)
    {
      rec := new ResponseWriter.Recorder();
      next.ServeHTTP(rec, req);
      rec.header := rec.header + Injected(injected);
    }
  }
}

=== FILE: server_prometheus.dfy ===
/**
 * PrometheusMiddleware: an HTTP server middleware that serves the metrics
 * exposition on "/metrics" and, for every other request, lets the wrapped
 * handler answer into a recorder, counts the request under its (code,
 * method, path) labels, records its duration, and copies the recorded
 * answer to the client.
 *
 * The exposition handler built from the gatherer is foreign; what it
 * answers stands here as a function given at construction. Durations are whole
 * nanoseconds, given as a parameter.
 */
module ServerPrometheus {
  import opened Common
  import opened Ylog
  import opened Http

  const MetricsPath: string := "/metrics"
  const NilHandler: string := "prometheus middleware: cannot use nil http.Handler"
  const EmptyRegisterer: string := "cannot use empty registerer for prometheus metric"
  const EmptyGatherer: string := "cannot use empty gatherer for prometheus metric"
  const NilRegisterer: string := "cannot setup prometheus middleware due to prometheus.Registerer is nil"
  const NilGatherer: string := "cannot setup prometheus middleware due to prometheus.Gatherer is nil"
  const DuplicateRegistration: string := "duplicate metrics collector registration attempted"
  const WriteBodyError: string := "prometheus middleware writing response body error"

  /** The collectors the middleware could register. */
  datatype Collector = RequestsCounter | RequestsDuration | GoCollector

  /** A prometheus.Registerer (and Gatherer): the collectors registered in it. */
  class Registry {
    var collectors: set<Collector>

    constructor ()
      ensures collectors == {}
    {
      collectors := {};
    }

    /** Register: a collector already registered is refused. */
    method Register(c: Collector) returns (err: Option<string>)
      modifies this
      ensures c in old(collectors) ==> err == Some(DuplicateRegistration) && collectors == old(collectors)
      ensures c !in old(collectors) ==> err.None? && collectors == old(collectors) + {c}
    {
      if c in collectors {
        err := Some(DuplicateRegistration);
      } else {
        collectors := collectors + {c};
        err := None;
      }
    }
  }

  datatype PrometheusOpt =
    | PrometheusOptEnableGoMetric(b: bool)
    | PrometheusOptWithRegisterer(reg: Registry?)
    | PrometheusOptWithGatherer(gatherer: Registry?)

  datatype Settings = Settings(enableGoMetric: bool, registerer: Registry?, gatherer: Registry?)

  const Defaults: Settings := Settings(false, null, null)

  /** One option applied; a nil registerer or gatherer is an error. */
  function ApplyOpt(s: Settings, opt: PrometheusOpt): (r: Result<Settings>)
    ensures opt.PrometheusOptEnableGoMetric? ==> r == Ok(s.(enableGoMetric := opt.b))
    ensures opt.PrometheusOptWithRegisterer? ==>
      r == if opt.reg == null then Err(EmptyRegisterer) else Ok(s.(registerer := opt.reg))
    ensures opt.PrometheusOptWithGatherer? ==>
      r == if opt.gatherer == null then Err(EmptyGatherer) else Ok(s.(gatherer := opt.gatherer))
  {
    match opt
    case PrometheusOptEnableGoMetric(b) => Ok(s.(enableGoMetric := b))
    case PrometheusOptWithRegisterer(reg) => if reg == null then Err(EmptyRegisterer) else Ok(s.(registerer := reg))
    case PrometheusOptWithGatherer(g) => if g == null then Err(EmptyGatherer) else Ok(s.(gatherer := g))
  }

  /** The options in order, stopping at the first error. */
  function ApplyOpts(s: Settings, opts: seq<PrometheusOpt>): Result<Settings>
    decreases |opts|
  {
    if opts == [] then Ok(s)
    else match ApplyOpt(s, opts[0])
      case Err(e) => Err(e)
      case Ok(s') => ApplyOpts(s', opts[1..])
  }

  /** A failing option decides the outcome, whatever follows it. */
  lemma {:induction false} FirstFailureWins(s: Settings, opts: seq<PrometheusOpt>, i: nat)
    requires i < |opts|
    requires forall j :: 0 <= j < i ==> !opts[j].PrometheusOptWithRegisterer? && !opts[j].PrometheusOptWithGatherer?
    requires opts[i] == PrometheusOptWithRegisterer(null)
    ensures ApplyOpts(s, opts) == Err(EmptyRegisterer)
    decreases i
  {
    if i > 0 {
      assert ApplyOpt(s, opts[0]) == Ok(s.(enableGoMetric := opts[0].b));
      FirstFailureWins(s.(enableGoMetric := opts[0].b), opts[1..], i - 1);
    }
  }

  /** Enabling the Go collector alone leaves the registerer nil. */
  lemma {:induction false} GoMetricOptionsKeepRegisterer(s: Settings, opts: seq<PrometheusOpt>)
    requires forall j :: 0 <= j < |opts| ==> opts[j].PrometheusOptEnableGoMetric?
    ensures ApplyOpts(s, opts).Ok? && ApplyOpts(s, opts).value.registerer == s.registerer
    decreases |opts|
  {
    if opts != [] {
      GoMetricOptionsKeepRegisterer(s.(enableGoMetric := opts[0].b), opts[1..]);
    }
  }

  /** The registries an option list can name. */
  function Registries(opts: seq<PrometheusOpt>): set<Registry>
  {
    set i | 0 <= i < |opts| && opts[i].PrometheusOptWithRegisterer? && opts[i].reg != null :: opts[i].reg
  }

  /** Registering the counter, then the Go collector when enabled; the histogram is never registered. */
  function Registration(collectors: set<Collector>, enableGoMetric: bool): (r: Result<set<Collector>>)
    ensures r.Ok? ==> RequestsDuration !in r.value - collectors
    ensures r.Ok? ==> RequestsCounter in r.value && (GoCollector in r.value - collectors <==> enableGoMetric)
    ensures r.Ok? <==> RequestsCounter !in collectors && (enableGoMetric ==> GoCollector !in collectors)
  {
    if RequestsCounter in collectors then Err(DuplicateRegistration)
    else if enableGoMetric && GoCollector in collectors then Err(DuplicateRegistration)
    else Ok(collectors + {RequestsCounter} + (if enableGoMetric then {GoCollector} else {}))
  }

  /** The labels a request is counted under. */
  datatype Labels = Labels(code: string, httpMethod: string, path: string)

  /** The current count of a label combination (zero before the first request). */
  function Count(m: map<Labels, nat>, k: Labels): nat
  {
    if k in m then m[k] else 0
  }

  /** The durations observed for a label combination. */
  function Observed(m: map<Labels, seq<int>>, k: Labels): seq<int>
  {
    if k in m then m[k] else []
  }

  /** Inc on one label combination. */
  function Bump(m: map<Labels, nat>, k: Labels): (r: map<Labels, nat>)
    ensures forall j :: Count(r, j) == Count(m, j) + (if j == k then 1 else 0)
  {
    m[k := Count(m, k) + 1]
  }

  /** Observe on one label combination. */
  function Observe(m: map<Labels, seq<int>>, k: Labels, d: int): (r: map<Labels, seq<int>>)
    ensures forall j :: j != k ==> Observed(r, j) == Observed(m, j)
    ensures Observed(r, k) == Observed(m, k) + [d]
  {
    m[k := Observed(m, k) + [d]]
  }

  /** The counts sum to the number of requests counted: each Inc adds exactly one. */
  ghost function Total(m: map<Labels, nat>): nat
    decreases |m|
  {
    if m == map[] then 0
    else
      var k := Pick(m.Keys);
      m[k] + Total(m - {k})
  }

  ghost function Pick(s: set<Labels>): (k: Labels)
    requires s != {}
    ensures k in s
  {
    var k :| k in s; k
  }

  lemma {:induction false} TotalRemove(m: map<Labels, nat>, k: Labels)
    requires k in m
    ensures Total(m) == m[k] + Total(m - {k})
    decreases |m|
  {
    var p := Pick(m.Keys);
    if p != k {
      assert (m - {p}) - {k} == (m - {k}) - {p};
      TotalRemove(m - {p}, k);
      TotalRemove(m - {k}, p);
    }
  }

  lemma BumpAddsOne(m: map<Labels, nat>, k: Labels)
    ensures Total(Bump(m, k)) == Total(m) + 1
  {
    var r := Bump(m, k);
    TotalRemove(r, k);
    assert r - {k} == m - {k};
    if k in m {
      TotalRemove(m, k);
    } else {
      assert m - {k} == m;
    }
  }

  /** The labels of a request answered with `code`. */
  function LabelsOf(code: int, v: RequestView): Labels
    requires v.url.Some?
  {
    Labels(Itoa(code), v.httpMethod, v.url.value.path)
  }

  /** What the recorder holds after the wrapped handler answered. */
  function RecorderAfter(reply: Reply): (rec: WriterState)
    ensures rec.header == reply.header && rec.body == reply.body
    ensures StatusOf(rec) == (if reply.status.Some? then reply.status.value else 200)
  {
    Delivered(WriterState(map[], None, []), reply, None)
  }

  class Prometheus {
    const baseMux: Downstream
    const exposition: Option<RequestView> -> Reply
    var enableGoMetric: bool
    var registerer: Registry?
    var gatherer: Registry?
    const logger: Logger
    var requests: map<Labels, nat>
    var durations: map<Labels, seq<int>>

    function Current(): Settings
      reads this
    {
      Settings(enableGoMetric, registerer, gatherer)
    }

    constructor (baseMux: Downstream, exposition: Option<RequestView> -> Reply)
      ensures this.baseMux == baseMux && this.exposition == exposition
      ensures Current() == Defaults && logger == NoopLogger
      ensures requests == map[] && durations == map[]
    {
      this.baseMux := baseMux;
      this.exposition := exposition;
      enableGoMetric := false;
      registerer := null;
      gatherer := null;
      logger := NoopLogger;
      requests := map[];
      durations := map[];
    }

    method Apply(opt: PrometheusOpt) returns (err: Option<string>)
      modifies this
      ensures ApplyOpt(old(Current()), opt).Err? ==> err == Some(ApplyOpt(old(Current()), opt).error)
      ensures ApplyOpt(old(Current()), opt).Ok? ==> err.None? && Current() == ApplyOpt(old(Current()), opt).value
      ensures requests == old(requests) && durations == old(durations)
    {
      err := None;
      match opt
      case PrometheusOptEnableGoMetric(b) => enableGoMetric := b;
      case PrometheusOptWithRegisterer(reg) =>
        if reg == null {
          err := Some(EmptyRegisterer);
        } else {
          registerer := reg;
        }
      case PrometheusOptWithGatherer(g) =>
        if g == null {
          err := Some(EmptyGatherer);
        } else {
          gatherer := g;
        }
    }

    /**
     * Serve one request. "/metrics" goes to the exposition handler and
     * counts nothing. Any other request is answered by the wrapped handler
     * into a recorder, counted once under (recorded status, method, path),
     * timed under the same labels, and copied to the client; a failed body
     * write is only logged.
     *
     * The request and its URL must not be nil: the labels dereference both.
     */
    method ServeHTTP(w: ResponseWriter, req: Request, ctx: Ctx, elapsed: int, sink: LogSink)
      requires req.url.Some?
      modifies this, w, baseMux, sink
      ensures req.View() == old(req.View())
      ensures Current() == old(Current())
      ensures old(req.url.value.path) == MetricsPath ==>
        && w.State() == Delivered(old(w.State()), exposition(Some(old(req.View()))), w.writeErr)
        && requests == old(requests) && durations == old(durations)
        && baseMux.seen == old(baseMux.seen) && sink.calls == old(sink.calls)
      ensures old(req.url.value.path) != MetricsPath ==>
        var rec := RecorderAfter(baseMux.respond(Some(old(req.View()))));
        var labels := LabelsOf(StatusOf(rec), old(req.View()));
        && baseMux.seen == old(baseMux.seen) + [Some(old(req.View()))]
        && requests == Bump(old(requests), labels)
        && durations == Observe(old(durations), labels, elapsed)
        && w.State() == Forwarded(old(w.State()), rec, w.writeErr)
        && sink.calls == old(sink.calls)
             + (if w.writeErr.Some?
                then [Leveled(logger, ErrorLevel, ctx, WriteBodyError, [KV("bytes_written", Num(0)), KV("error", Str(w.writeErr.value))])]
                else [])
    {
      if req.url.value.path == MetricsPath {
        var handler := new Downstream(exposition);
        handler.ServeHTTP(w, req);
        return;
      }
      ServeCounted(w, req, ctx, elapsed, sink);
    }

    /** The counted path of ServeHTTP: every request but "/metrics". */
    method ServeCounted(w: ResponseWriter, req: Request, ctx: Ctx, elapsed: int, sink: LogSink)
      requires req.url.Some?
      modifies this, w, baseMux, sink
      ensures req.View() == old(req.View())
      ensures Current() == old(Current())
      ensures var rec := RecorderAfter(baseMux.respond(Some(old(req.View()))));
        var labels := LabelsOf(StatusOf(rec), old(req.View()));
        && baseMux.seen == old(baseMux.seen) + [Some(old(req.View()))]
        && requests == Bump(old(requests), labels)
        && durations == Observe(old(durations), labels, elapsed)
        && w.State() == Forwarded(old(w.State()), rec, w.writeErr)
        && sink.calls == old(sink.calls)
             + (if w.writeErr.Some?
                then [Leveled(logger, ErrorLevel, ctx, WriteBodyError, [KV("bytes_written", Num(0)), KV("error", Str(w.writeErr.value))])]
                else [])
    {
      var rec := new ResponseWriter.Recorder();
      baseMux.ServeHTTP(rec, req);
      ghost var recorded := RecorderAfter(baseMux.respond(Some(req.View())));
      assert rec.State() == recorded;

      var code := StatusOf(rec.State());
      var labels := Labels(Itoa(code), req.httpMethod, req.url.value.path);
      Record(labels, elapsed);

      var err := CopyRecorded(w, rec.State());
      if err.Some? {
        var end := Log(logger, sink, ErrorLevel, ctx, WriteBodyError, [KV("bytes_written", Num(0)), KV("error", Str(err.value))]);
      }
    }

    /** Inc on the request counter and Observe on the duration histogram, under the same labels. */
    method Record(labels: Labels, elapsed: int)
      modifies this
      ensures requests == Bump(old(requests), labels)
      ensures durations == Observe(old(durations), labels, elapsed)
      ensures Current() == old(Current())
    {
      requests := requests[labels := Count(requests, labels) + 1];
      durations := durations[labels := Observed(durations, labels) + [elapsed]];
    }
  }

  /**
   * PrometheusMiddleware: a nil handler is refused first; then the options
   * in order, stopping at the first error; then a missing registerer or
   * gatherer is refused; then the request counter is registered, and the Go
   * collector too when enabled. The duration histogram is never registered.
   * A failure to register the Go collector leaves the counter registered;
   * no other registry is touched, and none at all on an earlier failure.
   */
  method PrometheusMiddleware(baseMux: Downstream?, exposition: Option<RequestView> -> Reply, opts: seq<PrometheusOpt>)
    returns (p: Prometheus?, err: Option<string>)
    modifies Registries(opts)
    ensures p == null <==> err.Some?
    ensures baseMux == null ==> err == Some(NilHandler)
    ensures var r := ApplyOpts(Defaults, opts);
      baseMux != null ==>
        if r.Err? then err == Some(r.error)
        else if r.value.registerer == null then err == Some(NilRegisterer)
        else if r.value.gatherer == null then err == Some(NilGatherer)
        else
          var before := old(r.value.registerer.collectors);
          var reg := Registration(before, r.value.enableGoMetric);
          && (reg.Ok? <==> err.None?)
          && (reg.Err? ==> err == Some(DuplicateRegistration))
          && (reg.Ok? ==> r.value.registerer.collectors == reg.value)
          && (reg.Err? ==> r.value.registerer.collectors == before + (if RequestsCounter in before then {} else {RequestsCounter}))
          && (p != null ==> fresh(p) && p.Current() == r.value && p.baseMux == baseMux
                            && p.requests == map[] && p.durations == map[] && p.logger == NoopLogger)
    ensures var r := ApplyOpts(Defaults, opts);
      var registering := baseMux != null && r.Ok? && r.value.registerer != null && r.value.gatherer != null;
      forall g :: g in Registries(opts) && !(registering && g == r.value.registerer) ==> g.collectors == old(g.collectors)
  {
    if baseMux == null {
      return null, Some(NilHandler);
    }
    var prom := new Prometheus(baseMux, exposition);
    var i := 0;
    while i < |opts|
      invariant 0 <= i <= |opts|
      invariant ApplyOpts(Defaults, opts) == ApplyOpts(prom.Current(), opts[i..])
      invariant prom.requests == map[] && prom.durations == map[]
      invariant prom.registerer != null ==> prom.registerer in Registries(opts)
      modifies prom
    {
      assert opts[i..][0] == opts[i] && opts[i..][1..] == opts[i + 1..];
      var e := prom.Apply(opts[i]);
      if e.Some? {
        return null, e;
      }
      i := i + 1;
    }
    assert ApplyOpts(Defaults, opts) == Ok(prom.Current());
    if prom.registerer == null {
      return null, Some(NilRegisterer);
    }
    if prom.gatherer == null {
      return null, Some(NilGatherer);
    }
    var e := prom.registerer.Register(RequestsCounter);
    if e.Some? {
      return null, e;
    }
    if prom.enableGoMetric {
      e := prom.registerer.Register(GoCollector);
      if e.Some? {
        return null, e;
      }
    }
    return prom, None;
  }

  /** Without options there is no registerer, so construction fails. */
  lemma NoOptionsFails()
    ensures ApplyOpts(Defaults, []) == Ok(Defaults) && Defaults.registerer == null
  {
  }

  /** The counters count every request once: their total grows by one per counted request. */
  lemma {:induction false} CountsAddUp(m: map<Labels, nat>, ks: seq<Labels>)
    ensures Total(BumpAll(m, ks)) == Total(m) + |ks|
    decreases |ks|
  {
    if ks != [] {
      CountsAddUp(m, ks[..|ks| - 1]);
      BumpAddsOne(BumpAll(m, ks[..|ks| - 1]), ks[|ks| - 1]);
    }
  }

  /** The counters after counting each of `ks` in turn. */
  function BumpAll(m: map<Labels, nat>, ks: seq<Labels>): map<Labels, nat>
    decreases |ks|
  {
    if ks == [] then m else Bump(BumpAll(m, ks[..|ks| - 1]), ks[|ks| - 1])
  }
}

=== FILE: string_order.dfy ===
/**
 * sort.Strings as the metric registry uses it: strings ordered byte by
 * byte (for UTF-8 text, code point by code point), and a sort that yields
 * the ordered permutation of its input. The registry compares two label
 * lists after sorting both; the lemmas here show that this comparison is
 * exactly "same elements, same multiplicities".
 */
module StringOrder {

  /** a <= b in lexicographic order. */
  predicate StrLe(a: string, b: string)
    decreases |a|
  {
    if a == [] then true
    else if b == [] then false
    else if a[0] < b[0] then true
    else if a[0] > b[0] then false
    else StrLe(a[1..], b[1..])
  }

  lemma {:induction false} StrLeReflexive(a: string)
    ensures StrLe(a, a)
    decreases |a|
  {
    if a != [] {
      StrLeReflexive(a[1..]);
    }
  }

  lemma {:induction false} StrLeTotal(a: string, b: string)
    ensures StrLe(a, b) || StrLe(b, a)
    decreases |a|
  {
    if a != [] && b != [] && a[0] == b[0] {
      StrLeTotal(a[1..], b[1..]);
    }
  }

  lemma {:induction false} StrLeAntisymmetric(a: string, b: string)
    requires StrLe(a, b) && StrLe(b, a)
    ensures a == b
    decreases |a|
  {
    if a != [] && b != [] {
      StrLeAntisymmetric(a[1..], b[1..]);
      assert a == [a[0]] + a[1..] && b == [b[0]] + b[1..];
    }
  }

  lemma {:induction false} StrLeTransitive(a: string, b: string, c: string)
    requires StrLe(a, b) && StrLe(b, c)
    ensures StrLe(a, c)
    decreases |a|
  {
    if a != [] && b != [] && c != [] && a[0] == b[0] && b[0] == c[0] {
      StrLeTransitive(a[1..], b[1..], c[1..]);
    }
  }

  predicate Sorted(s: seq<string>)
  {
    forall i, j :: 0 <= i < j < |s| ==> StrLe(s[i], s[j])
  }

  /** Insert x before the first element it is not above. */
  function Insert(x: string, s: seq<string>): (r: seq<string>)
    ensures multiset(r) == multiset(s) + multiset{x}
    ensures |r| == |s| + 1
  {
    if s == [] then [x]
    else if StrLe(x, s[0]) then [x] + s
    else
      assert s == [s[0]] + s[1..];
      [s[0]] + Insert(x, s[1..])
  }

  /** Inserting into a sorted sequence keeps it sorted. */
  lemma {:induction false} InsertKeepsSorted(x: string, s: seq<string>)
    requires Sorted(s)
    ensures Sorted(Insert(x, s))
    decreases |s|
  {
    if s == [] {
    } else if StrLe(x, s[0]) {
      var r := [x] + s;
      forall i, j | 0 <= i < j < |r| ensures StrLe(r[i], r[j]) {
        if i == 0 && j > 1 {
          StrLeTransitive(x, s[0], s[j - 1]);
        }
      }
    } else {
      var rest := Insert(x, s[1..]);
      InsertKeepsSorted(x, s[1..]);
      StrLeTotal(x, s[0]);
      var r := [s[0]] + rest;
      forall j | 0 < j < |r| ensures StrLe(r[0], r[j]) {
        var e := r[j];
        assert e == rest[j - 1];
        assert e in multiset(rest);
        if e != x {
          assert e in multiset(s[1..]);
          var k :| 0 <= k < |s[1..]| && s[1..][k] == e;
          assert StrLe(s[0], s[k + 1]);
        }
      }
      forall i, j | 0 <= i < j < |r| ensures StrLe(r[i], r[j]) {
        if i > 0 {
          assert r[i] == rest[i - 1] && r[j] == rest[j - 1];
        }
      }
    }
  }

  /** sort.Strings: the sorted permutation. */
  function SortStrings(s: seq<string>): (r: seq<string>)
    ensures Sorted(r)
    ensures multiset(r) == multiset(s)
    ensures |r| == |s|
  {
    if s == [] then []
    else
      assert s == s[..|s| - 1] + [s[|s| - 1]];
      InsertKeepsSorted(s[|s| - 1], SortStrings(s[..|s| - 1]));
      Insert(s[|s| - 1], SortStrings(s[..|s| - 1]))
  }

  /** Two non-empty sorted sequences with the same elements start alike. */
  lemma SortedHeads(a: seq<string>, b: seq<string>)
    requires Sorted(a) && Sorted(b)
    requires multiset(a) == multiset(b)
    requires a != [] && b != []
    ensures a[0] == b[0]
  {
    assert a[0] in multiset(b);
    assert b[0] in multiset(a);
    var i :| 0 <= i < |b| && b[i] == a[0];
    var j :| 0 <= j < |a| && a[j] == b[0];
    assert StrLe(b[0], a[0]) by {
      if i > 0 { assert StrLe(b[0], b[i]); } else { StrLeReflexive(a[0]); }
    }
    assert StrLe(a[0], b[0]) by {
      if j > 0 { assert StrLe(a[0], a[j]); } else { StrLeReflexive(a[0]); }
    }
    StrLeAntisymmetric(a[0], b[0]);
  }

  /** Dropping the first element keeps a sequence sorted. */
  lemma SortedTail(a: seq<string>)
    requires Sorted(a) && a != []
    ensures Sorted(a[1..])
  {
    forall i, j | 0 <= i < j < |a| - 1
      ensures StrLe(a[1..][i], a[1..][j])
    {
      assert a[1..][i] == a[i + 1] && a[1..][j] == a[j + 1];
    }
  }

  /** Two sorted sequences with the same elements are the same sequence. */
  lemma {:induction false} SortedUnique(a: seq<string>, b: seq<string>)
    requires Sorted(a) && Sorted(b)
    requires multiset(a) == multiset(b)
    ensures a == b
    decreases |a|
  {
    assert |a| == |multiset(a)| == |multiset(b)| == |b|;
    if a != [] {
      SortedHeads(a, b);
      SortedTail(a);
      SortedTail(b);
      assert multiset(a[1..]) == multiset(b[1..]) by {
        assert a == [a[0]] + a[1..] && b == [b[0]] + b[1..];
        assert multiset(a[1..]) == multiset(a) - multiset{a[0]};
        assert multiset(b[1..]) == multiset(b) - multiset{b[0]};
      }
      SortedUnique(a[1..], b[1..]);
    }
  }

  /** Comparing sorted copies ignores order and nothing else. */
  lemma SortedEqualIffPermutation(a: seq<string>, b: seq<string>)
    ensures SortStrings(a) == SortStrings(b) <==> multiset(a) == multiset(b)
  {
    if multiset(a) == multiset(b) {
      SortedUnique(SortStrings(a), SortStrings(b));
    }
  }

  /** Sorting a sorted sequence changes nothing. */
  lemma SortSortedIsIdentity(s: seq<string>)
    requires Sorted(s)
    ensures SortStrings(s) == s
  {
    SortedUnique(SortStrings(s), s);
  }

  predicate Distinct(s: seq<string>)
  {
    forall i, j :: 0 <= i < j < |s| ==> s[i] != s[j]
  }

  /** A sequence without repeats counts each of its elements once. */
  lemma {:induction false} DistinctCounts(s: seq<string>, x: string)
    requires Distinct(s)
    ensures multiset(s)[x] == if x in s then 1 else 0
    decreases |s|
  {
    if s != [] {
      var init := s[..|s| - 1];
      assert s == init + [s[|s| - 1]];
      assert Distinct(init);
      DistinctCounts(init, x);
      if x == s[|s| - 1] {
        assert x !in init;
      }
    }
  }

  /** Two sequences without repeats are permutations exactly when they hold the same elements. */
  lemma SameElementsIffPermutation(a: seq<string>, b: seq<string>)
    requires Distinct(a) && Distinct(b)
    ensures multiset(a) == multiset(b) <==> (forall x :: x in a <==> x in b)
  {
    if forall x :: x in a <==> x in b {
      forall x ensures multiset(a)[x] == multiset(b)[x] {
        DistinctCounts(a, x);
        DistinctCounts(b, x);
      }
    }
    if multiset(a) == multiset(b) {
      forall x ensures x in a <==> x in b {
        assert x in a <==> x in multiset(a);
        assert x in b <==> x in multiset(b);
      }
    }
  }
}

=== FILE: tracer_exporter.dfy ===
/**
 * NewTracerExporter (pkg/oteltracer): the span exporter chosen by name.
 * The name is trimmed and upper-cased, then dispatched; the three push
 * backends need a non-blank endpoint, and every endpoint has a default.
 * The exporters themselves are tags carrying what they were built from.
 */
module TracerExporter {
  import opened Common

  const NilLogger: string := "cannot use nil logger"
  const JaegerEmpty: string := "cannot use OpenTelemetry JAEGER if OTEL_EXPORTER_JAEGER_ENDPOINT is empty"
  const OtlpEmpty: string := "cannot use OpenTelemetry OTLP if OTEL_EXPORTER_OTLP_ENDPOINT is empty"
  const OtlpGrpcEmpty: string := "cannot use OpenTelemetry OTLP_GRPC if OTEL_EXPORTER_OTLP_GRPC_ENDPOINT is empty"

  function UnknownName(name: string): string
  {
    "unknown name='" + name + "' for OpenTelemetry span exporter"
  }

  /** An io.Writer: the process's standard output or another writer. */
  datatype Writer = OsStdout | OtherWriter(id: nat)

  /** An http.RoundTripper value: the default transport, nil, or another one. */
  datatype TransportRef = DefaultTransport | NilTransport | OtherTransport(id: nat)

  datatype Exporter =
    | JaegerExporter(endpoint: string, transport: TransportRef)
    | OtlpHttpExporter(endpoint: string)
    | OtlpGrpcExporter(endpoint: string)
    | StdoutExporter(writer: Writer)
    | NoopExporter

  datatype ExporterOption = ExporterOption(
    logger: Writer,
    jaegerEndpoint: string,
    otlpEndpoint: string,
    otlpGrpcEndpoint: string,
    httpRoundTripper: TransportRef)

  const DefaultJaeger: string := "http://localhost:14268/api/traces"
  const DefaultOtlp: string := "localhost:4318"
  const DefaultOtlpGrpc: string := "localhost:4317"

  const Defaults: ExporterOption := ExporterOption(OsStdout, DefaultJaeger, DefaultOtlp, DefaultOtlpGrpc, DefaultTransport)

  datatype ExporterOpt =
    | WithLogger(logger: Option<Writer>)
    | WithJaegerEndpoint(endpoint: string)
    | WithOTLPEndpoint(endpoint: string)
    | WithOTLPGrpcEndpoint(endpoint: string)
    | WithHttpRoundTripper(transport: TransportRef)

  /**
   * One option: a nil logger is refused and any other writer becomes the
   * STDOUT writer; every endpoint, blank ones included, and every round
   * tripper, nil included, is taken as given.
   */
  function ApplyOpt(o: ExporterOption, opt: ExporterOpt): (r: Result<ExporterOption>)
    ensures r.Err? <==> opt == WithLogger(None)
    ensures r.Err? ==> r.error == NilLogger
    ensures opt.WithLogger? && opt.logger.Some? ==> r == Ok(o.(logger := opt.logger.value))
    ensures opt.WithHttpRoundTripper? ==> r == Ok(o.(httpRoundTripper := opt.transport))
    ensures opt.WithJaegerEndpoint? ==> r == Ok(o.(jaegerEndpoint := opt.endpoint))
    ensures opt.WithOTLPEndpoint? ==> r == Ok(o.(otlpEndpoint := opt.endpoint))
    ensures opt.WithOTLPGrpcEndpoint? ==> r == Ok(o.(otlpGrpcEndpoint := opt.endpoint))
  {
    match opt
    case WithLogger(l) => if l.None? then Err(NilLogger) else Ok(o.(logger := l.value))
    case WithJaegerEndpoint(e) => Ok(o.(jaegerEndpoint := e))
    case WithOTLPEndpoint(e) => Ok(o.(otlpEndpoint := e))
    case WithOTLPGrpcEndpoint(e) => Ok(o.(otlpGrpcEndpoint := e))
    case WithHttpRoundTripper(t) => Ok(o.(httpRoundTripper := t))
  }

  /** The options in order, stopping at the first error. */
  function ApplyOpts(o: ExporterOption, opts: seq<ExporterOpt>): Result<ExporterOption>
    decreases |opts|
  {
    if opts == [] then Ok(o)
    else
      var r := ApplyOpt(o, opts[0]);
      if r.Err? then Err(r.error) else ApplyOpts(r.value, opts[1..])
  }

  /** The options fail exactly when one of them is a nil logger. */
  lemma {:induction false} NilLoggerFailsOptions(o: ExporterOption, opts: seq<ExporterOpt>)
    ensures ApplyOpts(o, opts).Err? <==> WithLogger(None) in opts
    ensures ApplyOpts(o, opts).Err? ==> ApplyOpts(o, opts).error == NilLogger
    decreases |opts|
  {
    if opts != [] {
      assert opts == [opts[0]] + opts[1..];
      var r := ApplyOpt(o, opts[0]);
      if r.Ok? {
        NilLoggerFailsOptions(r.value, opts[1..]);
      }
    }
  }

  /** An option added last acts on the settings the earlier ones produced. */
  lemma {:induction false} ApplyOptsLast(o: ExporterOption, opts: seq<ExporterOpt>, opt: ExporterOpt)
    ensures ApplyOpts(o, opts + [opt]) ==
      if ApplyOpts(o, opts).Err? then ApplyOpts(o, opts) else ApplyOpt(ApplyOpts(o, opts).value, opt)
    decreases |opts|
  {
    if opts == [] {
      assert opts + [opt] == [opt];
    } else {
      assert (opts + [opt])[0] == opts[0] && (opts + [opt])[1..] == opts[1..] + [opt];
      var r := ApplyOpt(o, opts[0]);
      if r.Ok? {
        ApplyOptsLast(r.value, opts[1..], opt);
      }
    }
  }

  /** The writer of the last WithLogger option carrying one, or `w` when there is none. */
  function LastLogger(w: Writer, opts: seq<ExporterOpt>): Writer
    decreases |opts|
  {
    if opts == [] then w
    else LastLogger(if opts[0].WithLogger? && opts[0].logger.Some? then opts[0].logger.value else w, opts[1..])
  }

  /** The round tripper of the last WithHttpRoundTripper option, or `t` when there is none. */
  function LastTransport(t: TransportRef, opts: seq<ExporterOpt>): TransportRef
    decreases |opts|
  {
    if opts == [] then t
    else LastTransport(if opts[0].WithHttpRoundTripper? then opts[0].transport else t, opts[1..])
  }

  /** The endpoint of the last WithJaegerEndpoint option, or `e` when there is none. */
  function LastJaegerEndpoint(e: string, opts: seq<ExporterOpt>): string
    decreases |opts|
  {
    if opts == [] then e
    else LastJaegerEndpoint(if opts[0].WithJaegerEndpoint? then opts[0].endpoint else e, opts[1..])
  }

  /**
   * Without a nil logger the options succeed, and the writer, round tripper
   * and Jaeger endpoint they leave are those of the last option setting each.
   */
  lemma {:induction false} OptionsKeepLast(o: ExporterOption, opts: seq<ExporterOpt>)
    requires WithLogger(None) !in opts
    ensures ApplyOpts(o, opts).Ok?
    ensures ApplyOpts(o, opts).value.logger == LastLogger(o.logger, opts)
    ensures ApplyOpts(o, opts).value.httpRoundTripper == LastTransport(o.httpRoundTripper, opts)
    ensures ApplyOpts(o, opts).value.jaegerEndpoint == LastJaegerEndpoint(o.jaegerEndpoint, opts)
    decreases |opts|
  {
    if opts != [] {
      assert opts[0] in opts;
      assert forall x :: x in opts[1..] ==> x in opts;
      OptionsKeepLast(ApplyOpt(o, opts[0]).value, opts[1..]);
    }
  }

  /** The name as dispatched: surrounding white space removed, upper case. */
  function Normalize(name: string): (n: string)
    ensures Trimmed(n)
  {
    ToUpperKeepsTrimmed(TrimSpace(name));
    ToUpper(TrimSpace(name))
  }

  /** Normalizing twice is normalizing once. */
  lemma NormalizeIdempotent(name: string)
    ensures Normalize(Normalize(name)) == Normalize(name)
  {
    var n := Normalize(name);
    assert TrimSpace(n) == n;
    ToUpperIdempotent(TrimSpace(name));
  }

  /** The exporter for a normalized name and final settings. */
  function Dispatch(name: string, cfg: ExporterOption): Result<Exporter>
  {
    if name == "JAEGER" then
      var e := TrimSpace(cfg.jaegerEndpoint);
      if e == "" then Err(JaegerEmpty) else Ok(JaegerExporter(e, cfg.httpRoundTripper))
    else if name == "OTLP" then
      var e := TrimSpace(cfg.otlpEndpoint);
      if e == "" then Err(OtlpEmpty) else Ok(OtlpHttpExporter(e))
    else if name == "OTLP_GRPC" then
      var e := TrimSpace(cfg.otlpGrpcEndpoint);
      if e == "" then Err(OtlpGrpcEmpty) else Ok(OtlpGrpcExporter(e))
    else if name == "STDOUT" then Ok(StdoutExporter(cfg.logger))
    else if name == "" || name == "NOOP" then Ok(NoopExporter)
    else Err(UnknownName(name))
  }

  /** The normalized names the dispatch knows. */
  predicate Recognised(n: string)
  {
    n == "JAEGER" || n == "OTLP" || n == "OTLP_GRPC" || n == "STDOUT" || n == "" || n == "NOOP"
  }

  /** What NewTracerExporter returns for a name and options. */
  function Exporting(name: string, opts: seq<ExporterOpt>): Result<Exporter>
  {
    var cfg := ApplyOpts(Defaults, opts);
    if cfg.Err? then Err(cfg.error) else Dispatch(Normalize(name), cfg.value)
  }

  // ---------------------------------------------------------------------
  // Properties of the selection

  /** Selection ignores case and surrounding white space. */
  lemma IgnoresCaseAndSpace(name: string, opts: seq<ExporterOpt>)
    ensures Exporting(name, opts) == Exporting(Normalize(name), opts)
  {
    NormalizeIdempotent(name);
  }

  /** A nil logger fails the call before any name is looked at. */
  lemma NilLoggerFails(name: string, opts: seq<ExporterOpt>)
    requires WithLogger(None) in opts
    ensures Exporting(name, opts) == Err(NilLogger)
  {
    NilLoggerFailsOptions(Defaults, opts);
  }

  /** Without a nil logger, "" and NOOP give the no-op exporter. */
  lemma NoopAlwaysSucceeds(name: string, opts: seq<ExporterOpt>)
    requires Normalize(name) == "" || Normalize(name) == "NOOP"
    requires WithLogger(None) !in opts
    ensures Exporting(name, opts) == Ok(NoopExporter)
  {
    NilLoggerFailsOptions(Defaults, opts);
  }

  /** Without a nil logger, any other unrecognised name fails with that (normalized) name in the message. */
  lemma UnknownNameFails(name: string, opts: seq<ExporterOpt>)
    requires !Recognised(Normalize(name))
    requires WithLogger(None) !in opts
    ensures Exporting(name, opts) == Err(UnknownName(Normalize(name)))
  {
    NilLoggerFailsOptions(Defaults, opts);
  }

  /**
   * STDOUT writes to the writer of the last WithLogger option, or to the
   * process's standard output when no option sets one.
   */
  lemma StdoutUsesLastLogger(name: string, opts: seq<ExporterOpt>)
    requires Normalize(name) == "STDOUT"
    requires WithLogger(None) !in opts
    ensures Exporting(name, opts) == Ok(StdoutExporter(LastLogger(OsStdout, opts)))
  {
    OptionsKeepLast(Defaults, opts);
  }

  /**
   * JAEGER, when the endpoint left by the options is not blank, sends to that
   * endpoint, trimmed, through the round tripper of the last
   * WithHttpRoundTripper option, or the default transport.
   */
  lemma JaegerUsesLastTransport(name: string, opts: seq<ExporterOpt>)
    requires Normalize(name) == "JAEGER"
    requires WithLogger(None) !in opts
    requires TrimSpace(LastJaegerEndpoint(DefaultJaeger, opts)) != ""
    ensures Exporting(name, opts)
         == Ok(JaegerExporter(TrimSpace(LastJaegerEndpoint(DefaultJaeger, opts)), LastTransport(DefaultTransport, opts)))
  {
    OptionsKeepLast(Defaults, opts);
    var cfg := ApplyOpts(Defaults, opts).value;
    assert Exporting(name, opts) == Dispatch("JAEGER", cfg);
  }

  /** A text that starts with a non-space is not blank. */
  lemma NotBlank(s: string)
    requires s != [] && !IsSpace(s[0])
    ensures TrimSpace(s) != ""
  {
  }

  /** The default endpoints are not blank, so the push backends never fail on them. */
  lemma DefaultEndpointsNotBlank()
    ensures TrimSpace(Defaults.jaegerEndpoint) != ""
    ensures TrimSpace(Defaults.otlpEndpoint) != ""
    ensures TrimSpace(Defaults.otlpGrpcEndpoint) != ""
  {
    NotBlank(Defaults.jaegerEndpoint);
    NotBlank(Defaults.otlpEndpoint);
    NotBlank(Defaults.otlpGrpcEndpoint);
  }

  /**
   * The defaults give every push backend a non-blank endpoint: without
   * options the only failure is an unrecognised name.
   */
  lemma DefaultsSucceed(name: string)
    ensures Exporting(name, []).Err? ==> Exporting(name, []) == Err(UnknownName(Normalize(name)))
  {
    var n := Normalize(name);
    WithoutOptions(name);
    DefaultEndpointsNotBlank();
    DispatchWithEndpoints(n, Defaults);
  }

  /** Without options every recognised name gives an exporter. */
  lemma DefaultsRecognised(name: string)
    requires Recognised(Normalize(name))
    ensures Exporting(name, []).Ok?
  {
    DefaultEndpointsNotBlank();
    WithoutOptions(name);
    DispatchWithEndpoints(Normalize(name), Defaults);
  }

  lemma WithoutOptions(name: string)
    ensures Exporting(name, []) == Dispatch(Normalize(name), Defaults)
  {
    assert ApplyOpts(Defaults, []) == Ok(Defaults);
  }

  /** With non-blank endpoints, dispatch fails only on an unrecognised name. */
  lemma DispatchWithEndpoints(n: string, cfg: ExporterOption)
    requires TrimSpace(cfg.jaegerEndpoint) != ""
    requires TrimSpace(cfg.otlpEndpoint) != ""
    requires TrimSpace(cfg.otlpGrpcEndpoint) != ""
    ensures Dispatch(n, cfg).Ok? <==> Recognised(n)
    ensures Dispatch(n, cfg).Err? ==> Dispatch(n, cfg) == Err(UnknownName(n))
  {
  }

  /** A push backend whose endpoint is set blank by the last option fails. */
  lemma BlankEndpointFails(name: string, opts: seq<ExporterOpt>, e: string)
    requires AllSpace(e)
    requires WithLogger(None) !in opts
    ensures Normalize(name) == "JAEGER" ==> Exporting(name, opts + [WithJaegerEndpoint(e)]) == Err(JaegerEmpty)
    ensures Normalize(name) == "OTLP" ==> Exporting(name, opts + [WithOTLPEndpoint(e)]) == Err(OtlpEmpty)
    ensures Normalize(name) == "OTLP_GRPC" ==> Exporting(name, opts + [WithOTLPGrpcEndpoint(e)]) == Err(OtlpGrpcEmpty)
  {
    NilLoggerFailsOptions(Defaults, opts);
    ApplyOptsLast(Defaults, opts, WithJaegerEndpoint(e));
    ApplyOptsLast(Defaults, opts, WithOTLPEndpoint(e));
    ApplyOptsLast(Defaults, opts, WithOTLPGrpcEndpoint(e));
  }

  // ---------------------------------------------------------------------
  // The constructor

  /** http.DefaultClient, which the constructor reconfigures. */
  class DefaultClient {
    var transport: TransportRef

    constructor ()
      ensures transport == DefaultTransport
    {
      transport := DefaultTransport;
    }
  }

  /**
   * NewTracerExporter: defaults, the options in order (the first error is
   * returned), then the process-wide default client's transport is replaced
   * by the configured one, whatever the name, and the name is dispatched.
   */
  method NewTracerExporter(name: string, opts: seq<ExporterOpt>, client: DefaultClient)
    returns (exp: Option<Exporter>, err: Option<string>)
    modifies client
    ensures var r := Exporting(name, opts);
      && (r.Ok? ==> exp == Some(r.value) && err.None?)
      && (r.Err? ==> exp.None? && err == Some(r.error))
    ensures var cfg := ApplyOpts(Defaults, opts);
      client.transport == if cfg.Ok? then cfg.value.httpRoundTripper else old(client.transport)
  {
    var cfg := Defaults;
    var i := 0;
    while i < |opts|
      invariant 0 <= i <= |opts|
      invariant ApplyOpts(Defaults, opts) == ApplyOpts(cfg, opts[i..])
      invariant client.transport == old(client.transport)
    {
      assert opts[i..][0] == opts[i] && opts[i..][1..] == opts[i + 1..];
      var r := ApplyOpt(cfg, opts[i]);
      if r.Err? {
        return None, Some(r.error);
      }
      cfg := r.value;
      i := i + 1;
    }
    client.transport := cfg.httpRoundTripper;

    var n := TrimSpace(name);
    n := ToUpper(n);
    if n == "JAEGER" {
      var endpoint := TrimSpace(cfg.jaegerEndpoint);
      if endpoint == "" {
        return None, Some(JaegerEmpty);
      }
      return Some(JaegerExporter(endpoint, cfg.httpRoundTripper)), None;
    } else if n == "OTLP" {
      var endpoint := TrimSpace(cfg.otlpEndpoint);
      if endpoint == "" {
        return None, Some(OtlpEmpty);
      }
      return Some(OtlpHttpExporter(endpoint)), None;
    } else if n == "OTLP_GRPC" {
      var endpoint := TrimSpace(cfg.otlpGrpcEndpoint);
      if endpoint == "" {
        return None, Some(OtlpGrpcEmpty);
      }
      return Some(OtlpGrpcExporter(endpoint)), None;
    } else if n == "STDOUT" {
      return Some(StdoutExporter(cfg.logger)), None;
    } else if n == "" || n == "NOOP" {
      return Some(NoopExporter), None;
    }
    exp, err := None, Some(UnknownName(n));
  }
}

=== FILE: tracer_exporter_internal.dfy ===
/**
 * NewTracerExporter (internal/pkg/oteltracer): the older exporter
 * selection. The name is normalized as in pkg/oteltracer, but there are
 * no endpoint defaults, options never fail (nil and empty arguments are
 * ignored), OTLP_GRPC is not offered, and STDOUT writes through a
 * debug-logging writer instead of the process's standard output.
 */
module TracerExporterInternal {
  import opened Common
  import opened Ylog
  import TracerExporter

  /** loggerIOWriter as built by debugWriter: a context and a logger. */
  datatype DebugWriter = DebugWriter(ctx: Ctx, logger: Logger)

  const TracerLogMsg: string := "tracer log"

  datatype Exporter =
    | JaegerExporter(endpoint: string)
    | OtlpHttpExporter(ctx: Ctx, endpoint: string)
    | StdoutExporter(writer: DebugWriter)
    | NoopExporter

  datatype ExpOption = ExpOption(ctx: Ctx, logger: Logger, jaegerEndpoint: string, otlpEndpoint: string)

  /** A background context, the no-op logger and no endpoints. */
  const Defaults: ExpOption := ExpOption(Background, NoopLogger, "", "")

  datatype ExporterOpt =
    | WithContext(ctx: Option<Ctx>)
    | WithLogger(logger: Option<Logger>)
    | WithJaegerEndpoint(endpoint: string)
    | WithOTLPEndpoint(endpoint: string)

  /** One option: a nil context, a nil logger or an empty endpoint leaves the settings as they were. */
  function ApplyOpt(o: ExpOption, opt: ExporterOpt): (r: ExpOption)
    ensures opt == WithContext(None) || opt == WithLogger(None) ==> r == o
    ensures opt == WithJaegerEndpoint("") || opt == WithOTLPEndpoint("") ==> r == o
    ensures opt.WithContext? && opt.ctx.Some? ==> r == o.(ctx := opt.ctx.value)
    ensures opt.WithLogger? && opt.logger.Some? ==> r == o.(logger := opt.logger.value)
    ensures opt.WithJaegerEndpoint? && opt.endpoint != "" ==> r == o.(jaegerEndpoint := opt.endpoint)
    ensures opt.WithOTLPEndpoint? && opt.endpoint != "" ==> r == o.(otlpEndpoint := opt.endpoint)
  {
    match opt
    case WithContext(c) => if c.None? then o else o.(ctx := c.value)
    case WithLogger(l) => if l.None? then o else o.(logger := l.value)
    case WithJaegerEndpoint(e) => if e == "" then o else o.(jaegerEndpoint := e)
    case WithOTLPEndpoint(e) => if e == "" then o else o.(otlpEndpoint := e)
  }

  /** The options applied in order; none of them can fail. */
  function ApplyOpts(o: ExpOption, opts: seq<ExporterOpt>): ExpOption
    decreases |opts|
  {
    if opts == [] then o else ApplyOpt(ApplyOpts(o, opts[..|opts| - 1]), opts[|opts| - 1])
  }

  /** Whether an option sets the Jaeger endpoint to a non-empty string. */
  predicate SetsJaeger(opt: ExporterOpt)
  {
    opt.WithJaegerEndpoint? && opt.endpoint != ""
  }

  /** Whether an option sets the OTLP endpoint to a non-empty string. */
  predicate SetsOtlp(opt: ExporterOpt)
  {
    opt.WithOTLPEndpoint? && opt.endpoint != ""
  }

  /** One option changes the Jaeger endpoint only when it sets a non-empty one. */
  lemma JaegerStep(o: ExpOption, opt: ExporterOpt)
    ensures ApplyOpt(o, opt).jaegerEndpoint == if opt.WithJaegerEndpoint? && opt.endpoint != "" then opt.endpoint else o.jaegerEndpoint
  {
  }

  /** With no option setting a non-empty Jaeger endpoint, the starting one is kept. */
  lemma {:induction false} JaegerUnset(o: ExpOption, opts: seq<ExporterOpt>)
    requires forall i :: 0 <= i < |opts| ==> !SetsJaeger(opts[i])
    ensures ApplyOpts(o, opts).jaegerEndpoint == o.jaegerEndpoint
    decreases |opts|
  {
    if opts != [] {
      var init := opts[..|opts| - 1];
      assert forall i :: 0 <= i < |init| ==> init[i] == opts[i];
      JaegerUnset(o, init);
      JaegerStep(ApplyOpts(o, init), opts[|opts| - 1]);
    }
  }

  /** Otherwise the last option setting a non-empty Jaeger endpoint decides it. */
  lemma {:induction false} JaegerLast(o: ExpOption, opts: seq<ExporterOpt>, i: int)
    requires 0 <= i < |opts| && SetsJaeger(opts[i])
    requires forall j :: i < j < |opts| ==> !SetsJaeger(opts[j])
    ensures ApplyOpts(o, opts).jaegerEndpoint == opts[i].endpoint
    decreases |opts|
  {
    var init := opts[..|opts| - 1];
    JaegerStep(ApplyOpts(o, init), opts[|opts| - 1]);
    if i < |opts| - 1 {
      assert forall j :: 0 <= j < |init| ==> init[j] == opts[j];
      JaegerLast(o, init, i);
    }
  }

  /** One option changes the Otlp endpoint only when it sets a non-empty one. */
  lemma OtlpStep(o: ExpOption, opt: ExporterOpt)
    ensures ApplyOpt(o, opt).otlpEndpoint == if opt.WithOTLPEndpoint? && opt.endpoint != "" then opt.endpoint else o.otlpEndpoint
  {
  }

  /** With no option setting a non-empty Otlp endpoint, the starting one is kept. */
  lemma {:induction false} OtlpUnset(o: ExpOption, opts: seq<ExporterOpt>)
    requires forall i :: 0 <= i < |opts| ==> !SetsOtlp(opts[i])
    ensures ApplyOpts(o, opts).otlpEndpoint == o.otlpEndpoint
    decreases |opts|
  {
    if opts != [] {
      var init := opts[..|opts| - 1];
      assert forall i :: 0 <= i < |init| ==> init[i] == opts[i];
      OtlpUnset(o, init);
      OtlpStep(ApplyOpts(o, init), opts[|opts| - 1]);
    }
  }

  /** Otherwise the last option setting a non-empty Otlp endpoint decides it. */
  lemma {:induction false} OtlpLast(o: ExpOption, opts: seq<ExporterOpt>, i: int)
    requires 0 <= i < |opts| && SetsOtlp(opts[i])
    requires forall j :: i < j < |opts| ==> !SetsOtlp(opts[j])
    ensures ApplyOpts(o, opts).otlpEndpoint == opts[i].endpoint
    decreases |opts|
  {
    var init := opts[..|opts| - 1];
    OtlpStep(ApplyOpts(o, init), opts[|opts| - 1]);
    if i < |opts| - 1 {
      assert forall j :: 0 <= j < |init| ==> init[j] == opts[j];
      OtlpLast(o, init, i);
    }
  }

  /** Options that are all nil or empty change nothing. */
  lemma {:induction false} IgnoredOptions(o: ExpOption, opts: seq<ExporterOpt>)
    requires forall i :: 0 <= i < |opts| ==> opts[i] in {WithContext(None), WithLogger(None), WithJaegerEndpoint(""), WithOTLPEndpoint("")}
    ensures ApplyOpts(o, opts) == o
    decreases |opts|
  {
    if opts != [] {
      IgnoredOptions(o, opts[..|opts| - 1]);
    }
  }

  /** The exporter for a normalized name and final settings. */
  function Dispatch(name: string, cfg: ExpOption): Result<Exporter>
  {
    if name == "JAEGER" then
      var e := TrimSpace(cfg.jaegerEndpoint);
      if e == "" then Err(TracerExporter.JaegerEmpty) else Ok(JaegerExporter(e))
    else if name == "OTLP" then
      var e := TrimSpace(cfg.otlpEndpoint);
      if e == "" then Err(TracerExporter.OtlpEmpty) else Ok(OtlpHttpExporter(cfg.ctx, e))
    else if name == "STDOUT" then Ok(StdoutExporter(DebugWriter(cfg.ctx, cfg.logger)))
    else if name == "" || name == "NOOP" then Ok(NoopExporter)
    else Err(TracerExporter.UnknownName(name))
  }

  /** What NewTracerExporter returns for a name and options. */
  function Exporting(name: string, opts: seq<ExporterOpt>): Result<Exporter>
  {
    Dispatch(TracerExporter.Normalize(name), ApplyOpts(Defaults, opts))
  }

  // ---------------------------------------------------------------------
  // Properties of the selection

  /** Selection ignores case and surrounding white space. */
  lemma IgnoresCaseAndSpace(name: string, opts: seq<ExporterOpt>)
    ensures Exporting(name, opts) == Exporting(TracerExporter.Normalize(name), opts)
  {
    TracerExporter.NormalizeIdempotent(name);
  }

  /** "" and NOOP give the no-op exporter whatever the options, nil ones included. */
  lemma NoopAlwaysSucceeds(name: string, opts: seq<ExporterOpt>)
    requires TracerExporter.Normalize(name) == "" || TracerExporter.Normalize(name) == "NOOP"
    ensures Exporting(name, opts) == Ok(NoopExporter)
  {
  }

  /** STDOUT always succeeds, writing through the final context and logger. */
  lemma StdoutAlwaysSucceeds(name: string, opts: seq<ExporterOpt>)
    requires TracerExporter.Normalize(name) == "STDOUT"
    ensures Exporting(name, opts) == Ok(StdoutExporter(DebugWriter(ApplyOpts(Defaults, opts).ctx, ApplyOpts(Defaults, opts).logger)))
  {
  }

  /** OTLP_GRPC is not offered here: it fails as an unknown name. */
  lemma OtlpGrpcUnknown(name: string, opts: seq<ExporterOpt>)
    requires TracerExporter.Normalize(name) == "OTLP_GRPC"
    ensures Exporting(name, opts) == Err(TracerExporter.UnknownName("OTLP_GRPC"))
  {
    assert "OTLP_GRPC" != "JAEGER" by { assert |"JAEGER"| == 6; }
    assert "OTLP_GRPC" != "OTLP" by { assert |"OTLP"| == 4; }
    assert "OTLP_GRPC" != "STDOUT" by { assert |"STDOUT"| == 6; }
    assert "OTLP_GRPC" != "NOOP" by { assert |"NOOP"| == 4; }
  }

  /** Any name outside the four offered fails, with the normalized name in the message. */
  lemma UnknownNameFails(name: string, opts: seq<ExporterOpt>)
    requires TracerExporter.Normalize(name) !in {"JAEGER", "OTLP", "STDOUT", "", "NOOP"}
    ensures Exporting(name, opts) == Err(TracerExporter.UnknownName(TracerExporter.Normalize(name)))
  {
  }

  /** Without a non-empty WithJaegerEndpoint there is no endpoint, so JAEGER fails. */
  lemma JaegerNeedsEndpoint(name: string, opts: seq<ExporterOpt>)
    requires TracerExporter.Normalize(name) == "JAEGER"
    requires forall i :: 0 <= i < |opts| ==> !SetsJaeger(opts[i])
    ensures Exporting(name, opts) == Err(TracerExporter.JaegerEmpty)
  {
    JaegerUnset(Defaults, opts);
  }

  /** Without a non-empty WithOTLPEndpoint there is no endpoint, so OTLP fails. */
  lemma OtlpNeedsEndpoint(name: string, opts: seq<ExporterOpt>)
    requires TracerExporter.Normalize(name) == "OTLP"
    requires forall i :: 0 <= i < |opts| ==> !SetsOtlp(opts[i])
    ensures Exporting(name, opts) == Err(TracerExporter.OtlpEmpty)
  {
    OtlpUnset(Defaults, opts);
    assert "OTLP" != "JAEGER" by { assert |"JAEGER"| == 6; }
  }

  /** JAEGER uses the trimmed endpoint of the last option that sets a non-empty one. */
  lemma JaegerUsesLastEndpoint(name: string, opts: seq<ExporterOpt>, i: int)
    requires TracerExporter.Normalize(name) == "JAEGER"
    requires 0 <= i < |opts| && SetsJaeger(opts[i])
    requires forall j :: i < j < |opts| ==> !SetsJaeger(opts[j])
    requires !AllSpace(opts[i].endpoint)
    ensures Exporting(name, opts) == Ok(JaegerExporter(TrimSpace(opts[i].endpoint)))
  {
    JaegerLast(Defaults, opts, i);
  }

  /**
   * Where the two selections part: with no options, pkg/oteltracer serves
   * JAEGER, OTLP and OTLP_GRPC from its default endpoints, while this one
   * fails on all three.
   */
  lemma DivergesFromPackageVariant(name: string)
    requires var n := TracerExporter.Normalize(name); n == "JAEGER" || n == "OTLP" || n == "OTLP_GRPC"
    ensures TracerExporter.Exporting(name, []).Ok?
    ensures Exporting(name, []).Err?
  {
    TracerExporter.DefaultsRecognised(name);
    assert ApplyOpts(Defaults, []) == Defaults;
  }

  // ---------------------------------------------------------------------
  // The constructor and the debug writer

  /**
   * NewTracerExporter: defaults, the options in order, then the normalized
   * name is dispatched. The error result is set exactly when no exporter is.
   */
  method NewTracerExporter(name: string, opts: seq<ExporterOpt>) returns (exp: Option<Exporter>, err: Option<string>)
    ensures var r := Exporting(name, opts);
      && (r.Ok? ==> exp == Some(r.value) && err.None?)
      && (r.Err? ==> exp.None? && err == Some(r.error))
  {
    var cfg := Defaults;
    var i := 0;
    while i < |opts|
      invariant 0 <= i <= |opts|
      invariant cfg == ApplyOpts(Defaults, opts[..i])
    {
      assert opts[..i + 1][..i] == opts[..i];
      cfg := ApplyOpt(cfg, opts[i]);
      i := i + 1;
    }
    assert opts[..i] == opts;

    var n := TrimSpace(name);
    n := ToUpper(n);
    if n == "JAEGER" {
      var endpoint := TrimSpace(cfg.jaegerEndpoint);
      if endpoint == "" {
        return None, Some(TracerExporter.JaegerEmpty);
      }
      return Some(JaegerExporter(endpoint)), None;
    } else if n == "OTLP" {
      var endpoint := TrimSpace(cfg.otlpEndpoint);
      if endpoint == "" {
        return None, Some(TracerExporter.OtlpEmpty);
      }
      return Some(OtlpHttpExporter(cfg.ctx, endpoint)), None;
    } else if n == "STDOUT" {
      return Some(StdoutExporter(DebugWriter(cfg.ctx, cfg.logger))), None;
    } else if n == "" || n == "NOOP" {
      return Some(NoopExporter), None;
    }
    exp, err := None, Some(TracerExporter.UnknownName(n));
  }

  /**
   * loggerIOWriter.Write: one Debug call "tracer log" whose field "data"
   * holds the parsed JSON or the raw text; it always reports all of p
   * written and no error.
   */
  method Write(w: DebugWriter, p: Bytes, isJson: JsonCheck, sink: LogSink) returns (n: int, err: Option<string>)
    modifies sink
    ensures n == |p| && err.None?
    ensures sink.calls == old(sink.calls) + [Leveled(w.logger, DebugLevel, w.ctx, TracerLogMsg, [KV("data", JsonOrText(isJson, p))])]
    ensures sink.entries == old(sink.entries) + EntriesOf(w.logger, DebugLevel, w.ctx, TracerLogMsg, [KV("data", JsonOrText(isJson, p))])
  {
    var obj := JsonOrText(isJson, p);
    var end := Log(w.logger, sink, DebugLevel, w.ctx, TracerLogMsg, [KV("data", obj)]);
    n, err := |p|, None;
  }
}

=== FILE: tracing.dfy ===
/**
 * The OpenTelemetry API surface the components hold on to. Spans, their
 * timing and their exporters are outside this model: a tracer provider is
 * a value naming its implementation, and a tracer is the provider plus the
 * instrumentation name it was asked for.
 */
module Tracing {

  datatype TracerProvider = NoopTracerProvider | SdkTracerProvider(id: nat)

  datatype Tracer = Tracer(provider: TracerProvider, instrumentationName: string)

  /** TracerProvider.Tracer(name). */
  function TracerOf(tp: TracerProvider, name: string): (t: Tracer)
    ensures t.provider == tp && t.instrumentationName == name
  {
    Tracer(tp, name)
  }
}

=== FILE: trailing_slash.dfy ===
/**
 * RemoveTrailingSlash: a middleware that strips every trailing '/' from the
 * request path before handing the request on.
 */
module TrailingSlash {
  import opened Common
  import opened Http

  /** strings.TrimRight(path, "/"). */
  function TrimSlashes(path: string): (r: string)
    ensures r == [] || r[|r| - 1] != '/'
    ensures |r| <= |path| && path[..|r|] == r
    ensures forall k :: |r| <= k < |path| ==> path[k] == '/'
  {
    TrimRightChar(path, '/')
  }

  /** Trimming twice is trimming once. */
  lemma TrimSlashesIdempotent(path: string)
    ensures TrimSlashes(TrimSlashes(path)) == TrimSlashes(path)
  {
  }

  /** Two paths that differ only in trailing slashes are routed alike. */
  lemma {:induction false} TrimSlashesIgnoresTrailing(path: string, n: nat)
    ensures TrimSlashes(path + seq(n, _ => '/')) == TrimSlashes(path)
    decreases n
  {
    var longer := path + seq(n, _ => '/');
    if n > 0 {
      assert longer[|longer| - 1] == '/';
      assert longer[..|longer| - 1] == path + seq(n - 1, _ => '/');
      assert TrimRightChar(longer, '/') == TrimRightChar(longer[..|longer| - 1], '/');
      TrimSlashesIgnoresTrailing(path, n - 1);
    } else {
      assert longer == path;
    }
  }

  lemma TrimSlashesExamples()
    ensures TrimSlashes("/ping/////") == "/ping"
    ensures TrimSlashes("/") == ""
    ensures TrimSlashes("/a/b") == "/a/b"
  {
    TrimSlashesIgnoresTrailing("/ping", 5);
    assert "/ping" + seq(5, _ => '/') == "/ping/////";
    TrimSlashesIgnoresTrailing("", 1);
    assert "" + seq(1, _ => '/') == "/";
  }

  /** The request view after the middleware: the path trimmed, everything else kept. */
  function Stripped(v: RequestView): (r: RequestView)
    ensures r.httpMethod == v.httpMethod && r.header == v.header && r.body == v.body
    ensures v.url.None? ==> r.url.None?
    ensures v.url.Some? ==> r.url == Some(v.url.value.(path := TrimSlashes(v.url.value.path)))
  {
    if v.url.Some? then v.(url := Some(v.url.value.(path := TrimSlashes(v.url.value.path)))) else v
  }

  class RemoveTrailingSlash {
    const next: Downstream

    constructor (next: Downstream)
      ensures this.next == next
    {
      this.next := next;
    }

    /**
     * Strip the path in place when there is a request with a URL, then call
     * the next handler exactly once with the same writer and request.
     */
    method ServeHTTP(w: ResponseWriter, req: Request?)
      modifies req, next, w
      ensures req != null ==> req.View() == Stripped(old(req.View()))
      ensures next.seen == old(next.seen) + [if req == null then None else Some(Stripped(old(req.View())))]
      ensures w.State() == Delivered(old(w.State()), next.respond(ViewOf(req)), w.writeErr)
    {
      if req != null && req.url.Some? {
        req.url := Some(req.url.value.(path := TrimSlashes(req.url.value.path)));
      }
      next.ServeHTTP(w, req);
    }
  }
}

=== FILE: ylog.dfy ===
/**
 * The logging contract of the service (a Logger with six levels, Access
 * for access records and static fields), its zap-backed implementation,
 * its no-op implementation, and the helpers around them.
 *
 * A logger is a value naming its implementation. What a call does is an
 * effect on a LogSink: every call made on a logger is appended to
 * `calls`, and what the zap implementation hands to zap is appended to
 * `entries`. The no-op logger hands nothing on.
 */
module Ylog {
  import opened Common

  datatype Level = DebugLevel | InfoLevel | WarnLevel | ErrorLevel | PanicLevel | FatalLevel

  /** The span a context.Context carries, if any. */
  datatype SpanIds = SpanIds(traceId: string, spanId: string)
  datatype Ctx = Ctx(span: Option<SpanIds>)

  const Background: Ctx := Ctx(None)

  /** The values the components hand to a logger. */
  datatype Value =
    | Nil
    | JsonValue(source: Bytes)   // the value json.Unmarshal decodes from `source`
    | Text(bytes: Bytes)         // string(p) for a byte slice p
    | Str(s: string)
    | Num(n: int)
    | Access(data: AccessLogData)

  /**
   * The value logged for bytes p: what json.Unmarshal decodes when p is
   * valid JSON, otherwise string(p).
   */
  function JsonOrText(isJson: JsonCheck, p: Bytes): (v: Value)
    ensures isJson(p) ==> v == JsonValue(p)
    ensures !isJson(p) ==> v == Text(p)
  {
    if isJson(p) then JsonValue(p) else Text(p)
  }

  /** One request or response of an access record. */
  datatype HTTPData = HTTPData(statusCode: int, header: map<string, string>, body: Value)

  /** The access record the HTTP middlewares log. */
  datatype AccessLogData = AccessLogData(
    httpMethod: string,
    host: string,
    path: string,
    request: Option<HTTPData>,
    response: Option<HTTPData>,
    error: string,
    elapsedTime: int)

  const EmptyAccessLog: AccessLogData := AccessLogData("", "", "", None, None, "", 0)

  /** A key and a value attached to a log call. */
  datatype KeyValue = KeyValue(key: string, value: Value)

  /** KV, with its Key and Value accessors. */
  function KV(k: string, v: Value): (kv: KeyValue)
    ensures kv.key == k && kv.value == v
  {
    KeyValue(k, v)
  }

  /** A zap field as zap.Any / zap.String build it. */
  datatype ZapField = ZapField(key: string, value: Value)

  /** The two implementations of Logger in the service. */
  datatype Logger =
    | NoopLogger
    | ZapLogger(level: Level, staticFields: seq<ZapField>)

  datatype LogCall =
    | Leveled(logger: Logger, level: Level, ctx: Ctx, msg: string, fields: seq<KeyValue>)
    | AccessCall(logger: Logger, ctx: Ctx, msg: string, data: AccessLogData)

  datatype ZapEntry = ZapEntry(level: Level, msg: string, fields: seq<ZapField>)

  class LogSink {
    var calls: seq<LogCall>
    var entries: seq<ZapEntry>

    constructor ()
      ensures calls == [] && entries == []
    {
      calls := [];
      entries := [];
    }
  }

  // ---------------------------------------------------------------------
  // SetupZapLogger

  /** The zap level SetupZapLogger picks for a level name; DEBUG when the name is unknown. */
  function LevelOf(name: string): (l: Level)
    ensures ToUpper(name) == "INFO" ==> l == InfoLevel
    ensures ToUpper(name) == "WARN" ==> l == WarnLevel
    ensures ToUpper(name) == "ERROR" ==> l == ErrorLevel
    ensures ToUpper(name) == "PANIC" ==> l == PanicLevel
    ensures ToUpper(name) == "FATAL" ==> l == FatalLevel
    ensures ToUpper(name) !in {"INFO", "WARN", "ERROR", "PANIC", "FATAL"} ==> l == DebugLevel
  {
    match ToUpper(name)
    case "DEBUG" => DebugLevel
    case "INFO" => InfoLevel
    case "WARN" => WarnLevel
    case "ERROR" => ErrorLevel
    case "PANIC" => PanicLevel
    case "FATAL" => FatalLevel
    case _ => DebugLevel
  }

  /** A zap logger with no static fields at the level the name selects. */
  function SetupZapLogger(level: string): (l: Logger)
    ensures l.ZapLogger? && l.staticFields == [] && l.level == LevelOf(level)
  {
    ZapLogger(LevelOf(level), [])
  }

  /** The level name is read without regard to case. */
  lemma LevelOfIgnoresCase(name: string)
    ensures LevelOf(ToUpper(name)) == LevelOf(name)
  {
    ToUpperIdempotent(name);
  }

  // ---------------------------------------------------------------------
  // Zap fields

  /** zap.Any(field.Key(), field.Value()) for each field, in order. */
  function AnyFields(fields: seq<KeyValue>): (zs: seq<ZapField>)
    ensures |zs| == |fields|
    ensures forall i :: 0 <= i < |fields| ==> zs[i] == ZapField(fields[i].key, fields[i].value)
  {
    seq(|fields|, i requires 0 <= i < |fields| => ZapField(fields[i].key, fields[i].value))
  }

  /** The trace fields of a context: trace_id then span_id when it carries a span. */
  function TraceFields(ctx: Ctx): (zs: seq<ZapField>)
    ensures ctx.span.None? ==> zs == []
    ensures ctx.span.Some? ==> zs == [ZapField("trace_id", Str(ctx.span.value.traceId)),
                                      ZapField("span_id", Str(ctx.span.value.spanId))]
  {
    match ctx.span
    case None => []
    case Some(ids) => [ZapField("trace_id", Str(ids.traceId)), ZapField("span_id", Str(ids.spanId))]
  }

  /**
   * The zap fields of one call: the trace fields of the context first, then
   * every field of the call in order.
   */
  method LocalFieldZapFields(ctx: Ctx, fields: seq<KeyValue>) returns (out: seq<ZapField>)
    ensures out == TraceFields(ctx) + AnyFields(fields)
    ensures |out| == |fields| + (if ctx.span.Some? then 2 else 0)
  {
    out := [];
    if ctx.span.Some? {
      out := out + [ZapField("trace_id", Str(ctx.span.value.traceId))];
    }
    if ctx.span.Some? {
      out := out + [ZapField("span_id", Str(ctx.span.value.spanId))];
    }
    var i := 0;
    while i < |fields|
      invariant 0 <= i <= |fields|
      invariant out == TraceFields(ctx) + AnyFields(fields[..i])
    {
      assert AnyFields(fields[..i + 1]) == AnyFields(fields[..i]) + [ZapField(fields[i].key, fields[i].value)];
      out := out + [ZapField(fields[i].key, fields[i].value)];
      i := i + 1;
    }
    assert fields[..i] == fields;
  }

  /** What a logger hands to zap for one leveled call. */
  function EntriesOf(logger: Logger, level: Level, ctx: Ctx, msg: string, fields: seq<KeyValue>): (es: seq<ZapEntry>)
    ensures logger.NoopLogger? ==> es == []
    ensures logger.ZapLogger? ==> |es| == 1 && es[0].level == level && es[0].msg == msg
    ensures logger.ZapLogger? ==> es[0].fields == logger.staticFields + TraceFields(ctx) + AnyFields(fields)
  {
    match logger
    case NoopLogger => []
    case ZapLogger(_, fixed) => [ZapEntry(level, msg, fixed + TraceFields(ctx) + AnyFields(fields))]
  }

  /** How a leveled call ends: it returns, panics after writing, or exits the process after writing. */
  datatype CallEnd = Returns | Panics | Exits

  /**
   * Debug, Info, Warn, Error, Panic and Fatal: forward the message and
   * fields at that level. Zap's Panic panics and its Fatal exits the
   * process once the entry is written; the no-op logger always returns.
   */
  method Log(logger: Logger, sink: LogSink, level: Level, ctx: Ctx, msg: string, fields: seq<KeyValue>)
    returns (end: CallEnd)
    modifies sink
    ensures sink.calls == old(sink.calls) + [Leveled(logger, level, ctx, msg, fields)]
    ensures sink.entries == old(sink.entries) + EntriesOf(logger, level, ctx, msg, fields)
    ensures end == Panics <==> logger.ZapLogger? && level == PanicLevel
    ensures end == Exits <==> logger.ZapLogger? && level == FatalLevel
  {
    sink.calls := sink.calls + [Leveled(logger, level, ctx, msg, fields)];
    end := Returns;
    if logger.ZapLogger? {
      var zs := LocalFieldZapFields(ctx, fields);
      assert logger.staticFields + zs == logger.staticFields + TraceFields(ctx) + AnyFields(fields);
      sink.entries := sink.entries + [ZapEntry(level, msg, logger.staticFields + zs)];
      if level == PanicLevel {
        end := Panics;
      } else if level == FatalLevel {
        end := Exits;
      }
    }
  }

  /** Access: an Info entry whose one call field is "data" holding the record. */
  method LogAccess(logger: Logger, sink: LogSink, ctx: Ctx, msg: string, data: AccessLogData)
    modifies sink
    ensures sink.calls == old(sink.calls) + [AccessCall(logger, ctx, msg, data)]
    ensures sink.entries == old(sink.entries) + EntriesOf(logger, InfoLevel, ctx, msg, [KV("data", Access(data))])
  {
    sink.calls := sink.calls + [AccessCall(logger, ctx, msg, data)];
    if logger.ZapLogger? {
      var zs := LocalFieldZapFields(ctx, [KV("data", Access(data))]);
      assert logger.staticFields + zs == logger.staticFields + TraceFields(ctx) + AnyFields([KV("data", Access(data))]);
      sink.entries := sink.entries + [ZapEntry(InfoLevel, msg, logger.staticFields + zs)];
    }
  }

  /**
   * Zap.WithStaticFields: a new zap logger whose entries carry the given
   * fields after the receiver's own static fields; the receiver is a value
   * and stays as it was.
   */
  method WithStaticFields(z: Logger, fields: seq<KeyValue>) returns (r: Logger)
    requires z.ZapLogger?
    ensures r.ZapLogger? && r.level == z.level
    ensures r.staticFields == z.staticFields + AnyFields(fields)
  {
    var zapFields: seq<ZapField> := [];
    var i := 0;
    while i < |fields|
      invariant 0 <= i <= |fields|
      invariant zapFields == AnyFields(fields[..i])
    {
      assert AnyFields(fields[..i + 1]) == AnyFields(fields[..i]) + [ZapField(fields[i].key, fields[i].value)];
      zapFields := zapFields + [ZapField(fields[i].key, fields[i].value)];
      i := i + 1;
    }
    assert fields[..i] == fields;
    r := ZapLogger(z.level, z.staticFields + zapFields);
  }

  /** Static fields added in two steps come out as if added at once, in order. */
  lemma WithStaticFieldsTwice(z: Logger, a: seq<KeyValue>, b: seq<KeyValue>)
    requires z.ZapLogger?
    ensures z.staticFields + AnyFields(a) + AnyFields(b) == z.staticFields + AnyFields(a + b)
  {
    assert AnyFields(a) + AnyFields(b) == AnyFields(a + b);
  }

  // ---------------------------------------------------------------------
  // errOut: zap's own error output

  const ErrOutHead: string := "{\"level\":\"error\",\"ts\":\""
  const ErrOutAfterTime: string := "\","
  const ErrOutMsg: string := "\"msg\":\"zap error and cannot do some process\","
  const ErrOutLogType: string := "\"log_type\":\"sys\","
  const ErrOutErrorKey: string := "\"error\":\""
  const ErrOutClose: string := "\"}"

  /** The line errOut writes for zap's error text `b` at time `now`. */
  function ErrOutLine(now: string, b: string): (line: string)
    ensures |line| > |ErrOutHead| && line[..|ErrOutHead|] == ErrOutHead
    ensures line[|line| - 1] == '\n'
    ensures |line| > |ErrOutHead| + |TrimSpace(b)| + |ErrOutClose|
    ensures line[|line| - 1 - |ErrOutClose| - |TrimSpace(b)|..|line| - 1 - |ErrOutClose|] == TrimSpace(b)
  {
    Framed(ErrOutPrefix(now), TrimSpace(b), ErrOutClose + "\n")
  }

  /** Everything errOut writes before the error text. */
  function ErrOutPrefix(now: string): (p: string)
    ensures |p| > |ErrOutHead| && p[..|ErrOutHead|] == ErrOutHead
  {
    ErrOutHead + now + ErrOutAfterTime + ErrOutMsg + ErrOutLogType + ErrOutErrorKey
  }

  /**
   * The byte count of an errOut line: the error text, trimmed, counts its
   * UTF-8 bytes, after a prefix that depends only on the time, and before
   * three closing bytes.
   */
  lemma ErrOutLineBytes(now: string, b: string)
    ensures Utf8Len(ErrOutLine(now, b)) == Utf8Len(ErrOutPrefix(now)) + Utf8Len(TrimSpace(b)) + 3
  {
    var tail := ErrOutClose + "\n";
    Utf8LenAppend(ErrOutPrefix(now), TrimSpace(b));
    Utf8LenAppend(ErrOutPrefix(now) + TrimSpace(b), tail);
    assert IsAscii(tail);
    Utf8LenAscii(tail);
  }

  /** head + t + tail, with t found just before tail. */
  function Framed(head: string, t: string, tail: string): (line: string)
    ensures |line| == |head| + |t| + |tail|
    ensures line[..|head|] == head
    ensures line[|line| - |tail| - |t|..|line| - |tail|] == t
    ensures line[|line| - |tail|..] == tail
  {
    head + t + tail
  }

  /** Standard output: what was printed so far, and whether printing fails. */
  class Stdout {
    var text: string
    const failure: Option<string>

    constructor (failure: Option<string>)
      ensures text == [] && this.failure == failure
    {
      text := [];
      this.failure := failure;
    }
  }

  /**
   * errOut.Write: one JSON line built piece by piece and printed with
   * fmt.Fprint, whose result it returns: the number of bytes printed.
   */
  method ErrOutWrite(b: string, now: string, stdout: Stdout) returns (n: int, err: Option<string>)
    modifies stdout
    ensures err == stdout.failure
    ensures err.None? ==> stdout.text == old(stdout.text) + ErrOutLine(now, b) && n == Utf8Len(ErrOutLine(now, b))
    ensures err.Some? ==> stdout.text == old(stdout.text) && n == 0
  {
    var buf := ErrOutHead;
    buf := buf + now;
    buf := buf + ErrOutAfterTime;
    buf := buf + ErrOutMsg;
    buf := buf + ErrOutLogType;
    buf := buf + ErrOutErrorKey;
    ghost var head := buf;
    buf := buf + TrimSpace(b);
    buf := buf + ErrOutClose;
    buf := buf + "\n";
    assert head == ErrOutPrefix(now);
    assert buf == head + TrimSpace(b) + (ErrOutClose + "\n");
    if stdout.failure.Some? {
      n, err := 0, stdout.failure;
    } else {
      stdout.text := stdout.text + buf;
      n, err := Utf8Len(buf), None;
    }
  }
}

=== FILE: ylog_io_writer.dfy ===
/**
 * LoggerIOWriter: a Logger seen as an io.Writer. Every Write becomes one
 * Debug call carrying the written bytes.
 */
module YlogIOWriter {
  import opened Common
  import opened Ylog

  const DefaultMsg: string := "ylog.Logger wrap to io.Writer"

  datatype LoggerIOWriterOpt =
    | LoggerIOWriterWithContext(ctx: Option<Ctx>)
    | LoggerIOWriterWithMsg(msg: string)

  /** The context and message after one option: a nil context or a blank message changes nothing. */
  function ApplyOpt(ctx: Ctx, msg: string, opt: LoggerIOWriterOpt): (r: (Ctx, string))
    ensures opt.LoggerIOWriterWithContext? ==> r.1 == msg && r.0 == (if opt.ctx.Some? then opt.ctx.value else ctx)
    ensures opt.LoggerIOWriterWithMsg? ==> r.0 == ctx
    ensures opt.LoggerIOWriterWithMsg? && AllSpace(opt.msg) ==> r.1 == msg
    ensures opt.LoggerIOWriterWithMsg? && !AllSpace(opt.msg) ==> r.1 == TrimSpace(opt.msg)
  {
    match opt
    case LoggerIOWriterWithContext(c) => if c.None? then (ctx, msg) else (c.value, msg)
    case LoggerIOWriterWithMsg(m) =>
      var t := TrimSpace(m);
      if t == "" then (ctx, msg) else (ctx, t)
  }

  /** The options applied in order. */
  function ApplyOpts(ctx: Ctx, msg: string, opts: seq<LoggerIOWriterOpt>): (Ctx, string)
    decreases |opts|
  {
    if opts == [] then (ctx, msg)
    else
      var r := ApplyOpts(ctx, msg, opts[..|opts| - 1]);
      ApplyOpt(r.0, r.1, opts[|opts| - 1])
  }

  /** A writer's message is never blank: blank messages are refused and the default is not blank. */
  lemma {:induction false} ApplyOptsKeepsMessage(ctx: Ctx, msg: string, opts: seq<LoggerIOWriterOpt>)
    requires !AllSpace(msg) && Trimmed(msg)
    ensures !AllSpace(ApplyOpts(ctx, msg, opts).1) && Trimmed(ApplyOpts(ctx, msg, opts).1)
    decreases |opts|
  {
    if opts != [] {
      ApplyOptsKeepsMessage(ctx, msg, opts[..|opts| - 1]);
    }
  }

  class LoggerIOWriter {
    var ctx: Ctx
    var msg: string
    var logger: Logger

    /** WrapIOWriter: a nil logger becomes the no-op logger; options apply in order. */
    constructor WrapIOWriter(logger: Option<Logger>, opts: seq<LoggerIOWriterOpt>)
      ensures this.logger == (if logger.Some? then logger.value else NoopLogger)
      ensures (ctx, msg) == ApplyOpts(Background, DefaultMsg, opts)
      ensures !AllSpace(msg)
    {
      this.logger := if logger.Some? then logger.value else NoopLogger;
      ctx := Background;
      msg := DefaultMsg;
      new;
      var i := 0;
      while i < |opts|
        invariant 0 <= i <= |opts|
        invariant (ctx, msg) == ApplyOpts(Background, DefaultMsg, opts[..i])
        invariant this.logger == (if logger.Some? then logger.value else NoopLogger)
      {
        assert opts[..i + 1][..i] == opts[..i];
        Apply(opts[i]);
        i := i + 1;
      }
      assert opts[..i] == opts;
      assert DefaultMsg[0] == 'y' && DefaultMsg[|DefaultMsg| - 1] == 'r';
      ApplyOptsKeepsMessage(Background, DefaultMsg, opts);
    }

    method Apply(opt: LoggerIOWriterOpt)
      modifies this
      ensures (ctx, msg) == ApplyOpt(old(ctx), old(msg), opt)
      ensures logger == old(logger)
    {
      match opt
      case LoggerIOWriterWithContext(c) =>
        if c.Some? {
          ctx := c.value;
        }
      case LoggerIOWriterWithMsg(m) =>
        var t := TrimSpace(m);
        if t != "" {
          msg := t;
        }
    }

    /** Write: one Debug call with field "data"; it always reports all of p written. */
    method Write(p: Bytes, isJson: JsonCheck, sink: LogSink) returns (n: int, err: Option<string>)
      modifies sink
      ensures n == |p| && err.None?
      ensures sink.calls == old(sink.calls) + [Leveled(logger, DebugLevel, ctx, msg, [KV("data", JsonOrText(isJson, p))])]
      ensures sink.entries == old(sink.entries) + EntriesOf(logger, DebugLevel, ctx, msg, [KV("data", JsonOrText(isJson, p))])
    {
      var obj := JsonOrText(isJson, p);
      var end := Log(logger, sink, DebugLevel, ctx, msg, [KV("data", obj)]);
      n, err := |p|, None;
    }
  }
}
